=== FILE: README.md ===
# Othello with chance-card minigames — a Dafny model

This project models the logic of a JavaFX Othello game. The game has local, AI
and online modes, and "chance cards" that launch a minigame whose winner
imposes a forced move on the other side. The model covers:

- **The board engine** (`model/GameModel.java` and its older copy
  `GameModel.java`): the opening position, the eight-direction bracketing rule
  of `getPiecesToFlip`, move application, legal-move enumeration in row-major
  order, turn switching, disc counting, and the outcome and statistics
  decision of `saveGameResult`. The board is a sequence of 64 cells indexed
  `y * 8 + x`. As in the source, flip cells are `(row, col)` pairs (`Pos`) and
  moves are `(x, y)` pairs (`Move`).
- **The two controllers** (`ui/GameView.java` and the older `Main.java`):
  - click gating;
  - the "switch, then check for a pass" sequence after a move, and game-over
    detection;
  - opponent moves and colour assignment;
  - the chance cards: the owner's colour, the forced move with its turn
    override, and a minigame result arriving over the network.
- **The relay server** (`NetworkServer.java`): the wait list, rooms with
  increasing ids, colour assignment on a match, forwarding of every line to
  the partner, and clean-up on disconnect. Sockets and threads become
  sequential events.
- **The line protocol**: the handshake and `MOVE x y` encoders and the line
  decoders of both network clients, and the `MINIGAME_*` messages of
  `minigame/network/MinigameProtocol.java`.
- **The minigames**: the memory game's card-matching state machine and its
  hand-written JSON snapshot writer and reader; the rooster game's
  "finish once" latch.
- **AI move choice** (`service/AIPlayer.java`): the flip-count maximum used by
  MEDIUM, the dispatch by difficulty and API key, and the three-stage parser
  of the model's text reply.
- **Serialisers and validators**:
  - the settings map ⇄ `{"k":"v"}` text of `service/DatabaseService.java`, and
    its digest→hex encoding;
  - the login and registration checks of `ui/LoginView.java`;
  - the server dialog of `ui/MenuView.java`;
  - the defaults of `service/ConfigService.java`.

Java's `String` and `Integer` operations the code relies on are modelled once,
in `JavaText`: `indexOf`, `trim`, `split`, `parseInt`, `parseLong` and
`String.valueOf`. `Integer.parseInt` and `Character.isDigit` accept the decimal
digits of every script in the Basic Multilingual Plane (Arabic-Indic, Devanagari,
full-width and so on), as `Character.digit(c, 10)` does. The regular expressions'
`\d` and `[0-9]` accept ASCII digits only, as Java's do by default. Randomness is an oracle parameter: `pick: nat` chooses
element `pick % n` of a list, `coin: bool` is a `nextBoolean`, and
`rnd: nat -> nat` drives a shuffle. Lines written to sockets become `seq<string>`
outputs. Database and API answers become parameters.

## Behaviour worth knowing

- `applyForcedMove` does not itself check for the end of the game. It only
  reads the existing game-over flag (`ui/GameView.java:1270`). So a forced
  move never sets `gameOver`.
- A minigame failure reported by the peer is handled entirely by
  `handleMinigameResultFromNetwork`; the random move it may lead to is chosen
  locally by `handleRandomMove` (`ui/GameView.java:1210`).
- `setPlayerColor` differs between the controllers. `GameView` changes the
  colour only on "BLACK" or "WHITE" and keeps it otherwise. `Main` maps every
  text other than "BLACK" to White.

## Model

| member | source | states |
|---|---|---|
| Board.OpeningCells | src/main/java/org/example/model/GameModel.java:34-37 | The opening has White on (3,3) and (4,4), Black on (4,3) and (3,4), every other cell empty, and only the values 0, 1, 2 |
| Board.IndexInjective | src/main/java/org/example/model/GameModel.java:60 | Distinct board cells have distinct storage positions, so writing one cell never disturbs another |
| Board.WalkSpec | src/main/java/org/example/model/GameModel.java:86-90 | The inner `while` walk collects consecutive ray cells holding the opponent, in order, and stops at the first cell that is off the board or holds something else |
| Board.DirFlipsBracketed | src/main/java/org/example/model/GameModel.java:81-95 | One direction contributes exactly its bracketed run: `n` cells are flipped iff the first `n` ray cells hold the opponent and the next one, on the board, holds the mover |
| Board.FlipsBracketed | src/main/java/org/example/model/GameModel.java:72-98 | A cell is in `getPiecesToFlip` iff the target is an empty board cell and, in some direction, the cell lies inside a run of opponent discs closed by one of the mover's |
| Board.FlipsCells | src/main/java/org/example/model/GameModel.java:86-94 | Every returned flip is a board cell currently holding the opponent |
| Board.FlipsDistinct | src/main/java/org/example/model/GameModel.java:81-95 | The flip list holds no cell twice, because the eight rays from one target are disjoint |
| Board.Place | src/main/java/org/example/model/GameModel.java:49-66 | A move is refused iff the target is off the board, occupied, or flips nothing; on success the target and exactly the flips become the mover's and every other cell keeps its value |
| Board.PlaceTwiceFails | src/main/java/org/example/model/GameModel.java:50 | Placing on a cell just played is refused, whoever plays |
| Board.PlaceWellFormed | src/main/java/org/example/model/GameModel.java:60-63 | A move by Black or White keeps every cell in {0, 1, 2} |
| Board.PlaceScore | src/main/java/org/example/model/GameModel.java:60-63 | A successful move raises the mover's count by flips + 1, lowers the opponent's by the number of flips, and uses one empty cell |
| Board.CountPartition | src/main/java/org/example/model/GameModel.java:136-146 | On a board of 0/1/2 cells the Black, White and empty counts add up to the board size |
| Board.ValidMovesSpec | src/main/java/org/example/model/GameModel.java:104-117 | The legal-move list holds exactly the empty cells with a non-empty flip list, each once, in strictly increasing row-major order (y outer, x inner) |
| Board.ValidMovesUnique | src/main/java/org/example/model/GameModel.java:104-117 | Any row-major list of exactly the legal cells is the list `getValidMoves` returns |
| Board.ComputeValidMoves | src/main/java/org/example/model/GameModel.java:104-117 | The nested loops return exactly the legal cells, in row-major order |
| Board.ScanRow | src/main/java/org/example/model/GameModel.java:108-114 | One pass of the inner loop appends the legal cells of one row from left to right |
| Board.ValidMoveApplies | src/main/java/org/example/model/GameModel.java:109-111 | Every listed move is accepted by `placePieceAndFlip` |
| Board.OpeningColours | src/main/java/org/example/model/GameModel.java:34-37 | On the opening board a cell is White iff it is (3,3) or (4,4), and Black iff it is (3,4) or (4,3) |
| Board.OpeningBracket | src/main/java/org/example/model/GameModel.java:81-95 | On the opening board every Black bracket is one White disc long and starts on one of (3,2), (2,3), (5,4), (4,5) |
| Board.OpeningLegal | src/main/java/org/example/model/GameModel.java:104-117 | At the opening, Black may play a cell iff it is one of (3,2), (2,3), (5,4), (4,5) |
| Board.RowMajorSameHead | src/main/java/org/example/model/GameModel.java:107-115 | Two strictly row-major lists with the same members begin with the same move, and their tails have the same members |
| Board.RowMajorUnique | src/main/java/org/example/model/GameModel.java:107-115 | Two strictly row-major lists with the same members are equal, so the scan order fixes the list |
| Engine.InitializeBoard | src/main/java/org/example/model/GameModel.java:34-47 | A new game is the opening, Black to move, not over, mode and difficulty kept; the AI colour is 1 or 2 in AI mode and 0 otherwise |
| Engine.NewModel | src/main/java/org/example/model/GameModel.java:26-30 | The constructor gives local mode, medium difficulty, no AI colour, Black to move |
| Engine.InitialPosition | src/main/java/org/example/model/GameModel.java:34-39 | A fresh game has two discs each, a well-formed board, and a legal move for the side to move |
| Engine.OpeningValidMoves | src/main/java/org/example/model/GameModel.java:104-117 | After `initializeBoard`, `getValidMoves` is exactly (3,2), (2,3), (5,4), (4,5), in that order |
| Engine.OpeningCounts | src/main/java/org/example/model/GameModel.java:36-37 | The opening holds exactly two Black and two White discs |
| Engine.PlacePieceAndFlip | src/main/java/org/example/model/GameModel.java:49-66 | The result is true iff the move is legal for the side to move; a refused move changes nothing; an accepted one changes only the board, as `Board.Place` describes |
| Engine.PlacePieceAndFlipScores | src/main/java/org/example/model/GameModel.java:60-65 | An accepted move flips at least one disc, keeps the board well-formed, and shifts the scores by flips + 1 and −flips |
| Engine.GetValidMoves | src/main/java/org/example/model/GameModel.java:104-117 | Every move listed for the side to move is accepted by `placePieceAndFlip` |
| Engine.GetValidMovesFor | src/main/java/org/example/model/GameModel.java:120-126 | The result is `getValidMoves` with the turn temporarily set to `player`, and the model afterwards equals the model before |
| Engine.SwitchTurn | src/main/java/org/example/model/GameModel.java:128-130 | The turn becomes the other colour (1 for any value other than 1), and nothing else changes |
| Engine.SwitchTwice | src/main/java/org/example/model/GameModel.java:128-130 | Switching twice is the identity on a Black/White turn; from any other value it lands on White |
| Engine.SetCurrentTurn | src/main/java/org/example/model/GameModel.java:132-134 | Only the turn changes |
| Engine.GetScore | src/main/java/org/example/model/GameModel.java:136-146 | The nested counting loops return the number of cells holding `player`, at most 64 |
| Engine.ScoreSum | src/main/java/org/example/model/GameModel.java:136-146 | On a well-formed board `getScore(1) + getScore(2)` plus the empty cells is 64 |
| Engine.SaveGameResult | src/main/java/org/example/model/GameModel.java:212-283 | Nothing is written without a user or a database connection; otherwise the last write is the game record with both final counts; local mode writes only the record, other modes one statistics update for the user first |
| Engine.OnlineOutcome | src/main/java/org/example/model/GameModel.java:253-276 | Online, the user wins iff their colour has more discs, draws iff equal, and loses iff fewer; the record names the user and the opponent (or "Online_Opponent") and the winner accordingly |
| Engine.OnlineDrawOnlyOnTie | src/main/java/org/example/model/GameModel.java:253-276 | Online, the outcome is a draw iff the two counts are equal, whatever colour the user holds |
| Engine.AIOutcomeIgnoresColour | src/main/java/org/example/model/GameModel.java:241-252 | Against the AI the user wins iff Black has more discs and loses iff White has more, whatever the AI's colour; the opponent is recorded as "AI" |
| Engine.LocalRecordOnly | src/main/java/org/example/model/GameModel.java:225-238 | Locally only a record is written, with "(Black)"/"(White)" labels and the leader or "DRAW" as winner, and no statistics change |
| LegacyEngine.InitializeBoard | src/main/java/org/example/GameModel.java:30-43 | The older engine's new game: the opening, Black to move, not over, AI colour from the coin in AI mode and 0 otherwise |
| LegacyEngine.NewGame | src/main/java/org/example/GameModel.java:24-28 | The older constructor: local mode, medium difficulty, then a new game |
| LegacyEngine.GetPiecesToFlip | src/main/java/org/example/GameModel.java:64-90 | Nothing is flipped for a target off the board or occupied |
| LegacyEngine.GetPiecesToFlipSpec | src/main/java/org/example/GameModel.java:64-90 | The flips are distinct board cells holding the opponent, never the target itself |
| LegacyEngine.PlacePieceAndFlip | src/main/java/org/example/GameModel.java:45-62 | The result is true iff the move is legal; a refused move changes nothing; an accepted one sets the target and exactly the flips to the mover and keeps every other cell and field |
| LegacyEngine.GetValidMoves | src/main/java/org/example/GameModel.java:92-104 | Exactly the legal cells for the side to move, in row-major order |
| LegacyEngine.SwitchTurn | src/main/java/org/example/GameModel.java:106-108 | 1 becomes 2, anything else becomes 1, and nothing else changes |
| LegacyEngine.GetScore | src/main/java/org/example/GameModel.java:110-120 | The count of cells holding `player` |
| LegacyEngine.AgreesWithEngine | src/main/java/org/example/GameModel.java:30-108 | The older engine's new game, moves, legal-move list and turn switch compute the same states as the newer engine's; the board code is shared, since the older text reads line for line as the newer |
| LegacyEngine.ReachableScoreSum | src/main/java/org/example/GameModel.java:110-120 | On every board reachable from a new game by any sequence of engine calls, `getScore(1) + getScore(2)` plus the empty cells is 64 |
| GameView.NoMovesIff | src/main/java/org/example/ui/GameView.java:554-566 | The legal-move list is empty iff the colour has no legal cell |
| GameView.CheckPassConditions | src/main/java/org/example/ui/GameView.java:554-566 | The pass check keeps the board and settings, and ends the game only when the side to move has no move |
| GameView.AfterMoveSpec | src/main/java/org/example/ui/GameView.java:486-492 | After a move the opponent moves if it can; else the mover moves again if it can; else the game is over with the turn left on the mover |
| GameView.AfterMove | src/main/java/org/example/ui/GameView.java:486-492 | The post-move sequence never changes the board or the mode |
| GameView.AfterMoveProgress | src/main/java/org/example/ui/GameView.java:554-566 | After the post-move sequence, the side to move has a legal move unless the game is over |
| GameView.HandleTileClick | src/main/java/org/example/ui/GameView.java:399-449 | A click plays iff the game is not over, it is not the AI's turn, online it is the player's own colour, and the move is legal; a refused click changes nothing and sends nothing; an accepted one plays, switches with the pass check, and online sends `MOVE x y` |
| GameView.ProcessOpponentMove | src/main/java/org/example/ui/GameView.java:496-517 | A received move that `placePieceAndFlip` refuses changes nothing; an accepted one is played and followed by the switch and pass check |
| GameView.MoveReachesPeer | src/main/java/org/example/ui/GameView.java:399-449 | The line an accepted online click sends decodes to the same move at the peer, and the peer's board and turn end equal to the sender's |
| GameView.SetPlayerColor | src/main/java/org/example/ui/GameView.java:521-550 | A fresh game; "BLACK" gives colour 1, "WHITE" colour 2, and any other text keeps the previous colour |
| GameView.Show | src/main/java/org/example/ui/GameView.java:147-194 | Showing a game starts a fresh game in the given mode, and resets all three chance cards to unused except in AI mode |
| GameView.OwnerColor | src/main/java/org/example/ui/GameView.java:1070-1076 | The card owner's colour is the player's own colour online, and otherwise the colour that is not to move |
| GameView.OwnerOpponentDistinct | src/main/java/org/example/ui/GameView.java:1070-1076 | The owner and the opponent are Black and White, in some order |
| GameView.StartMinigame | src/main/java/org/example/ui/GameView.java:1067-1093 | Starting a minigame records the owner colour; a start message is sent iff the game type is supported and the mode is online |
| GameView.UseChanceCard | src/main/java/org/example/ui/GameView.java:965-990 | A card starts a minigame iff it is unused, the game is not over, and online it is not the player's own turn; a used card is refused; a refused card changes nothing; a started one marks only that card used |
| GameView.CardUsedOnce | src/main/java/org/example/ui/GameView.java:965-990 | Once a card has started a minigame, every later use of it is refused and changes nothing |
| GameView.CardUseIsLocal | src/main/java/org/example/ui/GameView.java:965-990 | Using one card leaves the other cards' flags unchanged |
| GameView.PickRandomMoveFor | src/main/java/org/example/ui/GameView.java:1229-1236 | The random pick is absent iff the colour has no legal move, and otherwise is legal for that colour |
| GameView.ApplyForcedMove | src/main/java/org/example/ui/GameView.java:1238-1273 | A legal forced move is played for `moveColor` and the turn becomes `returnColor`; an illegal one leaves the model exactly as before; the game-over flag never changes |
| GameView.HandleMinigameSuccess | src/main/java/org/example/ui/GameView.java:1125-1165 | After a win the owner is to move; the board changes by one legal opponent move iff the opponent has one; a result line is sent iff the mode is online |
| GameView.FinishMinigame | src/main/java/org/example/ui/GameView.java:1105-1122 | A lost minigame leaves the game unchanged and online sends a FAIL result with no forced move; a won one applies the success handling; the owner colour is cleared in both cases |
| GameView.ShowMinigameSpectator | src/main/java/org/example/ui/GameView.java:1167-1181 | The spectator records the opponent of its own colour as the owner |
| GameView.RemoteOwner | src/main/java/org/example/ui/GameView.java:1189-1208 | The owner of a remote result is the recorded owner, or the colour other than the player's own when none is recorded |
| GameView.HandleMinigameResultFromNetwork | src/main/java/org/example/ui/GameView.java:1189-1208 | FAIL passes the turn to the owner's opponent and keeps the board; SUCCESS with both coordinates ≥ 0 applies that forced move; SUCCESS with a negative coordinate plays one legal move of the owner's opponent and gives the turn to the owner, or changes nothing when the opponent has no move; the board changes only on success; the owner colour is cleared |
| GameView.HandleRandomMove | src/main/java/org/example/ui/GameView.java:1210-1227 | When the side to move has a legal move, exactly one such move is played; the turn then goes to the owner (or the colour not to move); without a legal move only the turn changes |
| GameView.RandomMoveIsMinigameSuccess | src/main/java/org/example/ui/GameView.java:1210-1217 | With an owner recorded and the owner's opponent to move, the random move changes the game exactly as `handleMinigameSuccess` does for that owner |
| GameView.RandomMoveGains | src/main/java/org/example/ui/GameView.java:1212-1214 | A played random move gives the mover the placed disc and at least one flip, takes the flipped discs from the other side, and adds one disc to the board |
| GameView.SuccessSync | src/main/java/org/example/ui/GameView.java:1125-1165 | After a won minigame online, the one SUCCESS line the owner sends parses back, and applying it at the peer gives the peer the owner's board and turn |
| GameView.FailureSync | src/main/java/org/example/ui/GameView.java:1115-1119 | After a lost minigame online, the one FAIL line sent parses back, and the peer ends with the owner's board and turn |
| GameView.GetWinnerMessage | src/main/java/org/example/ui/GameView.java:587-598 | Black wins iff it has more discs, White iff it has more, and each message carries the winner's count |
| MainController.CheckPassConditions | src/main/java/org/example/Main.java:285-295 | The pass check keeps the board and mode, and ends the game only when the side to move has no move |
| MainController.PassAgrees | src/main/java/org/example/Main.java:285-295 | The older pass check computes the same state as the newer one |
| MainController.AfterMoveAgrees | src/main/java/org/example/Main.java:251-257 | The older switch-then-pass sequence computes the same state as the newer one |
| MainController.AfterMoveSpec | src/main/java/org/example/Main.java:251-257 | After a move the opponent moves if it can, else the mover again if it can, else the game is over; unless it is over, the side to move can move |
| MainController.AfterMove | src/main/java/org/example/Main.java:251-257 | The older post-move sequence never changes the board or the mode |
| MainController.HandleTileClick | src/main/java/org/example/Main.java:200-224 | A click plays iff the game is not over, it is not the AI's turn, online a colour is assigned and it is that colour's turn, and the move is legal; a refused click changes nothing |
| MainController.ClickAgrees | src/main/java/org/example/Main.java:200-224 | While the turn is Black or White, both controllers accept the same clicks, reach the same game and send the same lines |
| MainController.ProcessOpponentMove | src/main/java/org/example/Main.java:259-266 | An illegal received move is ignored with no change; a legal one is played and followed by the switch and pass check |
| MainController.SetPlayerColor | src/main/java/org/example/Main.java:269-283 | A fresh game; the colour is 1 iff the text is "BLACK", and 2 for every other text |
| MainController.SetPlayerColorAgrees | src/main/java/org/example/Main.java:269-283 | On "BLACK" and "WHITE" both controllers assign the same colour; on any other text this one picks White and the newer one keeps its colour |
| MainController.GetWinnerMessage | src/main/java/org/example/Main.java:297-303 | The message names the leader with both counts, leader first, or a draw when the counts are equal |
| MainController.WinnerAgrees | src/main/java/org/example/Main.java:297-303 | Both controllers name the same winner |
| RelayServer.Init | src/main/java/org/example/NetworkServer.java:17-18 | The server starts with an empty wait list and no rooms, satisfying the relay invariant |
| RelayServer.SendTo | src/main/java/org/example/NetworkServer.java:123-127 | A line is written iff the handler's streams opened, and nothing else changes |
| RelayServer.MatchOutcome | src/main/java/org/example/NetworkServer.java:45-63 | An invalid or already-waiting client changes nothing; with nobody waiting the newcomer waits; otherwise the waiting client and the newcomer form the next room as Black and White, both learn it, and get START_BLACK and START_WHITE |
| RelayServer.MatchPlayers | src/main/java/org/example/NetworkServer.java:45-63 | Matching never changes the set of live handlers; an invalid or already-waiting client changes nothing; with nobody waiting the newcomer joins the end of the wait list; otherwise the oldest waiting client and the newcomer form a room with the next id, the oldest as player1, and both are mapped to it |
| RelayServer.Accept | src/main/java/org/example/NetworkServer.java:27-33 | The new handler is live iff its streams opened; a live newcomer that was not waiting ends up waiting or in a room; a failed one leaves the wait list, the rooms and the written lines as they were |
| RelayServer.ThreeArrivals | src/main/java/org/example/NetworkServer.java:51-61 | With A, B and C arriving in that order, A and B form room 1 with A as Black, and C waits |
| RelayServer.MatchPreservesInv | src/main/java/org/example/NetworkServer.java:51-61 | Matching keeps at most one client waiting, room ids 1, 2, 3, … in creation order, and two different players per room |
| RelayServer.AcceptPreservesInv | src/main/java/org/example/NetworkServer.java:27-33 | Accepting a connection keeps the relay invariant |
| RelayServer.LineReceived | src/main/java/org/example/NetworkServer.java:134-138 | Receiving a line only appends to the outgoing lines |
| RelayServer.LinePreservesInv | src/main/java/org/example/NetworkServer.java:134-138 | Forwarding keeps the relay invariant |
| RelayServer.ForwardOnlyToPartner | src/main/java/org/example/NetworkServer.java:85-91 | A received line is sent at most once, unchanged, to a member of the sender's room other than the sender; without a room nothing is sent |
| RelayServer.PartnerReceives | src/main/java/org/example/NetworkServer.java:85-91 | A line from player1 reaches player2 unchanged whenever both handlers are valid |
| RelayServer.Disconnect | src/main/java/org/example/NetworkServer.java:142-148 | A disconnect removes the client from a duplicate-free wait list and keeps the rooms and the room links |
| RelayServer.Remove | src/main/java/org/example/NetworkServer.java:147 | `List.remove` keeps a subset of the list, is the identity when the client is absent, and from a duplicate-free list removes the client entirely |
| RelayServer.DisconnectPreservesInv | src/main/java/org/example/NetworkServer.java:142-148 | A disconnect keeps the relay invariant |
| RelayServer.DisconnectLeavesQueue | src/main/java/org/example/NetworkServer.java:142-148 | After a disconnect the client is no longer waiting, and its room stays registered |
| RelayServer.RoomIdsIncrease | src/main/java/org/example/NetworkServer.java:69-75 | Room ids start at 1 and strictly increase along the registry |
| ClientSession.NewClient | src/main/java/org/example/network/NetworkClient.java:29-34 | A null IP falls back to the configured IP and a port ≤ 0 to the configured port; the client starts disconnected |
| ClientSession.DefaultConstructorUsesConfig | src/main/java/org/example/network/NetworkClient.java:46-48 | The one-argument constructor uses the configured IP and port |
| ClientSession.Connect | src/main/java/org/example/network/NetworkClient.java:67-82 | A successful connect writes exactly one line, `USER_ID ` followed by the user id; a failed one writes nothing and changes nothing |
| ClientSession.EncodeMove | src/main/java/org/example/network/NetworkClient.java:90 | The move line splits into `MOVE` and the decimal spellings of x and y |
| ClientSession.SendMove | src/main/java/org/example/network/NetworkClient.java:87-92 | `sendMove` writes one `MOVE x y` line once connected and nothing before |
| ClientSession.DecodeStart | src/main/java/org/example/network/NetworkClient.java:102-111 | A `START_` line gives a colour without spaces and an opponent id only when it is non-empty |
| ClientSession.DecodeMove | src/main/java/org/example/network/NetworkClient.java:112-119 | A `MOVE` line never starts a game; it is ignored iff it does not split into exactly three tokens; a decoded move has 32-bit coordinates |
| ClientSession.ScriptDigitMove | src/main/java/org/example/network/NetworkClient.java:112-119 | A `MOVE` line whose two coordinates are single decimal digits of any script decodes to those digits' values |
| ClientSession.DecodeLine | src/main/java/org/example/network/NetworkClient.java:101-120 | A line starts a game iff it begins with `START_`; a move or a failure comes only from a line beginning with `MOVE`; coordinates are read as `Integer.parseInt` reads them, in digits of any script |
| ClientSession.MoveRoundTrip | src/main/java/org/example/network/NetworkClient.java:112-119 | Decoding the line `sendMove(x, y)` writes gives back exactly (x, y) |
| ClientSession.StartRoundTrip | src/main/java/org/example/network/NetworkClient.java:102-111 | `START_` + colour + " " + id decodes to that colour, with the id when non-empty; a bare `START_` + colour has no opponent |
| ClientSession.MoveNeedsThreeTokens | src/main/java/org/example/network/NetworkClient.java:114-119 | A `MOVE` line that does not split into exactly three tokens is ignored |
| ClientSession.NonNumericMoveFails | src/main/java/org/example/network/NetworkClient.java:116-117 | A three-token `MOVE` line with a coordinate holding a char that is not a decimal digit of any script (a sign only in front) raises the uncaught parse failure |
| ClientSession.MinigameLinesIgnored | src/main/java/org/example/network/NetworkClient.java:101-120 | `MINIGAME_*` and `USER_ID` lines are ignored by the decoder |
| ClientSession.ReceiveWith | src/main/java/org/example/network/NetworkClient.java:98-129 | The receive loop shared by both clients, whichever line decoder it uses, delivers only game starts and moves, at most one per line |
| ClientSession.ReceiveStopsAtFailure | src/main/java/org/example/network/NetworkClient.java:116-128 | Once a malformed number has ended the loop, later lines change nothing, with either client's decoder |
| ClientSession.ReceiveMoves | src/main/java/org/example/network/NetworkClient.java:98-121 | A stream of lines written by `sendMove` arrives as the same moves, in order, without failure |
| LegacyClient.Connect | src/main/java/org/example/NetworkClient.java:26-38 | The older connect writes no handshake line and only changes the socket state |
| LegacyClient.SendMove | src/main/java/org/example/NetworkClient.java:40-44 | The older `sendMove` writes the same `MOVE x y` line once connected and nothing before |
| LegacyClient.DecodeLine | src/main/java/org/example/NetworkClient.java:50-61 | A line starts a game iff it begins with `START_`, and the whole remainder is the colour, with no opponent id; coordinates are read as `Integer.parseInt` reads them, in digits of any script |
| LegacyClient.MoveRoundTrip | src/main/java/org/example/NetworkClient.java:54-60 | Decoding the line `sendMove(x, y)` writes gives back exactly (x, y) |
| LegacyClient.AgreesWithNewerClient | src/main/java/org/example/NetworkClient.java:51-53 | Both decoders agree on every line except a `START_` line holding a space, where the older colour keeps the space and what follows |
| LegacyClient.ReceiveAgrees | src/main/java/org/example/NetworkClient.java:47-70 | On streams without a `START_` line holding a space, both receive loops deliver the same events and stop at the same line |
| MinigameProtocol.CreateStartMessage | src/main/java/org/example/minigame/network/MinigameProtocol.java:17-19 | The start message is a minigame message: `MINIGAME_START `, then the game type verbatim |
| MinigameProtocol.CreateUpdateMessage | src/main/java/org/example/minigame/network/MinigameProtocol.java:25-27 | The update message is a minigame message: `MINIGAME_UPDATE `, then the state text verbatim |
| MinigameProtocol.CreateResultMessage | src/main/java/org/example/minigame/network/MinigameProtocol.java:41-44 | The result message splits into six tokens: keyword, SUCCESS or FAIL, score, time, forcedX, forcedY |
| MinigameProtocol.CreateResultMessageNoMove | src/main/java/org/example/minigame/network/MinigameProtocol.java:33-35 | The three-argument form is the five-argument form with forced move −1, −1, and reads back as such |
| MinigameProtocol.CreateCloseMessage | src/main/java/org/example/minigame/network/MinigameProtocol.java:50-52 | The close message is a single-token minigame message |
| MinigameProtocol.ResultRoundTrip | src/main/java/org/example/minigame/network/MinigameProtocol.java:41-44 | Reading a result message back by its six tokens gives the success flag, score, time and forced move it was made from |
| MinigameProtocol.OtherLinesAreNotMinigame | src/main/java/org/example/minigame/network/MinigameProtocol.java:57-62 | `MOVE`, `START_` and `USER_ID` lines are not minigame messages |
| MemoryGame.PairValuesEachTwice | src/main/java/org/example/minigame/games/memory/MemoryGame.java:97-101 | The unshuffled values hold each of 1..8 exactly twice |
| MemoryGame.ShuffledPairs | src/main/java/org/example/minigame/games/memory/MemoryGame.java:102 | Shuffling keeps each value exactly twice, whatever the random source |
| MemoryGame.ShuffleFrom | src/main/java/org/example/minigame/games/memory/MemoryGame.java:102 | The swap loop of `Collections.shuffle` keeps the length and the multiset of values, whatever the random draws |
| MemoryGame.Deal | src/main/java/org/example/minigame/games/memory/MemoryGame.java:93-114 | A deal is 16 face-down cards whose values are a rearrangement of the pairs 1..8 |
| MemoryGame.DealPairs | src/main/java/org/example/minigame/games/memory/MemoryGame.java:93-114 | A deal has 16 cards and each value 1..8 appears on exactly two of them |
| MemoryGame.Style | src/main/java/org/example/minigame/games/memory/MemoryGame.java:221-228 | A card is shown matched iff it is matched, and face-down iff neither flipped nor matched |
| MemoryGame.Open | src/main/java/org/example/minigame/games/memory/MemoryGame.java:55-68 | A new game satisfies the game invariant, has not started, found no pairs and has the full 30 seconds |
| MemoryGame.Reset | src/main/java/org/example/minigame/games/memory/MemoryGame.java:122-141 | A reset deals again and restores no pairs found, 30 seconds, cleared flags and no selection, keeping the invariant |
| MemoryGame.StartGame | src/main/java/org/example/minigame/games/memory/MemoryGame.java:79-91 | Starting turns every unmatched card face-down, keeps the values, and changes nothing else |
| MemoryGame.Click | src/main/java/org/example/minigame/games/memory/MemoryGame.java:144-161 | A click on a card that is not clickable changes nothing; otherwise the card turns face-up and becomes the first selection, or the second, which starts the check |
| MemoryGame.CheckMatch | src/main/java/org/example/minigame/games/memory/MemoryGame.java:163-188 | Equal values become matched and the pair count rises by one; unequal ones turn face-down; no other card changes; success comes with the eighth pair, which ends the game; otherwise the selection is cleared |
| MemoryGame.Finish | src/main/java/org/example/minigame/games/memory/MemoryGame.java:252-254 | Finishing sets only the game-over flag |
| MemoryGame.Tick | src/main/java/org/example/minigame/games/memory/MemoryGame.java:203-210 | A tick of a running timer takes one second off and ends the game iff no time is left; otherwise nothing changes |
| MemoryGame.TicksToTimeout | src/main/java/org/example/minigame/games/memory/MemoryGame.java:203-210 | `n` ticks take `n` seconds off and end the game exactly when the time reaches zero |
| MemoryGame.Report | src/main/java/org/example/minigame/games/memory/MemoryGame.java:263-270 | A callback gets (success, pairs found, elapsed, MEMORY), and there is no report without one |
| MemoryGame.Kind | src/main/java/org/example/minigame/games/memory/MemoryGame.java:351-354 | The memory game reports type MEMORY |
| MemoryGame.StartPreservesInv | src/main/java/org/example/minigame/games/memory/MemoryGame.java:79-91 | Starting keeps the game invariant |
| MemoryGame.ClickPreservesInv | src/main/java/org/example/minigame/games/memory/MemoryGame.java:144-161 | A click keeps the invariant: at most two selections, and the pair count equals the matched cards over two |
| MemoryGame.CheckPreservesInv | src/main/java/org/example/minigame/games/memory/MemoryGame.java:163-188 | A pair check keeps the game invariant |
| MemoryGame.TickPreservesInv | src/main/java/org/example/minigame/games/memory/MemoryGame.java:203-210 | A timer tick keeps the game invariant |
| MemoryGame.PairsBounded | src/main/java/org/example/minigame/games/memory/MemoryGame.java:170-177 | Under the invariant the pair count never exceeds 8 |
| MemoryGame.WonMeansAllMatched | src/main/java/org/example/minigame/games/memory/MemoryGame.java:170-177 | A successful game has every card matched |
| MemoryGame.StateJsonFormat | src/main/java/org/example/minigame/games/memory/MemoryGame.java:275-294 | The snapshot is the object with the five scalar members and the values/flipped/matched arrays, in that order |
| MemoryGame.StateJson | src/main/java/org/example/minigame/games/memory/MemoryGame.java:275-294 | The snapshot text opens with `{` and closes with `}` |
| MemoryGame.Publish | src/main/java/org/example/minigame/games/memory/MemoryGame.java:356-360 | The snapshot is published iff there is a publisher and the game is not a spectator |
| MemoryGame.UpdateFromJson | src/main/java/org/example/minigame/games/memory/MemoryGame.java:297-331 | Reading a snapshot keeps the card count and the selection; a missing scalar key keeps its previous value |
| MemoryGame.SnapshotRoundTrip | src/main/java/org/example/minigame/games/memory/MemoryGame.java:275-331 | A spectator with the same number of cards that reads the player's snapshot ends with the player's counters, flags and cards |
| MemoryGame.ApplyOwnCards | src/main/java/org/example/minigame/games/memory/MemoryGame.java:309-317 | Applying a card list's own values and flipped/matched flags rebuilds exactly that list |
| MemoryGame.ApplyCards | src/main/java/org/example/minigame/games/memory/MemoryGame.java:305-317 | Applying a snapshot's arrays keeps the card count; card k takes the k-th value when the array reaches k and keeps its own otherwise, and its face is the style of the k-th flipped and matched flags, a missing flag reading as false |
| MemoryGame.EmptySnapshot | src/main/java/org/example/minigame/games/memory/MemoryGame.java:305-317 | An empty object keeps every scalar and every value, and turns every card face-down |
| MemoryJson.ReadInt | src/main/java/org/example/minigame/games/memory/MemoryGame.java:362-376 | A missing key gives the default; any other result is a 32-bit integer, the number run being scanned with `Character.isDigit` and read by `Integer.parseInt`, both accepting digits of any script |
| MemoryJson.ReadBool | src/main/java/org/example/minigame/games/memory/MemoryGame.java:378-387 | A missing key gives the default |
| MemoryJson.ExtractArray | src/main/java/org/example/minigame/games/memory/MemoryGame.java:412-422 | A missing key gives no items, and no item holds a comma |
| MemoryJson.ReadIntArray | src/main/java/org/example/minigame/games/memory/MemoryGame.java:389-400 | One integer per array item: the trimmed item parsed by `Integer.parseInt` (digits of any script), or 0 when it does not parse |
| MemoryJson.ReadBoolArray | src/main/java/org/example/minigame/games/memory/MemoryGame.java:402-410 | One flag per array item: true iff the trimmed item is "1" or "true" in any case |
| MemoryJson.Locate | src/main/java/org/example/minigame/games/memory/MemoryGame.java:363-364 | In an object whose keys are words and distinct, the search for a member's quoted key finds that member |
| MemoryJson.ReadIntBack | src/main/java/org/example/minigame/games/memory/MemoryGame.java:362-376 | Reading back an integer member written in decimal gives that integer |
| MemoryJson.ReadBoolBack | src/main/java/org/example/minigame/games/memory/MemoryGame.java:378-387 | Reading back a boolean member gives that boolean |
| MemoryJson.ReadIntArrayBack | src/main/java/org/example/minigame/games/memory/MemoryGame.java:389-400 | Reading back an integer array member gives that array |
| MemoryJson.ReadBoolArrayBack | src/main/java/org/example/minigame/games/memory/MemoryGame.java:402-410 | Reading back a 0/1 array member gives that flag array |
| RoosterGame.Finish | src/main/java/org/example/minigame/games/rooster/RoosterGame.java:39-48 | The first call records the success flag, score and elapsed time and reports a REACTION result to a present callback; after that a call changes nothing and reports nothing |
| RoosterGame.FinishedIgnoresCalls | src/main/java/org/example/minigame/games/rooster/RoosterGame.java:40 | Once finished, any number of further calls change nothing and report nothing |
| RoosterGame.FirstCallWins | src/main/java/org/example/minigame/games/rooster/RoosterGame.java:39-48 | Over any sequence of calls, the first fixes the finished state, `isSuccess` and the single report |
| RoosterGame.UpdateFromJson | src/main/java/org/example/minigame/games/rooster/RoosterGame.java:55-58 | Reading a snapshot changes no state |
| RoosterGame.Kind | src/main/java/org/example/minigame/games/rooster/RoosterGame.java:78-80 | The rooster game reports type REACTION |
| RoosterGame.StateJsonIsObject | src/main/java/org/example/minigame/games/rooster/RoosterGame.java:51-53 | The snapshot is exactly the object with members finished, success, score and elapsed, in that order |
| RoosterGame.StateJson | src/main/java/org/example/minigame/games/rooster/RoosterGame.java:51-53 | The snapshot text opens with `{` and closes with `}` |
| RoosterGame.StateReadBack | src/main/java/org/example/minigame/games/rooster/RoosterGame.java:51-53 | Each of the four members reads back from the snapshot as the field it was written from |
| AIPlayer.FlipCountsGain | src/main/java/org/example/service/AIPlayer.java:140-141 | A move's flip count is its disc gain: playing it raises the mover's disc count by that count plus the placed disc |
| AIPlayer.BestGainsMost | src/main/java/org/example/service/AIPlayer.java:129-151 | The flip-count choice among playable moves leaves the mover with at least as many discs as any other listed move |
| AIPlayer.FirstBestSpec | src/main/java/org/example/service/AIPlayer.java:143-146 | The chosen index holds a maximal count and every earlier index a strictly smaller one |
| AIPlayer.BestByFlipCount | src/main/java/org/example/service/AIPlayer.java:129-151 | There is no choice iff the list is empty; otherwise the choice is one of the listed moves |
| AIPlayer.BestByFlipCountSpec | src/main/java/org/example/service/AIPlayer.java:129-151 | The choice is the earliest move whose flip count is maximal |
| AIPlayer.ScanMax | src/main/java/org/example/service/AIPlayer.java:132-147 | The loop with the strict `>` test finds the first maximal count |
| AIPlayer.ScanFlipCounts | src/main/java/org/example/service/AIPlayer.java:129-151 | The source's loop computes the flip-count choice |
| AIPlayer.DigitsEndSpec | src/main/java/org/example/service/AIPlayer.java:194 | The scanned run of `\d+` holds only digits |
| AIPlayer.MoveMatches | src/main/java/org/example/service/AIPlayer.java:193-200 | The successive `find()` matches of the MOVE pattern end after the search start and within the text, in strictly increasing order |
| AIPlayer.KeepLast | src/main/java/org/example/service/AIPlayer.java:200-224 | The stage-1 loop returns its initial value or a legal move |
| AIPlayer.KeepLastIsLastNamed | src/main/java/org/example/service/AIPlayer.java:193-224 | The stage-1 loop that overwrites its result on each valid match returns the last `MOVE: x, y` match naming a legal move, if any |
| AIPlayer.LastNamedNone | src/main/java/org/example/service/AIPlayer.java:193-224 | Stage 1 finds nothing iff no `MOVE:` match names a legal move |
| AIPlayer.BracketMatches | src/main/java/org/example/service/AIPlayer.java:228-231 | The successive `find()` matches of the bracket pattern end after the search start and within the text, in strictly increasing order |
| AIPlayer.FirstNamed | src/main/java/org/example/service/AIPlayer.java:231-247 | Stage 2 returns only legal moves |
| AIPlayer.FirstNamedSpec | src/main/java/org/example/service/AIPlayer.java:228-247 | Stage 2 returns the first bracketed pair naming a legal move, and nothing iff there is none |
| AIPlayer.Clean | src/main/java/org/example/service/AIPlayer.java:251 | Only ASCII digits, commas and whitespace remain; text made only of those comes back unchanged, and text with none of them becomes empty |
| AIPlayer.CleanConcat | src/main/java/org/example/service/AIPlayer.java:251 | Cleaning works char by char: cleaning two joined texts is joining their cleaned forms, so kept chars survive in their order |
| AIPlayer.SplitRuns | src/main/java/org/example/service/AIPlayer.java:255 | No piece holds a separator, and text without a separator is one piece |
| AIPlayer.SplitRunsJoin | src/main/java/org/example/service/AIPlayer.java:255 | Splitting undoes a join: non-empty, separator-free pieces joined by any run of commas and whitespace (",", ", ", " ") split back into exactly those pieces |
| AIPlayer.ScanBack | src/main/java/org/example/service/AIPlayer.java:259-277 | Stage 3 returns only a legal move with both coordinates in [0, 8) |
| AIPlayer.ScanBackSpec | src/main/java/org/example/service/AIPlayer.java:259-277 | Stage 3 returns the last adjacent number pair in [0, 8) naming a legal move, and nothing iff there is none |
| AIPlayer.NumberStage | src/main/java/org/example/service/AIPlayer.java:249-278 | Stage 3's answer is a legal move with both coordinates in [0, 8) |
| AIPlayer.ParseMove | src/main/java/org/example/service/AIPlayer.java:187-292 | The parsed move is always one of the legal moves: stage 1's if any, else stage 2's, else stage 3's, else the random fallback |
| AIPlayer.ParseMoveFallback | src/main/java/org/example/service/AIPlayer.java:285-291 | When no stage finds a legal move, the random fallback picks from the legal moves |
| AIPlayer.MoveLineMatch | src/main/java/org/example/service/AIPlayer.java:193-200 | The MOVE pattern finds exactly one match in "MOVE: 2, 3", with groups "2" and "3", ignoring the keyword's case |
| AIPlayer.MoveLineExample | src/main/java/org/example/service/AIPlayer.java:193-224 | The reply "MOVE: 2, 3" with (2,3) legal yields (2,3) |
| AIPlayer.GetBestMove | src/main/java/org/example/service/AIPlayer.java:43-117 | No move iff the side to move has none; otherwise an accepted legal move; the API is called iff HARD with an accepted key; MEDIUM uses the flip-count choice; HARD with an accepted key and a reply gives the reply parser's move; EASY, and HARD with a rejected key or a failed call, give the random pick `moves[pick % n]` |
| AIPlayer.Choose | src/main/java/org/example/service/AIPlayer.java:43-117 | With a non-empty legal-move list, the dispatch by difficulty: the API is called iff HARD with an accepted key, whose reply goes through the reply parser; MEDIUM takes the flip-count choice; EASY and the offline HARD paths take the random pick |
| AIPlayer.GetBestMoveDefault | src/main/java/org/example/service/AIPlayer.java:122-124 | The no-argument form is the flip-count choice |
| AIPlayer.RejectedKeyIsOffline | src/main/java/org/example/service/AIPlayer.java:60-88 | HARD with a missing or rejected key makes no API call and returns a random legal move |
| Database.SettingsJson | src/main/java/org/example/service/DatabaseService.java:371-378 | The settings text is brace-delimited |
| Database.BuildSettingsJson | src/main/java/org/example/service/DatabaseService.java:371-378 | The builder loop writes `{`, the `"k":"v"` entries joined by commas with no trailing comma, and `}` |
| Database.ParseSettingsJson | src/main/java/org/example/service/DatabaseService.java:423-443 | Null or empty text gives the empty map, and no parsed key or value holds a quote |
| Database.MalformedFragmentDropped | src/main/java/org/example/service/DatabaseService.java:432-437 | A fragment that does not split into two parts on ':' is dropped |
| Database.Fragment | src/main/java/org/example/service/DatabaseService.java:432-437 | A fragment yields an entry iff it splits into exactly two parts on ':' |
| Database.Collect | src/main/java/org/example/service/DatabaseService.java:431-438 | The loop keeps every key already stored, and every new key comes from some fragment that yields an entry under it |
| Database.PutLookup | src/main/java/org/example/service/DatabaseService.java:436 | The map holds a key iff some entry has it, and the value is that of the last such entry, so later duplicates win |
| Database.FragmentOfEntry | src/main/java/org/example/service/DatabaseService.java:432-436 | An entry written as `"k":"v"` reads back as (k, v) |
| Database.SettingsRoundTrip | src/main/java/org/example/service/DatabaseService.java:423-443 | For keys and values free of `, : " { }` and of surrounding whitespace, parsing the serialised entries gives the map in which later duplicates win |
| Database.SettingsRoundTripDistinct | src/main/java/org/example/service/DatabaseService.java:423-443 | With distinct keys, parsing the serialised entries gives back exactly the original key–value pairs |
| Database.ByteHexValue | src/main/java/org/example/service/DatabaseService.java:168 | Each byte becomes two lowercase hex digits whose value is the byte read as unsigned |
| Database.HexOfPairs | src/main/java/org/example/service/DatabaseService.java:166-172 | The hex text is twice as long as the digest, and each byte owns its own two characters |
| Database.HexOfLowercase | src/main/java/org/example/service/DatabaseService.java:166-172 | Every character of the hex text is a lowercase hex digit |
| Database.HexDecodes | src/main/java/org/example/service/DatabaseService.java:166-172 | Each byte can be read back from its two hex characters |
| Database.HashHex | src/main/java/org/example/service/DatabaseService.java:166-172 | The digest loop produces the two-digits-per-byte hex text, twice the digest length |
| Login.HandleLogin | src/main/java/org/example/ui/LoginView.java:130-150 | An empty id or password is reported first; then a missing database; the user is logged in iff both are filled, the database is connected and the credentials are found |
| Login.LoginQueriesOnlyValidInput | src/main/java/org/example/ui/LoginView.java:131-142 | The credentials reach the database iff both are filled in and it is connected |
| Login.HandleRegister | src/main/java/org/example/ui/LoginView.java:257-300 | Empty fields are reported first, then a mismatch, then a short id, then a short password; any database outcome implies the input passed every check |
| Login.RegisterReachedIff | src/main/java/org/example/ui/LoginView.java:279-292 | `registerUser` is reached iff every input check passes, the database is connected and the id is free |
| Login.MismatchBeforeLength | src/main/java/org/example/ui/LoginView.java:264-267 | Short but different passwords are reported as a mismatch, not a length error |
| Login.InputRejectionIgnoresDatabase | src/main/java/org/example/ui/LoginView.java:259-277 | On rejected input the outcome does not depend on anything the database would answer |
| ConnectDialog.DefaultIp | src/main/java/org/example/ui/MenuView.java:224-227 | The prefilled IP is the configured one, or 127.0.0.1 when it is null or empty, and is never empty |
| ConnectDialog.Prefill | src/main/java/org/example/ui/MenuView.java:224-228 | Both prefilled fields are non-empty |
| ConnectDialog.PrefilledPortNotBlank | src/main/java/org/example/ui/MenuView.java:228 | The prefilled port text is non-empty and unchanged by trimming |
| ConnectDialog.Open | src/main/java/org/example/ui/MenuView.java:240-246 | The dialog opens prefilled with Connect enabled |
| ConnectDialog.EditIp | src/main/java/org/example/ui/MenuView.java:260-262 | After an IP edit Connect is disabled iff the trimmed IP or the trimmed port is empty |
| ConnectDialog.EditPort | src/main/java/org/example/ui/MenuView.java:263-265 | After a port edit Connect is disabled iff the trimmed IP or the trimmed port is empty |
| ConnectDialog.DialogResult | src/main/java/org/example/ui/MenuView.java:268-273 | The result is the trimmed (IP, port) pair iff an enabled Connect was pressed, and nothing on Cancel |
| ConnectDialog.EditedResultNotBlank | src/main/java/org/example/ui/MenuView.java:260-273 | After an edit, a dialog result always has both fields non-empty |
| ConnectDialog.CheckPort | src/main/java/org/example/ui/MenuView.java:284-295 | A port `Integer.parseInt` rejects is rejected; the match starts iff the port parses, in digits of any script, into 1..65535, with that port |
| ConnectDialog.FullWidthPortStarts | src/main/java/org/example/ui/MenuView.java:284-295 | The full-width port text "８０" starts the match on port 80, as `Integer.parseInt` reads it |
| ConnectDialog.StartOnlineMatch | src/main/java/org/example/ui/MenuView.java:276-299 | The flow is cancelled iff the dialog gave no result; a given port is read by `Integer.parseInt`, in digits of any script |
| ConnectDialog.StartOnlyWithValidPort | src/main/java/org/example/ui/MenuView.java:279-298 | The match starts iff an enabled Connect was pressed and the trimmed port parses into 1..65535, with the trimmed IP and that port |
| ConnectDialog.PrefillConnects | src/main/java/org/example/ui/MenuView.java:224-298 | Accepting the prefilled dialog starts the match on the configured port whenever that port is in range |
| Config.GetServerIP | src/main/java/org/example/service/ConfigService.java:37-40 | The configured IP, or 127.0.0.1 when the property is absent |
| Config.SetServerIP | src/main/java/org/example/service/ConfigService.java:57-59 | Setting the IP changes only that property |
| Config.SetThenGetIp | src/main/java/org/example/service/ConfigService.java:57-59 | After `setServerIP(ip)` the IP read is `ip`, and the port and API key read as before |
| Config.GetServerPort | src/main/java/org/example/service/ConfigService.java:45-52 | The configured port when `Integer.parseInt` accepts it (digits of any script), and 8080 when it is absent or not numeric |
| Config.DefaultPortText | src/main/java/org/example/service/ConfigService.java:46 | The default text "8080" parses to the default port |
| Config.PortRoundTrip | src/main/java/org/example/service/ConfigService.java:45-52 | A port stored as its decimal text reads back as itself; removing the property gives 8080 |
| Config.GetGeminiApiKey | src/main/java/org/example/service/ConfigService.java:64-78 | A non-empty environment key wins, else a non-empty configured key; the result is absent iff neither exists, and never empty |
| JavaText.ParseInt | src/main/java/org/example/network/NetworkClient.java:116-117 | `Integer.parseInt` accepts only values in the 32-bit range |
| JavaText.IntRoundTrip | src/main/java/org/example/network/NetworkClient.java:116-117 | Every 32-bit integer written in decimal parses back to itself |
| JavaText.ParseIntRejectsNonNumeric | src/main/java/org/example/network/NetworkClient.java:116-117 | A char that is not a decimal digit of any script, other than a leading sign, makes `Integer.parseInt` fail |
| JavaText.DecimalZeroSpec | src/main/java/org/example/minigame/games/memory/MemoryGame.java:368 | A char is a decimal digit iff its code point lies in one of the ten-wide digit blocks, and its value counts from that block's zero |
| JavaText.BlockZeroSpec | src/main/java/org/example/minigame/games/memory/MemoryGame.java:368 | In an ascending table of block zeros, the lookup finds a block iff the code point lies in one, and then it is that block |
| JavaText.ParseOneDigit | src/main/java/org/example/ui/MenuView.java:287 | A single decimal digit of any script parses to its digit value |
| JavaText.ParseFullWidth | src/main/java/org/example/ui/MenuView.java:287 | The full-width text "８０" parses to 80 |
| JavaText.Split | src/main/java/org/example/network/NetworkClient.java:114 | `split(c)` gives pieces without `c`; text without `c` is one piece; otherwise trailing empty pieces are dropped |
| JavaText.SplitJoin | src/main/java/org/example/service/DatabaseService.java:430 | Splitting the join of `c`-free pieces whose last piece is non-empty gives the pieces back |
| JavaText.SplitFirst | src/main/java/org/example/network/NetworkClient.java:105 | `split(c, 2)` gives two pieces iff `c` occurs; the first holds no `c`, and the pieces joined by `c` give the text |
| JavaText.Trim | src/main/java/org/example/ui/MenuView.java:270 | The trimmed text is no longer, and it is empty or begins and ends with a char above U+0020 |

## Left out

- JavaFX rendering, animation, alerts, sounds and effects: the views are reduced to their state, and their alerts to outcome values.
- Threads, `Platform.runLater`, `Thread.sleep`, the server's thread pool and socket I/O: connections are sequential events (accept, line received, disconnect), and written lines are outputs.
- `handleAITurn` in both controllers: it only schedules `getBestMove` on a thread and then plays the result like a click.
- The Gemini HTTP call and its JSON envelope: the reply text is a parameter of `AIPlayer.GetBestMove`.
- The regular expressions of the reply parser are modelled as hand-written scanners of the same patterns. Only ASCII digits and whitespace are recognised, as by Java's `\d` and `\s` without `UNICODE_CHARACTER_CLASS`; `Integer.parseInt` on a matched run then sees only ASCII digits.
- The prompt text built by `buildPrompt`: it only feeds the HTTP call.
- JDBC and SQL in `DatabaseService`, and the SHA-256 digest itself: the digest is an input of `Database.HashHex`, and database answers are parameters of `Login` and `Engine.SaveGameResult`.
- `java.util.Random` (the AI colour, card shuffle, random forced move, EASY AI): represented as oracle parameters.
- Minigame timer objects (`PauseTransition`, `Timeline`): modelled as explicit tick and check events.
- The database writes `checkPassConditions` triggers at game end are not repeated in the controller model. They are modelled once, in `Engine.SaveGameResult`.
- The newer network client has no `sendMinigame*` methods, and its receive loop never dispatches `MINIGAME_*` lines. The controller's minigame messages are modelled as outgoing lines of the protocol.
- MemoryGame.SnapshotRoundTrip: covers only counters and card values that fit in 32 bits, because the reader's `Integer.parseInt` rejects anything wider.
- Engine.GetValidMoves: its contract states only that listed moves can be played. Membership and order are stated by `Board.ValidMovesSpec` and `Engine.GetValidMovesFor`.
- String case folding is ASCII-only, where Java's `toLowerCase` folds all of Unicode. Trimming matches `String.trim` (every char up to U+0020).
- A Dafny `char` is a Unicode scalar value, so a character outside the Basic Multilingual Plane is one `char` here and a surrogate pair of two in Java. Lengths and indices agree only on text inside that plane. `Character.digit(char, 10)` sees no digit in a surrogate, and the model sees none outside the plane either.
- `ReactionGame`, `MinigameManager`, `User`, `ServerLauncher`, `MemoryGameTest` and `temp_fix.py` are not part of this model: they are stubs, factories over UI objects, a plain record, a launcher, a manual demo and a patch script. The minigame interface files appear only as the datatypes of `MinigameBase`.
- `StatsView`, `SettingsView`, `MemoryGameView` and `RoosterGameView` (and its floating-point physics) are not part of this model.

=== FILE: ai_player.dfy ===
// Move selection of `service/AIPlayer.java`: the difficulty dispatch of
// `getBestMove`, the flip-count argmax of MEDIUM, the API-key gate of HARD, and
// the three-stage reader of the model's reply. The HTTP call itself is a
// parameter (its reply, or `None` when it throws); `random.nextInt(n)` is an
// oracle `pick`, read as `pick % n`. The two regular expressions of the reader
// are written out as scanners.

module AIPlayer {
  import opened Wrappers
  import opened JavaText
  import opened Board
  import Engine

  // ---------------------------------------------------------------------------
  // MEDIUM: the first move with the most flips
  // ---------------------------------------------------------------------------

  /** How many discs each listed move would flip for `player`. */
  function FlipCounts(b: Grid, moves: seq<Move>, player: int): (cs: seq<nat>)
    ensures |cs| == |moves|
  {
    seq(|moves|, k requires 0 <= k < |moves| => |Flips(b, moves[k].x, moves[k].y, player)|)
  }

  /** A move's flip count is the disc gain it brings: a listed move that can
      be played raises the mover's count by its flip count plus the placed
      disc. */
  lemma FlipCountsGain(b: Grid, moves: seq<Move>, player: int)
    requires player == Black || player == White
    ensures forall k :: 0 <= k < |moves| && Place(b, moves[k].x, moves[k].y, player).Some? ==>
      Count(Place(b, moves[k].x, moves[k].y, player).value, player) ==
        Count(b, player) + FlipCounts(b, moves, player)[k] + 1
  {
    forall k | 0 <= k < |moves| && Place(b, moves[k].x, moves[k].y, player).Some?
      ensures Count(Place(b, moves[k].x, moves[k].y, player).value, player) ==
        Count(b, player) + FlipCounts(b, moves, player)[k] + 1
    {
      PlaceScore(b, moves[k].x, moves[k].y, player);
    }
  }

  /** The index a left-to-right scan keeps when it replaces its pick only on a
      strictly larger value. */
  function FirstBest(s: seq<int>): (i: nat)
    requires |s| >= 1
    ensures i < |s|
  {
    if |s| == 1 then 0
    else
      var j := FirstBest(s[..|s| - 1]);
      if s[|s| - 1] > s[j] then |s| - 1 else j
  }

  /** That index holds the maximum, and every earlier entry is strictly
      smaller: ties go to the earliest. */
  lemma {:induction false} FirstBestSpec(s: seq<int>)
    requires |s| >= 1
    ensures forall k :: 0 <= k < |s| ==> s[k] <= s[FirstBest(s)]
    ensures forall k :: 0 <= k < FirstBest(s) ==> s[k] < s[FirstBest(s)]
  {
    if |s| > 1 {
      var init := s[..|s| - 1];
      FirstBestSpec(init);
      assert forall k :: 0 <= k < |init| ==> s[k] == init[k];
    }
  }

  /** One more step of the scan. */
  lemma FirstBestStep(s: seq<int>, i: nat)
    requires 0 < i < |s|
    ensures FirstBest(s[..i + 1]) == if s[i] > s[FirstBest(s[..i])] then i else FirstBest(s[..i])
  {
    assert s[..i + 1][..i] == s[..i];
  }

  /** `getBestMoveByFlipCount` as a function: `None` for an empty list,
      otherwise the first move whose flip count is maximal. */
  function BestByFlipCount(b: Grid, moves: seq<Move>, player: int): (r: Option<Move>)
    ensures r.None? <==> moves == []
    ensures r.Some? ==> r.value in moves
  {
    if moves == [] then None else Some(moves[FirstBest(FlipCounts(b, moves, player))])
  }

  /** The MEDIUM pick has no rival with more flips, and every move listed
      before it flips strictly fewer. */
  lemma BestByFlipCountSpec(b: Grid, moves: seq<Move>, player: int)
    requires moves != []
    ensures var cs := FlipCounts(b, moves, player);
      var i := FirstBest(cs);
      && BestByFlipCount(b, moves, player) == Some(moves[i])
      && (forall k :: 0 <= k < |moves| ==> cs[k] <= cs[i])
      && (forall k :: 0 <= k < i ==> cs[k] < cs[i])
  {
    FirstBestSpec(FlipCounts(b, moves, player));
  }

  /** Among playable moves, the MEDIUM pick leaves the mover with at least as
      many discs as any other listed move would. */
  lemma BestGainsMost(b: Grid, moves: seq<Move>, player: int)
    requires player == Black || player == White
    requires moves != []
    requires forall k :: 0 <= k < |moves| ==> Place(b, moves[k].x, moves[k].y, player).Some?
    ensures var m := BestByFlipCount(b, moves, player).value;
      && Place(b, m.x, m.y, player).Some?
      && forall k :: 0 <= k < |moves| ==>
        Count(Place(b, moves[k].x, moves[k].y, player).value, player) <=
        Count(Place(b, m.x, m.y, player).value, player)
  {
    BestByFlipCountSpec(b, moves, player);
    FlipCountsGain(b, moves, player);
  }

  /** The loop of `getBestMoveByFlipCount` over the flip counts: it starts
      from index 0 and a maximum of -1, and moves on only to a strictly larger
      count. */
  method ScanMax(cs: seq<nat>) returns (at: nat)
    requires |cs| >= 1
    ensures at == FirstBest(cs)
  {
    at := 0;
    var maxFlips: int := -1;
    var i := 0;
    while i < |cs|
      invariant 0 <= i <= |cs| && at < |cs|
      invariant i == 0 ==> maxFlips == -1 && at == 0
      invariant i > 0 ==> at == FirstBest(cs[..i]) && maxFlips == cs[at]
    {
      if i > 0 {
        FirstBestStep(cs, i);
      }
      if cs[i] > maxFlips {
        maxFlips := cs[i];
        at := i;
      }
      i := i + 1;
    }
    assert cs[..|cs|] == cs;
  }

  /** `getBestMoveByFlipCount`: `null` for no moves, otherwise the move the
      scan settles on. */
  method ScanFlipCounts(b: Grid, moves: seq<Move>, player: int) returns (best: Option<Move>)
    ensures best == BestByFlipCount(b, moves, player)
  {
    if moves == [] {
      return None;
    }
    var at := ScanMax(FlipCounts(b, moves, player));
    best := Some(moves[at]);
  }

  // ---------------------------------------------------------------------------
  // Scanning the reply
  // ---------------------------------------------------------------------------

  /** `\s` of `java.util.regex`: space, tab, newline, vertical tab, form feed
      and carriage return. */
  predicate IsSpace(c: char) {
    c == ' ' || c == '\t' || c == '\n' || c == '\r' || c as int == 11 || c as int == 12
  }

  /** Past the run of `\s` starting at `p`. */
  function SkipSpaces(s: string, p: nat): (q: nat)
    requires p <= |s|
    ensures p <= q <= |s|
    decreases |s| - p
  {
    if p < |s| && IsSpace(s[p]) then SkipSpaces(s, p + 1) else p
  }

  /** Past the run of `\d` starting at `p`; without the UNICODE_CHARACTER_CLASS
      flag Java's `\d` is `[0-9]`. */
  function DigitsEnd(s: string, p: nat): (q: nat)
    requires p <= |s|
    ensures p <= q <= |s|
    decreases |s| - p
  {
    if p < |s| && IsAsciiDigit(s[p]) then DigitsEnd(s, p + 1) else p
  }

  lemma {:induction false} DigitsEndSpec(s: string, p: nat)
    requires p <= |s|
    ensures AllAsciiDigits(s[p..DigitsEnd(s, p)])
    decreases |s| - p
  {
    if p < |s| && IsAsciiDigit(s[p]) {
      DigitsEndSpec(s, p + 1);
      assert s[p..DigitsEnd(s, p)] == [s[p]] + s[p + 1..DigitsEnd(s, p)];
    }
  }

  /** One match of a coordinate pattern: the two digit groups, and where the
      match ends. */
  datatype Found = Found(x: string, y: string, end: nat)

  /** `(\d+)\s*,\s*(\d+)` at `p`. Greedy digit runs must be followed by a
      space, a comma or (for the second) anything, so no backtracking can
      shorten them. */
  function NumberPairAt(s: string, p: nat): (r: Option<Found>)
    requires p <= |s|
    ensures r.Some? ==> p < r.value.end <= |s|
  {
    var b := DigitsEnd(s, p);
    if b == p then None
    else
      var c := SkipSpaces(s, b);
      if c == |s| || s[c] != ',' then None
      else
        var d := SkipSpaces(s, c + 1);
        var e := DigitsEnd(s, d);
        if e == d then None else Some(Found(s[p..b], s[d..e], e))
  }

  /** `MOVE:\s*(\d+)\s*,\s*(\d+)`, case-insensitively, at `p`. */
  function MoveMatchAt(s: string, p: nat): (r: Option<Found>)
    requires p <= |s|
    ensures r.Some? ==> p < r.value.end <= |s|
  {
    if p + 5 <= |s| && LowerAsciiString(s[p..p + 5]) == "move:" then NumberPairAt(s, SkipSpaces(s, p + 5))
    else None
  }

  /** `\[(\d+)\s*,\s*(\d+)\]` at `p`. */
  function BracketMatchAt(s: string, p: nat): (r: Option<Found>)
    requires p <= |s|
    ensures r.Some? ==> p < r.value.end <= |s|
  {
    if p < |s| && s[p] == '[' then
      match NumberPairAt(s, p + 1)
      case Some(f) =>
        if f.end < |s| && s[f.end] == ']' then Some(f.(end := f.end + 1)) else None
      case None => None
    else None
  }

  /** Successive `find()` calls of the MOVE pattern: after a match the search
      resumes at its end, after a miss one character further. */
  function MoveMatches(s: string, p: nat): (r: seq<Found>)
    requires p <= |s|
    ensures forall k :: 0 <= k < |r| ==> p < r[k].end <= |s|
    ensures forall i, j :: 0 <= i < j < |r| ==> r[i].end < r[j].end
    decreases |s| - p
  {
    if p == |s| then []
    else
      match MoveMatchAt(s, p)
      case Some(f) => [f] + MoveMatches(s, f.end)
      case None => MoveMatches(s, p + 1)
  }

  /** Successive `find()` calls of the bracket pattern. */
  function BracketMatches(s: string, p: nat): (r: seq<Found>)
    requires p <= |s|
    ensures forall k :: 0 <= k < |r| ==> p < r[k].end <= |s|
    ensures forall i, j :: 0 <= i < j < |r| ==> r[i].end < r[j].end
    decreases |s| - p
  {
    if p == |s| then []
    else
      match BracketMatchAt(s, p)
      case Some(f) => [f] + BracketMatches(s, f.end)
      case None => BracketMatches(s, p + 1)
  }

  // ---------------------------------------------------------------------------
  // Choosing among the matches
  // ---------------------------------------------------------------------------

  /** The move a match names, when both groups pass `Integer.parseInt`. */
  function Candidate(f: Found): Option<Move> {
    match (ParseInt(f.x), ParseInt(f.y))
    case (Some(x), Some(y)) => Some(Move(x, y))
    case _ => None
  }

  /** A match naming one of the listed moves. */
  predicate Names(f: Found, moves: seq<Move>) {
    Candidate(f).Some? && Candidate(f).value in moves
  }

  /** Stage 1's loop: every match naming a listed move replaces the pick, so
      the last one wins. */
  function KeepLast(fs: seq<Found>, moves: seq<Move>, acc: Option<Move>): (r: Option<Move>)
    ensures r == acc || (r.Some? && r.value in moves)
    decreases |fs|
  {
    if |fs| == 0 then acc
    else KeepLast(fs[1..], moves, if Names(fs[0], moves) then Candidate(fs[0]) else acc)
  }

  /** The last match naming a listed move, found from the end. */
  function LastNamed(fs: seq<Found>, moves: seq<Move>): (r: Option<Move>)
    ensures r.Some? ==> r.value in moves
    decreases |fs|
  {
    if |fs| == 0 then None
    else if Names(fs[|fs| - 1], moves) then Candidate(fs[|fs| - 1])
    else LastNamed(fs[..|fs| - 1], moves)
  }

  /** The forward loop of stage 1 ends on the last match that names a listed
      move, or on its starting value when none does. */
  lemma {:induction false} KeepLastIsLastNamed(fs: seq<Found>, moves: seq<Move>, acc: Option<Move>)
    ensures KeepLast(fs, moves, acc) == if LastNamed(fs, moves).Some? then LastNamed(fs, moves) else acc
    decreases |fs|
  {
    if |fs| > 0 {
      var acc1 := if Names(fs[0], moves) then Candidate(fs[0]) else acc;
      KeepLastIsLastNamed(fs[1..], moves, acc1);
      LastNamedCons(fs, moves);
    }
  }

  /** Looking from the end: the tail decides unless it names nothing, and
      then the head does. */
  lemma {:induction false} LastNamedCons(fs: seq<Found>, moves: seq<Move>)
    requires |fs| >= 1
    ensures LastNamed(fs, moves) ==
      if LastNamed(fs[1..], moves).Some? then LastNamed(fs[1..], moves)
      else if Names(fs[0], moves) then Candidate(fs[0]) else None
    decreases |fs|
  {
    if |fs| > 1 {
      var init := fs[..|fs| - 1];
      assert fs[1..][..|fs| - 2] == init[1..];
      assert fs[1..][|fs| - 2] == fs[|fs| - 1];
      LastNamedCons(init, moves);
      assert init[0] == fs[0];
    }
  }

  /** Stage 1 finds nothing exactly when no match names a listed move. */
  lemma {:induction false} LastNamedNone(fs: seq<Found>, moves: seq<Move>)
    ensures LastNamed(fs, moves).None? <==> forall k :: 0 <= k < |fs| ==> !Names(fs[k], moves)
    decreases |fs|
  {
    if |fs| > 0 {
      var init := fs[..|fs| - 1];
      LastNamedNone(init, moves);
      assert forall k :: 0 <= k < |init| ==> init[k] == fs[k];
    }
  }

  /** Stage 2's loop: the first match naming a listed move. */
  function FirstNamed(fs: seq<Found>, moves: seq<Move>): (r: Option<Move>)
    ensures r.Some? ==> r.value in moves
    decreases |fs|
  {
    if |fs| == 0 then None
    else if Names(fs[0], moves) then Candidate(fs[0])
    else FirstNamed(fs[1..], moves)
  }

  /** Stage 2 finds something exactly when some match names a listed move,
      and then it is the earliest such match. */
  lemma {:induction false} FirstNamedSpec(fs: seq<Found>, moves: seq<Move>)
    ensures FirstNamed(fs, moves).None? <==> forall k :: 0 <= k < |fs| ==> !Names(fs[k], moves)
    ensures forall k :: (0 <= k < |fs| && Names(fs[k], moves) &&
                         (forall j :: 0 <= j < k ==> !Names(fs[j], moves))) ==> FirstNamed(fs, moves) == Candidate(fs[k])
    decreases |fs|
  {
    if |fs| > 0 {
      FirstNamedSpec(fs[1..], moves);
      forall k | 1 <= k < |fs| && Names(fs[k], moves) && (forall j :: 0 <= j < k ==> !Names(fs[j], moves))
        ensures FirstNamed(fs, moves) == Candidate(fs[k])
      {
        assert fs[1..][k - 1] == fs[k];
        assert forall j :: 0 <= j < k - 1 ==> fs[1..][j] == fs[j + 1];
      }
      assert forall k :: 1 <= k < |fs| ==> fs[1..][k - 1] == fs[k];
    }
  }

  // ---------------------------------------------------------------------------
  // Stage 3: bare numbers
  // ---------------------------------------------------------------------------

  /** The chars `[^0-9,\\s]` does not match: ASCII digits, commas, `\\s`. */
  predicate Kept(c: char) {
    IsAsciiDigit(c) || c == ',' || IsSpace(c)
  }

  /** `replaceAll("[^0-9,\\s]", "")`: only digits, commas and spaces stay. */
  function Clean(s: string): (r: string)
    ensures |r| <= |s|
    ensures forall k :: 0 <= k < |r| ==> Kept(r[k])
    ensures (forall k :: 0 <= k < |s| ==> Kept(s[k])) ==> r == s
    ensures (forall k :: 0 <= k < |s| ==> !Kept(s[k])) ==> r == ""
  {
    if |s| == 0 then ""
    else
      var rest := Clean(s[1..]);
      assert (forall k :: 0 <= k < |s| ==> Kept(s[k])) ==> rest == s[1..] by {
        if forall k :: 0 <= k < |s| ==> Kept(s[k]) {
          assert forall k :: 0 <= k < |s[1..]| ==> s[1..][k] == s[k + 1];
        }
      }
      assert (forall k :: 0 <= k < |s| ==> !Kept(s[k])) ==> rest == "" by {
        if forall k :: 0 <= k < |s| ==> !Kept(s[k]) {
          assert forall k :: 0 <= k < |s[1..]| ==> s[1..][k] == s[k + 1];
        }
      }
      (if Kept(s[0]) then [s[0]] else "") + rest
  }

  /** Cleaning works char by char: the text may be cleaned in pieces. */
  lemma {:induction false} CleanConcat(a: string, b: string)
    ensures Clean(a + b) == Clean(a) + Clean(b)
  {
    if |a| > 0 {
      assert (a + b)[1..] == a[1..] + b;
      CleanConcat(a[1..], b);
    } else {
      assert a + b == b;
    }
  }

  predicate IsSeparator(c: char) {
    c == ',' || IsSpace(c)
  }

  /** No char of `p` belongs to the class `[,,\\s]`. */
  predicate NoSeparator(p: string) {
    forall i :: 0 <= i < |p| ==> !IsSeparator(p[i])
  }

  /** Every separator char turned into a comma. */
  function Commas(s: string): (r: string)
    ensures |r| == |s|
    ensures forall k :: 0 <= k < |s| ==> r[k] == (if IsSeparator(s[k]) then ',' else s[k])
  {
    seq(|s|, k requires 0 <= k < |s| => if IsSeparator(s[k]) then ',' else s[k])
  }

  function NonEmpty(parts: seq<string>): (r: seq<string>)
    ensures |r| <= |parts|
    ensures forall k :: 0 <= k < |r| ==> r[k] != "" && r[k] in parts
  {
    if |parts| == 0 then []
    else (if parts[0] == "" then [] else [parts[0]]) + NonEmpty(parts[1..])
  }

  /** `split("[,,\\s]+")`: the pieces between maximal runs of separators,
      a leading empty piece kept and trailing empty pieces dropped; the whole
      string when no separator occurs. */
  function SplitRuns(s: string): (r: seq<string>)
    ensures forall k :: 0 <= k < |r| ==> NoSeparator(r[k])
    ensures NoSeparator(s) ==> r == [s]
  {
    if NoSeparator(s) then [s]
    else
      var pieces := SplitAll(Commas(s), ',');
      SplitAllChars(Commas(s), ',');
      DropTrailingEmpty([pieces[0]] + NonEmpty(pieces[1..]))
  }

  // The partner of `SplitRuns`: pieces joined by any run of separators.

  /** The pieces with `sep` between neighbours. */
  function JoinWith(ps: seq<string>, sep: string): string
    requires |ps| >= 1
  {
    if |ps| == 1 then ps[0] else ps[0] + sep + JoinWith(ps[1..], sep)
  }

  /** `m` commas. */
  function CommaRun(m: nat): (r: string)
    ensures |r| == m && forall i :: 0 <= i < m ==> r[i] == ','
  {
    seq(m, i => ',')
  }

  /** `m` empty pieces. */
  function Blanks(m: nat): (r: seq<string>)
    ensures |r| == m && forall i :: 0 <= i < m ==> r[i] == ""
  {
    seq(m, i => "")
  }

  /** What `SplitAll` makes of pieces joined by `m` commas: each piece, then
      the `m - 1` empty pieces between two adjacent commas. */
  function Spread(ps: seq<string>, m: nat): seq<string>
    requires |ps| >= 1 && m >= 1
  {
    if |ps| == 1 then ps else [ps[0]] + Blanks(m - 1) + Spread(ps[1..], m)
  }

  lemma CommasConcat(a: string, b: string)
    ensures Commas(a + b) == Commas(a) + Commas(b)
  {
  }

  lemma CommasJoin(ps: seq<string>, sep: string)
    requires |ps| >= 1 && |sep| >= 1
    requires forall k :: 0 <= k < |ps| ==> NoSeparator(ps[k])
    requires forall i :: 0 <= i < |sep| ==> IsSeparator(sep[i])
    ensures Commas(JoinWith(ps, sep)) == JoinWith(ps, CommaRun(|sep|))
    decreases |ps|
  {
    assert Commas(ps[0]) == ps[0];
    assert Commas(sep) == CommaRun(|sep|);
    if |ps| > 1 {
      CommasJoin(ps[1..], sep);
      CommasConcat(ps[0] + sep, JoinWith(ps[1..], sep));
      CommasConcat(ps[0], sep);
    }
  }

  lemma {:induction false} SplitCommaRun(m: nat, x: string)
    ensures SplitAll(CommaRun(m) + x, ',') == Blanks(m) + SplitAll(x, ',')
  {
    if m > 0 {
      assert CommaRun(m) + x == [] + [','] + (CommaRun(m - 1) + x);
      SplitAllCons([], CommaRun(m - 1) + x, ',');
      SplitCommaRun(m - 1, x);
      assert Blanks(m) == [""] + Blanks(m - 1);
    } else {
      assert CommaRun(0) + x == x;
    }
  }

  lemma {:induction false} SplitSpread(ps: seq<string>, m: nat)
    requires |ps| >= 1 && m >= 1
    requires forall k :: 0 <= k < |ps| ==> ',' !in ps[k]
    ensures SplitAll(JoinWith(ps, CommaRun(m)), ',') == Spread(ps, m)
    decreases |ps|
  {
    if |ps| == 1 {
      SplitAllNoSeparator(ps[0], ',');
    } else {
      var rest := JoinWith(ps[1..], CommaRun(m));
      assert CommaRun(m) == [','] + CommaRun(m - 1);
      assert JoinWith(ps, CommaRun(m)) == ps[0] + [','] + (CommaRun(m - 1) + rest);
      SplitAllCons(ps[0], CommaRun(m - 1) + rest, ',');
      SplitCommaRun(m - 1, rest);
      SplitSpread(ps[1..], m);
    }
  }

  lemma {:induction false} NonEmptyConcat(a: seq<string>, b: seq<string>)
    ensures NonEmpty(a + b) == NonEmpty(a) + NonEmpty(b)
  {
    if |a| > 0 {
      assert (a + b)[1..] == a[1..] + b;
      NonEmptyConcat(a[1..], b);
    } else {
      assert a + b == b;
    }
  }

  lemma {:induction false} NonEmptyBlanks(m: nat)
    ensures NonEmpty(Blanks(m)) == []
  {
    if m > 0 {
      assert Blanks(m)[1..] == Blanks(m - 1);
      NonEmptyBlanks(m - 1);
    }
  }

  lemma NonEmptyOne(p: string)
    requires p != ""
    ensures NonEmpty([p]) == [p]
  {
    assert [p][1..] == [];
  }

  lemma {:induction false} NonEmptySpread(ps: seq<string>, m: nat)
    requires |ps| >= 1 && m >= 1
    requires forall k :: 0 <= k < |ps| ==> ps[k] != ""
    ensures NonEmpty(Spread(ps, m)) == ps
    decreases |ps|
  {
    if |ps| == 1 {
      NonEmptyOne(ps[0]);
    } else {
      var head, blanks, tail := [ps[0]], Blanks(m - 1), Spread(ps[1..], m);
      assert Spread(ps, m) == (head + blanks) + tail;
      NonEmptyConcat(head + blanks, tail);
      NonEmptyConcat(head, blanks);
      NonEmptyOne(ps[0]);
      NonEmptyBlanks(m - 1);
      NonEmptySpread(ps[1..], m);
      assert head + [] + ps[1..] == ps;
    }
  }

  lemma SplitJoined(ps: seq<string>, sep: string)
    requires |ps| >= 1 && |sep| >= 1
    requires forall k :: 0 <= k < |ps| ==> NoSeparator(ps[k])
    requires forall i :: 0 <= i < |sep| ==> IsSeparator(sep[i])
    ensures SplitAll(Commas(JoinWith(ps, sep)), ',') == Spread(ps, |sep|)
  {
    CommasJoin(ps, sep);
    forall k, i | 0 <= k < |ps| && 0 <= i < |ps[k]|
      ensures ps[k][i] != ','
    {
      assert !IsSeparator(ps[k][i]);
    }
    SplitSpread(ps, |sep|);
  }

  lemma KeepNonEmpty(ps: seq<string>, m: nat)
    requires |ps| >= 2 && m >= 1
    requires forall k :: 0 <= k < |ps| ==> ps[k] != ""
    ensures [Spread(ps, m)[0]] + NonEmpty(Spread(ps, m)[1..]) == ps
  {
    var blanks, tail := Blanks(m - 1), Spread(ps[1..], m);
    assert Spread(ps, m) == [ps[0]] + (blanks + tail);
    assert Spread(ps, m)[1..] == blanks + tail;
    NonEmptyConcat(blanks, tail);
    NonEmptyBlanks(m - 1);
    NonEmptySpread(ps[1..], m);
    assert NonEmpty(blanks + tail) == ps[1..];
  }

  /** `split("[,,\\s]+")` undoes joining non-empty, separator-free pieces with
      any non-empty run of separators, such as ",", ", " or " ". */
  lemma SplitRunsJoin(ps: seq<string>, sep: string)
    requires |ps| >= 1 && |sep| >= 1
    requires forall k :: 0 <= k < |ps| ==> ps[k] != "" && NoSeparator(ps[k])
    requires forall i :: 0 <= i < |sep| ==> IsSeparator(sep[i])
    ensures SplitRuns(JoinWith(ps, sep)) == ps
  {
    var s := JoinWith(ps, sep);
    if |ps| > 1 {
      assert s[|ps[0]|] == sep[0];
      SplitJoined(ps, sep);
      KeepNonEmpty(ps, |sep|);
      assert ps[|ps| - 1] != "";
    }
  }

  /** The pair at `parts[i]`, `parts[i + 1]`, when both parse, lie in [0, 8)
      and name a listed move. */
  function PairAt(parts: seq<string>, i: nat, moves: seq<Move>): (r: Option<Move>)
    requires i + 1 < |parts|
    ensures r.Some? ==> r.value in moves && 0 <= r.value.x < 8 && 0 <= r.value.y < 8
  {
    match (ParseInt(Trim(parts[i])), ParseInt(Trim(parts[i + 1])))
    case (Some(x), Some(y)) =>
      if 0 <= x < 8 && 0 <= y < 8 && Move(x, y) in moves then Some(Move(x, y)) else None
    case _ => None
  }

  /** Stage 3's loop from `i` down to 0: the first pair, from the end, that
      `PairAt` accepts. */
  function ScanBack(parts: seq<string>, i: int, moves: seq<Move>): (r: Option<Move>)
    requires i + 1 < |parts|
    ensures r.Some? ==> r.value in moves && 0 <= r.value.x < 8 && 0 <= r.value.y < 8
    decreases i + 1
  {
    if i < 0 then None
    else
      var here := PairAt(parts, i, moves);
      if here.Some? then here else ScanBack(parts, i - 1, moves)
  }

  /** Stage 3 takes the pair with the highest start index that is accepted. */
  lemma {:induction false} ScanBackSpec(parts: seq<string>, i: int, moves: seq<Move>)
    requires i + 1 < |parts|
    ensures ScanBack(parts, i, moves).None? <==> forall j :: 0 <= j <= i ==> PairAt(parts, j, moves).None?
    ensures forall j :: (0 <= j <= i && PairAt(parts, j, moves).Some? &&
                         (forall k :: j < k <= i ==> PairAt(parts, k, moves).None?)) ==>
                        ScanBack(parts, i, moves) == PairAt(parts, j, moves)
    decreases i + 1
  {
    if i >= 0 {
      ScanBackSpec(parts, i - 1, moves);
    }
  }

  /** Stage 3 as a whole: only when the cleaned reply has a comma. */
  function NumberStage(response: string, moves: seq<Move>): (r: Option<Move>)
    ensures r.Some? ==> r.value in moves && 0 <= r.value.x < 8 && 0 <= r.value.y < 8
  {
    var clean := Clean(response);
    if ',' !in clean then None
    else
      var parts := SplitRuns(clean);
      ScanBack(parts, |parts| - 2, moves)
  }

  /** `parseMoveFromResponse`: the last MOVE match naming a listed move; else
      the first bracketed pair naming one; else the last acceptable pair of
      bare numbers; else a random listed move. */
  function ParseMove(response: string, moves: seq<Move>, pick: nat): (r: Move)
    requires |moves| >= 1
    ensures r in moves
    ensures LastNamed(MoveMatches(response, 0), moves).Some? ==>
      r == LastNamed(MoveMatches(response, 0), moves).value
    ensures (LastNamed(MoveMatches(response, 0), moves).None? &&
             FirstNamed(BracketMatches(response, 0), moves).Some?) ==>
            r == FirstNamed(BracketMatches(response, 0), moves).value
    ensures (LastNamed(MoveMatches(response, 0), moves).None? &&
             FirstNamed(BracketMatches(response, 0), moves).None? &&
             NumberStage(response, moves).Some?) ==>
            r == NumberStage(response, moves).value
  {
    var first := KeepLast(MoveMatches(response, 0), moves, None);
    KeepLastIsLastNamed(MoveMatches(response, 0), moves, None);
    if first.Some? then first.value
    else
      var second := FirstNamed(BracketMatches(response, 0), moves);
      if second.Some? then second.value
      else
        var third := NumberStage(response, moves);
        if third.Some? then third.value else moves[pick % |moves|]
  }

  /** The random fallback is taken only when no MOVE match and no bracketed
      pair names a listed move and the bare numbers give no acceptable pair. */
  lemma ParseMoveFallback(response: string, moves: seq<Move>, pick: nat)
    requires |moves| >= 1
    requires forall k :: 0 <= k < |MoveMatches(response, 0)| ==> !Names(MoveMatches(response, 0)[k], moves)
    requires forall k :: 0 <= k < |BracketMatches(response, 0)| ==> !Names(BracketMatches(response, 0)[k], moves)
    requires NumberStage(response, moves).None?
    ensures ParseMove(response, moves, pick) == moves[pick % |moves|]
  {
    KeepLastIsLastNamed(MoveMatches(response, 0), moves, None);
    LastNamedNone(MoveMatches(response, 0), moves);
    FirstNamedSpec(BracketMatches(response, 0), moves);
  }

  /** The one MOVE match in "MOVE: 2, 3": the case-blind keyword, spaces,
      a number, a comma, a space, a number. */
  lemma MoveLineMatch()
    ensures MoveMatches("MOVE: 2, 3", 0) == [Found("2", "3", 10)]
  {
    var s := "MOVE: 2, 3";
    assert LowerAsciiString(s[0..5]) == "move:";
    assert SkipSpaces(s, 5) == 6;
    assert DigitsEnd(s, 6) == 7;
    assert SkipSpaces(s, 7) == 7 && s[7] == ',';
    assert SkipSpaces(s, 8) == 9;
    assert DigitsEnd(s, 9) == 10;
    var f := Found("2", "3", 10);
    assert s[6..7] == "2" && s[9..10] == "3";
    assert NumberPairAt(s, 6) == Some(f);
    assert MoveMatchAt(s, 0) == Some(f);
  }

  /** A reply ending in a MOVE line is read as that move. */
  lemma MoveLineExample()
    ensures ParseMove("MOVE: 2, 3", [Move(2, 3), Move(4, 5)], 0) == Move(2, 3)
  {
    var f := Found("2", "3", 10);
    MoveLineMatch();
    assert IsDigit('2') && DigitValue('2') == 2;
    assert IsDigit('3') && DigitValue('3') == 3;
    ParseOneDigit('2');
    ParseOneDigit('3');
    assert "2" == ['2'] && "3" == ['3'];
    assert Candidate(f) == Some(Move(2, 3));
    var moves := [Move(2, 3), Move(4, 5)];
    assert Names(f, moves);
    assert [f][1..] == [];
    assert KeepLast([f], moves, None) == Some(Move(2, 3));
  }

  // ---------------------------------------------------------------------------
  // getBestMove
  // ---------------------------------------------------------------------------

  /** The key checks before a HARD call: present, non-empty, at least 20
      chars and starting with `AIzaSy`. */
  predicate KeyAccepted(apiKey: Option<string>) {
    apiKey.Some? && |apiKey.value| > 0 && !(|apiKey.value| < 20 || !StartsWith(apiKey.value, "AIzaSy"))
  }

  /** The chosen move (`null` as `None`) and whether the model API was
      called. */
  datatype Decision = Decision(move: Option<Move>, calledApi: bool)

  /** The choice `getBestMove` makes among the listed moves `moves`: EASY
      picks at random; MEDIUM takes the first move with the most flips; HARD
      calls the API only with an accepted key and reads its reply with
      `parseMoveFromResponse`, falling back to a random move when the key is
      rejected or the call throws (`reply` is `None`). The prompt built for
      the call is not modelled: `reply` is whatever text the API returned. */
  function Choose(board: Grid, turn: int, moves: seq<Move>, difficulty: Engine.Difficulty,
                  apiKey: Option<string>, reply: Option<string>, pick: nat): (d: Decision)
    requires moves != []
    ensures d.move.Some? && d.move.value in moves
    ensures d.calledApi <==> difficulty == Engine.Hard && KeyAccepted(apiKey)
    ensures difficulty == Engine.Medium ==> d.move == BestByFlipCount(board, moves, turn)
    ensures difficulty == Engine.Hard && KeyAccepted(apiKey) && reply.Some? ==>
      d.move == Some(ParseMove(reply.value, moves, pick))
    ensures difficulty == Engine.Easy || (difficulty == Engine.Hard && (!KeyAccepted(apiKey) || reply.None?)) ==>
      d.move == Some(moves[pick % |moves|])
  {
    var random := moves[pick % |moves|];
    match difficulty
    case Easy => Decision(Some(random), false)
    case Medium =>
      var best := BestByFlipCount(board, moves, turn);
      Decision(best, false)
    case Hard =>
      if !KeyAccepted(apiKey) then Decision(Some(random), false)
      else
        match reply
        case None => Decision(Some(random), true)
        case Some(text) => Decision(Some(ParseMove(text, moves, pick)), true)
  }

  /** `getBestMove(difficulty)`: nothing without a legal move, and otherwise
      the choice among the legal moves, which can always be played. */
  function GetBestMove(m: Engine.Model, difficulty: Engine.Difficulty, apiKey: Option<string>,
                       reply: Option<string>, pick: nat): (d: Decision)
    ensures d.move.None? <==> Engine.GetValidMoves(m) == []
    ensures d.move.Some? ==> d.move.value in Engine.GetValidMoves(m)
    ensures d.move.Some? ==> Place(m.board, d.move.value.x, d.move.value.y, m.turn).Some?
    ensures d.calledApi <==> Engine.GetValidMoves(m) != [] && difficulty == Engine.Hard && KeyAccepted(apiKey)
    ensures difficulty == Engine.Medium ==> d.move == BestByFlipCount(m.board, Engine.GetValidMoves(m), m.turn)
    ensures var moves := Engine.GetValidMoves(m);
      moves != [] && difficulty == Engine.Hard && KeyAccepted(apiKey) && reply.Some? ==>
        d.move == Some(ParseMove(reply.value, moves, pick))
    ensures var moves := Engine.GetValidMoves(m);
      moves != [] && (difficulty == Engine.Easy || (difficulty == Engine.Hard && (!KeyAccepted(apiKey) || reply.None?))) ==>
        d.move == Some(moves[pick % |moves|])
  {
    var moves := Engine.GetValidMoves(m);
    if moves == [] then Decision(None, false)
    else Choose(m.board, m.turn, moves, difficulty, apiKey, reply, pick)
  }

  /** `getBestMove()`: the MEDIUM choice. */
  function GetBestMoveDefault(m: Engine.Model): (r: Option<Move>)
    ensures r == BestByFlipCount(m.board, Engine.GetValidMoves(m), m.turn)
  {
    GetBestMove(m, Engine.Medium, None, None, 0).move
  }

  /** A HARD request with a rejected key never reaches the network and plays
      the random listed move. */
  lemma RejectedKeyIsOffline(m: Engine.Model, apiKey: Option<string>, reply: Option<string>, pick: nat)
    requires Engine.GetValidMoves(m) != [] && !KeyAccepted(apiKey)
    ensures var d := GetBestMove(m, Engine.Hard, apiKey, reply, pick);
      var moves := Engine.GetValidMoves(m);
      !d.calledApi && d.move == Some(moves[pick % |moves|])
  {
  }

  /** A key shorter than 20 chars, or not starting with `AIzaSy`, is
      rejected. */
  lemma ShortOrForeignKeyRejected(key: string)
    requires |key| < 20 || !StartsWith(key, "AIzaSy")
    ensures !KeyAccepted(Some(key))
  {
  }
}

=== FILE: board.dfy ===
/** The Othello board rules shared by both copies of `GameModel`: an 8x8 grid of
    {0 = empty, 1 = Black, 2 = White}, the bracketing-flip computation over the
    eight compass directions, move application, legal-move enumeration and disc
    counting. */
module Board {
  import opened Wrappers

  const Size: int := 8
  const Empty: int := 0
  const Black: int := 1
  const White: int := 2

  /** The grid in row-major order: the Java cell `board[y][x]` is `b[y * 8 + x]`. */
  type Grid = b: seq<int> | |b| == 64 witness seq(64, i => 0)

  /** A legal-move entry: the Java code stores it as `{x, y}`. */
  datatype Move = Move(x: int, y: int)

  /** A flip entry: the Java code stores it as `{row, col}`, i.e. `{y, x}`. */
  datatype Pos = Pos(row: int, col: int)

  /** One of the eight compass steps, as the pair (DY[i], DX[i]). */
  datatype Dir = Dir(dy: int, dx: int)

  predicate IsDir(d: Dir) {
    -1 <= d.dy <= 1 && -1 <= d.dx <= 1 && d != Dir(0, 0)
  }

  /** A unit compass step. */
  type Direction = d: Dir | IsDir(d) witness Dir(1, 0)

  /** The direction table in the source's order. */
  const Dirs: seq<Direction> := [Dir(-1, 0), Dir(1, 0), Dir(0, -1), Dir(0, 1),
                           Dir(-1, -1), Dir(-1, 1), Dir(1, -1), Dir(1, 1)]

  predicate InBounds(x: int, y: int) {
    0 <= x < Size && 0 <= y < Size
  }

  predicate PosInBounds(p: Pos) {
    InBounds(p.col, p.row)
  }

  function Index(x: int, y: int): (i: nat)
    requires InBounds(x, y)
    ensures i < 64
  {
    y * 8 + x
  }

  lemma IndexInjective(x1: int, y1: int, x2: int, y2: int)
    requires InBounds(x1, y1) && InBounds(x2, y2)
    ensures Index(x1, y1) == Index(x2, y2) <==> x1 == x2 && y1 == y2
  {
  }

  function At(b: Grid, x: int, y: int): int
    requires InBounds(x, y)
  {
    b[Index(x, y)]
  }

  function AtPos(b: Grid, p: Pos): int
    requires PosInBounds(p)
  {
    At(b, p.col, p.row)
  }

  /** `(player == 1) ? 2 : 1`: every value other than Black has Black as opponent. */
  function Opponent(player: int): (o: int)
    ensures o != player && (o == Black || o == White)
  {
    if player == Black then White else Black
  }

  /** Every cell holds one of the three cell values. */
  predicate WellFormed(b: Grid) {
    forall i :: 0 <= i < 64 ==> 0 <= b[i] <= 2
  }

  // ---------------------------------------------------------------------------
  // Opening position
  // ---------------------------------------------------------------------------

  /** An empty board row. */
  const EmptyRow: seq<int> := [0, 0, 0, 0, 0, 0, 0, 0]

  /** The board `initializeBoard` sets up, row by row. */
  function Opening(): Grid {
    EmptyRow + EmptyRow + EmptyRow +
    [0, 0, 0, 2, 1, 0, 0, 0] +
    [0, 0, 0, 1, 2, 0, 0, 0] +
    EmptyRow + EmptyRow + EmptyRow
  }

  /** The opening has White on (3,3) and (4,4), Black on (4,3) and (3,4) as
      (x, y), and every other cell empty. */
  lemma OpeningCells()
    ensures At(Opening(), 3, 3) == White && At(Opening(), 4, 4) == White
    ensures At(Opening(), 4, 3) == Black && At(Opening(), 3, 4) == Black
    ensures forall x, y :: InBounds(x, y) && !(3 <= x <= 4 && 3 <= y <= 4) ==> At(Opening(), x, y) == Empty
    ensures WellFormed(Opening())
  {
    OpeningEmpty();
    OpeningWellFormed();
  }

  lemma OpeningEmpty()
    ensures forall x, y :: InBounds(x, y) && !(3 <= x <= 4 && 3 <= y <= 4) ==> At(Opening(), x, y) == Empty
  {
    forall x, y | InBounds(x, y) && !(3 <= x <= 4 && 3 <= y <= 4)
      ensures At(Opening(), x, y) == Empty
    {
      if y < 3 || y > 4 {
        OutsideMiddleRows(x, y);
      }
    }
  }

  /** Rows 0-2 and 5-7 are empty rows. */
  lemma OutsideMiddleRows(x: int, y: int)
    requires InBounds(x, y) && (y < 3 || y > 4)
    ensures At(Opening(), x, y) == Empty
  {
    var b := Opening();
    if y < 3 {
      assert b[..24] == EmptyRow + EmptyRow + EmptyRow;
      assert b[Index(x, y)] == b[..24][Index(x, y)];
    } else {
      assert b[40..] == EmptyRow + EmptyRow + EmptyRow;
      assert b[Index(x, y)] == b[40..][Index(x, y) - 40];
    }
  }

  lemma OpeningWellFormed()
    ensures WellFormed(Opening())
  {
  }

  // ---------------------------------------------------------------------------
  // Rays and the bracketing rule
  // ---------------------------------------------------------------------------

  /** `base + k * delta` for a unit step `delta`. */
  function Step(base: int, delta: int, k: int): int {
    if delta == 1 then base + k else if delta == -1 then base - k else base
  }

  /** The cell `k` steps from (x, y) in direction `d`, as the source stores it: (row, col). */
  function RayPos(x: int, y: int, d: Direction, k: int): Pos {
    Pos(Step(y, d.dy, k), Step(x, d.dx, k))
  }

  /** Reference definition of one direction's contribution: the first `n` cells
      of the ray hold the opponent and the cell after them, still on the board,
      holds `player`. */
  ghost predicate Brackets(b: Grid, x: int, y: int, player: int, d: Direction, n: int) {
    && n >= 1
    && (forall k :: 1 <= k <= n ==>
          PosInBounds(RayPos(x, y, d, k)) && AtPos(b, RayPos(x, y, d, k)) == Opponent(player))
    && PosInBounds(RayPos(x, y, d, n + 1))
    && AtPos(b, RayPos(x, y, d, n + 1)) == player
  }

  lemma RayLeavesBoard(x: int, y: int, d: Direction, k: int)
    requires InBounds(x, y) && k >= 1
    requires PosInBounds(RayPos(x, y, d, k))
    ensures k <= 7
  {
  }

  /** The `while` loop of `getPiecesToFlip`: from `k` steps out, collect cells
      while they are on the board and hold `opp`. */
  function Walk(b: Grid, x: int, y: int, d: Direction, opp: int, k: int): seq<Pos>
    requires InBounds(x, y) && 1 <= k <= 8
    decreases 8 - k
  {
    var p := RayPos(x, y, d, k);
    if PosInBounds(p) && AtPos(b, p) == opp then
      RayLeavesBoard(x, y, d, k);
      [p] + Walk(b, x, y, d, opp, k + 1)
    else
      []
  }

  /** The walk collects consecutive ray cells holding `opp` and stops at the
      first cell that is off the board or holds something else. */
  lemma {:induction false} WalkSpec(b: Grid, x: int, y: int, d: Direction, opp: int, k: int)
    requires InBounds(x, y) && 1 <= k <= 8
    decreases 8 - k
    ensures var cells := Walk(b, x, y, d, opp, k);
      && (forall j :: 0 <= j < |cells| ==> cells[j] == RayPos(x, y, d, k + j))
      && (forall j :: 0 <= j < |cells| ==> PosInBounds(cells[j]) && AtPos(b, cells[j]) == opp)
      && !(PosInBounds(RayPos(x, y, d, k + |cells|)) && AtPos(b, RayPos(x, y, d, k + |cells|)) == opp)
  {
    var p := RayPos(x, y, d, k);
    if PosInBounds(p) && AtPos(b, p) == opp {
      RayLeavesBoard(x, y, d, k);
      WalkSpec(b, x, y, d, opp, k + 1);
      var cells := Walk(b, x, y, d, opp, k);
      var rest := Walk(b, x, y, d, opp, k + 1);
      assert cells == [p] + rest;
      forall j | 0 < j < |cells|
        ensures cells[j] == RayPos(x, y, d, k + j)
      {
        assert cells[j] == rest[j - 1];
        assert k + 1 + (j - 1) == k + j;
      }
      assert k + 1 + |rest| == k + |cells|;
    }
  }

  /** One iteration of the direction loop: the run is kept only when the walk
      stops on the board at a cell holding `player`. */
  function DirFlips(b: Grid, x: int, y: int, player: int, d: Direction): seq<Pos>
    requires InBounds(x, y)
  {
    var run := Walk(b, x, y, d, Opponent(player), 1);
    var stop := RayPos(x, y, d, 1 + |run|);
    if PosInBounds(stop) && AtPos(b, stop) == player then run else []
  }

  /** The walk from `k` stops right after a run of `opp` cells that ends at `n`. */
  lemma {:induction false} WalkLength(b: Grid, x: int, y: int, d: Direction, opp: int, k: int, n: int)
    requires InBounds(x, y) && 1 <= k <= n + 1 <= 8
    requires forall j :: k <= j <= n ==>
      PosInBounds(RayPos(x, y, d, j)) && AtPos(b, RayPos(x, y, d, j)) == opp
    requires !(PosInBounds(RayPos(x, y, d, n + 1)) && AtPos(b, RayPos(x, y, d, n + 1)) == opp)
    decreases n + 1 - k
    ensures |Walk(b, x, y, d, opp, k)| == n + 1 - k
  {
    if k <= n {
      WalkLength(b, x, y, d, opp, k + 1, n);
    }
  }

  /** A bracketing length, when there is one, is the length of the walk. */
  lemma BracketsIsWalk(b: Grid, x: int, y: int, player: int, d: Direction, n: int)
    requires InBounds(x, y)
    requires Brackets(b, x, y, player, d, n)
    ensures n == |Walk(b, x, y, d, Opponent(player), 1)|
  {
    RayLeavesBoard(x, y, d, n + 1);
    WalkLength(b, x, y, d, Opponent(player), 1, n);
  }

  /** A direction contributes exactly the bracketed run: its cells are the
      first ray cells, in order, each holding the opponent, and `n` cells are
      flipped in direction `d` iff the first `n` ray cells hold the opponent and
      the next one holds `player`. */
  lemma DirFlipsBracketed(b: Grid, x: int, y: int, player: int, d: Direction)
    requires InBounds(x, y)
    ensures var f := DirFlips(b, x, y, player, d);
      && (forall k :: 0 <= k < |f| ==> f[k] == RayPos(x, y, d, k + 1))
      && (forall p :: p in f ==> PosInBounds(p) && AtPos(b, p) == Opponent(player))
      && (forall n :: Brackets(b, x, y, player, d, n) <==> n >= 1 && n == |f|)
  {
    var run := Walk(b, x, y, d, Opponent(player), 1);
    var f := DirFlips(b, x, y, player, d);
    WalkSpec(b, x, y, d, Opponent(player), 1);
    forall n | Brackets(b, x, y, player, d, n)
      ensures n == |f|
    {
      BracketsIsWalk(b, x, y, player, d, n);
    }
    if |f| >= 1 {
      forall k | 1 <= k <= |f|
        ensures PosInBounds(RayPos(x, y, d, k)) && AtPos(b, RayPos(x, y, d, k)) == Opponent(player)
      {
        assert run[k - 1] == RayPos(x, y, d, k);
      }
      assert Brackets(b, x, y, player, d, |f|);
    }
  }

  /** The direction loop from index `i` on: the runs of directions i..7 in order. */
  function FlipsFrom(b: Grid, x: int, y: int, player: int, i: nat): seq<Pos>
    requires InBounds(x, y) && i <= 8
    decreases 8 - i
  {
    if i == 8 then []
    else DirFlips(b, x, y, player, Dirs[i]) + FlipsFrom(b, x, y, player, i + 1)
  }

  /** A cell is in the loop's output from `i` on iff some direction `j >= i`
      contributes it. */
  lemma {:induction false} FlipsFromMembers(b: Grid, x: int, y: int, player: int, i: nat)
    requires InBounds(x, y) && i <= 8
    decreases 8 - i
    ensures forall p :: p in FlipsFrom(b, x, y, player, i) <==>
      exists j :: i <= j < 8 && p in DirFlips(b, x, y, player, Dirs[j])
  {
    if i < 8 {
      FlipsFromMembers(b, x, y, player, i + 1);
      var head := DirFlips(b, x, y, player, Dirs[i]);
      var tail := FlipsFrom(b, x, y, player, i + 1);
      assert FlipsFrom(b, x, y, player, i) == head + tail;
      forall p | p in head + tail
        ensures exists j :: i <= j < 8 && p in DirFlips(b, x, y, player, Dirs[j])
      {
        if p in head {
          assert i <= i < 8 && p in DirFlips(b, x, y, player, Dirs[i]);
        }
      }
      forall p | exists j :: i <= j < 8 && p in DirFlips(b, x, y, player, Dirs[j])
        ensures p in head + tail
      {
        var j :| i <= j < 8 && p in DirFlips(b, x, y, player, Dirs[j]);
        if j > i {
          assert p in tail;
        }
      }
    }
  }

  /** Every cell the loop collects from `i` on is on the board and holds the
      opponent. */
  lemma {:induction false} FlipsFromCells(b: Grid, x: int, y: int, player: int, i: nat)
    requires InBounds(x, y) && i <= 8
    decreases 8 - i
    ensures forall p :: p in FlipsFrom(b, x, y, player, i) ==>
      PosInBounds(p) && AtPos(b, p) == Opponent(player)
  {
    if i < 8 {
      DirFlipsBracketed(b, x, y, player, Dirs[i]);
      FlipsFromCells(b, x, y, player, i + 1);
    }
  }

  /** `getPiecesToFlip(x, y, player)`: nothing for an off-board or occupied
      target, otherwise the concatenation, direction by direction, of the
      bracketed runs. */
  function Flips(b: Grid, x: int, y: int, player: int): seq<Pos> {
    if !InBounds(x, y) || At(b, x, y) != Empty then []
    else FlipsFrom(b, x, y, player, 0)
  }

  /** Every flip is a board cell holding the opponent. */
  lemma FlipsCells(b: Grid, x: int, y: int, player: int)
    ensures forall p :: p in Flips(b, x, y, player) ==> PosInBounds(p) && AtPos(b, p) == Opponent(player)
  {
    if InBounds(x, y) && At(b, x, y) == Empty {
      FlipsFromCells(b, x, y, player, 0);
    }
  }

  /** The flip list is exactly the union of the bracketed runs: a cell is
      flipped iff the target is an empty board cell and, in some direction, the
      cell lies within a run of opponent discs closed by one of `player`'s. */
  lemma FlipsBracketed(b: Grid, x: int, y: int, player: int, p: Pos)
    ensures p in Flips(b, x, y, player) <==>
      InBounds(x, y) && At(b, x, y) == Empty &&
      exists j, n, k :: 0 <= j < 8 && Brackets(b, x, y, player, Dirs[j], n) &&
        1 <= k <= n && p == RayPos(x, y, Dirs[j], k)
  {
    if InBounds(x, y) && At(b, x, y) == Empty {
      FlipsFromMembers(b, x, y, player, 0);
      if p in Flips(b, x, y, player) {
        var j :| 0 <= j < 8 && p in DirFlips(b, x, y, player, Dirs[j]);
        var f := DirFlips(b, x, y, player, Dirs[j]);
        DirFlipsBracketed(b, x, y, player, Dirs[j]);
        var k :| 0 <= k < |f| && f[k] == p;
        assert Brackets(b, x, y, player, Dirs[j], |f|);
      }
      if exists j, n, k :: 0 <= j < 8 && Brackets(b, x, y, player, Dirs[j], n) &&
          1 <= k <= n && p == RayPos(x, y, Dirs[j], k) {
        var j, n, k :| 0 <= j < 8 && Brackets(b, x, y, player, Dirs[j], n) &&
          1 <= k <= n && p == RayPos(x, y, Dirs[j], k);
        var f := DirFlips(b, x, y, player, Dirs[j]);
        DirFlipsBracketed(b, x, y, player, Dirs[j]);
        assert f[k - 1] == p;
      }
    }
  }

  /** `getValidMoves` condition for one cell. */
  predicate IsLegal(b: Grid, x: int, y: int, player: int) {
    InBounds(x, y) && At(b, x, y) == Empty && |Flips(b, x, y, player)| > 0
  }

  // ---------------------------------------------------------------------------
  // Distinctness of the flip list
  // ---------------------------------------------------------------------------

  predicate Distinct<T(==)>(s: seq<T>) {
    forall i, j :: 0 <= i < j < |s| ==> s[i] != s[j]
  }

  /** The direction table lists each direction once. */
  lemma DirsDistinct(i: int, j: int)
    requires 0 <= i < j < 8
    ensures Dirs[i] != Dirs[j]
  {
  }

  /** Two rays from the same origin meet only when direction and distance agree. */
  lemma RaysDisjoint(x: int, y: int, d1: Direction, d2: Direction, k1: int, k2: int)
    requires k1 >= 1 && k2 >= 1
    requires RayPos(x, y, d1, k1) == RayPos(x, y, d2, k2)
    ensures d1 == d2 && k1 == k2
  {
  }

  /** Every cell of the direction loop from `i` on lies on a ray of a direction
      with index at least `i`. */
  lemma FlipsFromOnRays(b: Grid, x: int, y: int, player: int, i: nat, p: Pos)
    requires InBounds(x, y) && i <= 8
    requires p in FlipsFrom(b, x, y, player, i)
    ensures exists j, k :: i <= j < 8 && k >= 1 && p == RayPos(x, y, Dirs[j], k)
  {
    FlipsFromMembers(b, x, y, player, i);
    var j :| i <= j < 8 && p in DirFlips(b, x, y, player, Dirs[j]);
    DirFlipsBracketed(b, x, y, player, Dirs[j]);
    var f := DirFlips(b, x, y, player, Dirs[j]);
    var k :| 0 <= k < |f| && f[k] == p;
    assert p == RayPos(x, y, Dirs[j], k + 1);
  }

  lemma DirFlipsDistinct(b: Grid, x: int, y: int, player: int, d: Direction)
    requires InBounds(x, y)
    ensures Distinct(DirFlips(b, x, y, player, d))
  {
    var f := DirFlips(b, x, y, player, d);
    DirFlipsBracketed(b, x, y, player, d);
    forall a, c | 0 <= a < c < |f|
      ensures f[a] != f[c]
    {
      if f[a] == f[c] {
        RaysDisjoint(x, y, d, d, a + 1, c + 1);
      }
    }
  }

  lemma DistinctConcat<T>(a: seq<T>, c: seq<T>)
    requires Distinct(a) && Distinct(c)
    requires forall p :: p in a ==> p !in c
    ensures Distinct(a + c)
  {
    forall i, j | 0 <= i < j < |a + c|
      ensures (a + c)[i] != (a + c)[j]
    {
      if i < |a| && j >= |a| {
        assert (a + c)[i] in a && (a + c)[j] in c;
      }
    }
  }

  /** Runs of different directions never share a cell. */
  lemma HeadTailDisjoint(b: Grid, x: int, y: int, player: int, i: nat, p: Pos)
    requires InBounds(x, y) && i < 8
    requires p in DirFlips(b, x, y, player, Dirs[i])
    ensures p !in FlipsFrom(b, x, y, player, i + 1)
  {
    var head := DirFlips(b, x, y, player, Dirs[i]);
    DirFlipsBracketed(b, x, y, player, Dirs[i]);
    var k :| 0 <= k < |head| && head[k] == p;
    if p in FlipsFrom(b, x, y, player, i + 1) {
      FlipsFromOnRays(b, x, y, player, i + 1, p);
      var j', k' :| i + 1 <= j' < 8 && k' >= 1 && p == RayPos(x, y, Dirs[j'], k');
      RaysDisjoint(x, y, Dirs[i], Dirs[j'], k + 1, k');
      DirsDistinct(i, j');
    }
  }

  lemma {:induction false} FlipsFromDistinct(b: Grid, x: int, y: int, player: int, i: nat)
    requires InBounds(x, y) && i <= 8
    decreases 8 - i
    ensures Distinct(FlipsFrom(b, x, y, player, i))
  {
    if i < 8 {
      FlipsFromDistinct(b, x, y, player, i + 1);
      DirFlipsDistinct(b, x, y, player, Dirs[i]);
      var head := DirFlips(b, x, y, player, Dirs[i]);
      var tail := FlipsFrom(b, x, y, player, i + 1);
      forall p | p in head
        ensures p !in tail
      {
        HeadTailDisjoint(b, x, y, player, i, p);
      }
      DistinctConcat(head, tail);
    }
  }

  /** No cell is flipped twice and the target itself is never in the list. */
  lemma FlipsDistinct(b: Grid, x: int, y: int, player: int)
    ensures Distinct(Flips(b, x, y, player))
    ensures Pos(y, x) !in Flips(b, x, y, player)
  {
    if InBounds(x, y) && At(b, x, y) == Empty {
      FlipsFromDistinct(b, x, y, player, 0);
      if Pos(y, x) in FlipsFrom(b, x, y, player, 0) {
        FlipsFromOnRays(b, x, y, player, 0, Pos(y, x));
        var j, k :| 0 <= j < 8 && k >= 1 && Pos(y, x) == RayPos(x, y, Dirs[j], k);
        RayLeavesStart(x, y, j, k);
        assert false;
      }
    }
  }

  /** A ray never comes back to its starting cell. */
  lemma RayLeavesStart(x: int, y: int, j: nat, k: int)
    requires j < 8 && k >= 1
    ensures RayPos(x, y, Dirs[j], k) != Pos(y, x)
  {
  }

  // ---------------------------------------------------------------------------
  // Placing a disc
  // ---------------------------------------------------------------------------

  /** `board[pos[0]][pos[1]] = v` for every listed cell, in order. */
  function SetCells(b: Grid, ps: seq<Pos>, v: int): (r: Grid)
    requires forall p :: p in ps ==> PosInBounds(p)
    decreases |ps|
    ensures forall x, y :: InBounds(x, y) ==>
      At(r, x, y) == if Pos(y, x) in ps then v else At(b, x, y)
  {
    if |ps| == 0 then b
    else
      var p := ps[0];
      assert p in ps && PosInBounds(p);
      var r := SetCells(b[Index(p.col, p.row) := v], ps[1..], v);
      assert forall q :: q in ps <==> q == p || q in ps[1..];
      r
  }

  /** The board after `player` plays (x, y), or `None` when `placePieceAndFlip`
      returns false: off the board, occupied, or nothing to flip. On success the
      target and exactly the flip cells take `player`; every other cell keeps its
      value. */
  function Place(b: Grid, x: int, y: int, player: int): (r: Option<Grid>)
    ensures r.None? <==> !IsLegal(b, x, y, player)
    ensures r.Some? ==> forall cx, cy :: InBounds(cx, cy) ==>
      At(r.value, cx, cy) ==
        if (cx == x && cy == y) || Pos(cy, cx) in Flips(b, x, y, player) then player
        else At(b, cx, cy)
  {
    if !InBounds(x, y) || At(b, x, y) != Empty then None
    else
      var flips := Flips(b, x, y, player);
      FlipsCells(b, x, y, player);
      if |flips| == 0 then None
      else
        var b1 := b[Index(x, y) := player];
        assert forall cx, cy :: InBounds(cx, cy) ==>
          At(b1, cx, cy) == if cx == x && cy == y then player else At(b, cx, cy)
        by {
          forall cx, cy | InBounds(cx, cy)
            ensures At(b1, cx, cy) == if cx == x && cy == y then player else At(b, cx, cy)
          {
            IndexInjective(cx, cy, x, y);
          }
        }
        Some(SetCells(b1, flips, player))
  }

  /** Placing twice on the same cell fails the second time. */
  lemma PlaceTwiceFails(b: Grid, x: int, y: int, p: int, q: int)
    requires Place(b, x, y, p).Some?
    requires p != Empty
    ensures Place(Place(b, x, y, p).value, x, y, q).None?
  {
    assert At(Place(b, x, y, p).value, x, y) == p;
  }

  /** A legal placement by Black or White keeps every cell in {0,1,2}. */
  lemma PlaceWellFormed(b: Grid, x: int, y: int, player: int)
    requires WellFormed(b) && (player == Black || player == White)
    requires Place(b, x, y, player).Some?
    ensures WellFormed(Place(b, x, y, player).value)
  {
    var r := Place(b, x, y, player).value;
    forall i | 0 <= i < 64
      ensures 0 <= r[i] <= 2
    {
      var m := MoveAt(i);
      assert At(r, m.x, m.y) == r[i];
      assert At(b, m.x, m.y) == b[i];
    }
  }

  // ---------------------------------------------------------------------------
  // Counting discs
  // ---------------------------------------------------------------------------

  /** The number of cells of `s` equal to `v` (`getScore`). */
  function Count(s: seq<int>, v: int): (n: nat)
    ensures n <= |s|
  {
    if |s| == 0 then 0 else Count(s[..|s| - 1], v) + (if s[|s| - 1] == v then 1 else 0)
  }

  /** Overwriting one cell with `v` moves it from its old value's count to `v`'s. */
  lemma {:induction false} CountUpdate(s: seq<int>, i: nat, v: int, w: int)
    requires i < |s|
    ensures Count(s[i := v], w) ==
      Count(s, w) + (if v == w then 1 else 0) - (if s[i] == w then 1 else 0)
    decreases |s|
  {
    var t := s[i := v];
    if i < |s| - 1 {
      assert t[..|t| - 1] == s[..|s| - 1][i := v];
      CountUpdate(s[..|s| - 1], i, v, w);
    } else {
      assert t[..|t| - 1] == s[..|s| - 1];
    }
  }

  /** Overwriting distinct cells that all hold `w` with `v != w` adds their number
      to `v`'s count and removes it from `w`'s. */
  lemma {:induction false} SetCellsCount(b: Grid, ps: seq<Pos>, v: int, w: int)
    requires forall p :: p in ps ==> PosInBounds(p) && AtPos(b, p) == w
    requires Distinct(ps) && v != w
    ensures Count(SetCells(b, ps, v), v) == Count(b, v) + |ps|
    ensures Count(SetCells(b, ps, v), w) == Count(b, w) - |ps|
    decreases |ps|
  {
    if |ps| > 0 {
      var p := ps[0];
      assert p in ps;
      var b1 := b[Index(p.col, p.row) := v];
      CountUpdate(b, Index(p.col, p.row), v, v);
      CountUpdate(b, Index(p.col, p.row), v, w);
      forall q | q in ps[1..]
        ensures PosInBounds(q) && AtPos(b1, q) == w
      {
        assert q != p;
      }
      SetCellsCount(b1, ps[1..], v, w);
    }
  }

  /** Scores after a successful move: the mover gains the flips plus the placed
      disc, the opponent loses the flips. */
  lemma PlaceScore(b: Grid, x: int, y: int, player: int)
    requires player == Black || player == White
    requires Place(b, x, y, player).Some?
    ensures var n := |Flips(b, x, y, player)|;
      && Count(Place(b, x, y, player).value, player) == Count(b, player) + n + 1
      && Count(Place(b, x, y, player).value, Opponent(player)) == Count(b, Opponent(player)) - n
  {
    var flips := Flips(b, x, y, player);
    var b1 := b[Index(x, y) := player];
    FlipsDistinct(b, x, y, player);
    FlipsCells(b, x, y, player);
    CountUpdate(b, Index(x, y), player, player);
    CountUpdate(b, Index(x, y), player, Opponent(player));
    forall q | q in flips
      ensures PosInBounds(q) && AtPos(b1, q) == Opponent(player)
    {
      assert q != Pos(y, x);
    }
    SetCellsCount(b1, flips, player, Opponent(player));
  }

  /** On a board of {0,1,2} cells the three counts add up to the cell count. */
  lemma {:induction false} CountPartition(s: seq<int>)
    requires forall i :: 0 <= i < |s| ==> 0 <= s[i] <= 2
    ensures Count(s, Empty) + Count(s, Black) + Count(s, White) == |s|
  {
    if |s| > 0 {
      CountPartition(s[..|s| - 1]);
    }
  }

  // ---------------------------------------------------------------------------
  // Legal moves in row-major order
  // ---------------------------------------------------------------------------

  /** The row-major rank of a move: `y * 8 + x`. */
  function Rank(m: Move): int {
    m.y * 8 + m.x
  }

  /** The cell for row-major index `i`. */
  function MoveAt(i: nat): (m: Move)
    requires i < 64
    ensures InBounds(m.x, m.y) && Index(m.x, m.y) == i && Rank(m) == i
  {
    Move(i % 8, i / 8)
  }

  /** The inner loop over the first `n` columns of row `y`, keeping the cells
      that satisfy `keep`. */
  function RowScan(keep: Move -> bool, y: int, n: nat): seq<Move>
    requires n <= 8
  {
    if n == 0 then []
    else RowScan(keep, y, n - 1) + (if keep(Move(n - 1, y)) then [Move(n - 1, y)] else [])
  }

  /** The outer loop over the first `n` rows. */
  function GridScan(keep: Move -> bool, n: nat): seq<Move>
    requires n <= 8
  {
    if n == 0 then [] else GridScan(keep, n - 1) + RowScan(keep, n - 1, 8)
  }

  /** The `getValidMoves` cell test as a predicate on moves. */
  function Legality(b: Grid, player: int): Move -> bool {
    (m: Move) => IsLegal(b, m.x, m.y, player)
  }

  /** `getValidMoves` for `player`: every empty cell with a non-empty flip
      list, y outer and x inner. */
  function ValidMoves(b: Grid, player: int): seq<Move> {
    GridScan(Legality(b, player), 8)
  }

  /** Strictly increasing row-major order. */
  predicate RowMajor(s: seq<Move>) {
    forall i, j :: 0 <= i < j < |s| ==> Rank(s[i]) < Rank(s[j])
  }

  lemma RowMajorConcat(a: seq<Move>, c: seq<Move>)
    requires RowMajor(a) && RowMajor(c)
    requires forall u, v :: u in a && v in c ==> Rank(u) < Rank(v)
    ensures RowMajor(a + c)
  {
    forall i, j | 0 <= i < j < |a + c|
      ensures Rank((a + c)[i]) < Rank((a + c)[j])
    {
      if j < |a| {
        assert (a + c)[i] == a[i] && (a + c)[j] == a[j];
      } else if i >= |a| {
        assert (a + c)[i] == c[i - |a|] && (a + c)[j] == c[j - |a|];
      } else {
        assert (a + c)[i] in a && (a + c)[j] in c;
      }
    }
  }

  /** A row prefix holds exactly the kept cells of that row left of column `n`,
      left to right. */
  lemma {:induction false} RowScanSpec(keep: Move -> bool, y: int, n: nat)
    requires n <= 8
    ensures forall m :: m in RowScan(keep, y, n) <==> keep(m) && m.y == y && 0 <= m.x < n
    ensures RowMajor(RowScan(keep, y, n))
  {
    if n > 0 {
      RowScanSpec(keep, y, n - 1);
      var prefix := RowScan(keep, y, n - 1);
      var last := if keep(Move(n - 1, y)) then [Move(n - 1, y)] else [];
      RowMajorConcat(prefix, last);
    }
  }

  /** The first `n` rows hold exactly the kept board cells above row `n`, in
      row-major order. */
  lemma {:induction false} GridScanSpec(keep: Move -> bool, n: nat)
    requires n <= 8
    ensures forall m :: m in GridScan(keep, n) <==> keep(m) && InBounds(m.x, m.y) && m.y < n
    ensures RowMajor(GridScan(keep, n))
  {
    if n > 0 {
      GridScanSpec(keep, n - 1);
      RowScanSpec(keep, n - 1, 8);
      RowMajorConcat(GridScan(keep, n - 1), RowScan(keep, n - 1, 8));
    }
  }

  /** The legal-move list holds every legal move exactly once, in row-major
      order. */
  lemma ValidMovesSpec(b: Grid, player: int)
    ensures forall m :: m in ValidMoves(b, player) <==> IsLegal(b, m.x, m.y, player)
    ensures RowMajor(ValidMoves(b, player))
  {
    ValidMovesMembers(b, player);
    ValidMovesOrdered(b, player);
  }

  lemma ValidMovesMembers(b: Grid, player: int)
    ensures forall m :: m in ValidMoves(b, player) <==> IsLegal(b, m.x, m.y, player)
  {
    GridScanSpec(Legality(b, player), 8);
  }

  lemma ValidMovesOrdered(b: Grid, player: int)
    ensures RowMajor(ValidMoves(b, player))
  {
    GridScanSpec(Legality(b, player), 8);
  }

  /** The nested loops of `getValidMoves`. */
  method ComputeValidMoves(b: Grid, player: int) returns (moves: seq<Move>)
    ensures forall m :: m in moves <==> IsLegal(b, m.x, m.y, player)
    ensures RowMajor(moves)
    ensures moves == ValidMoves(b, player)
  {
    moves := [];
    var y := 0;
    while y < Size
      invariant 0 <= y <= Size
      invariant moves == GridScan(Legality(b, player), y)
    {
      var row := ScanRow(b, player, y);
      GridScanStep(Legality(b, player), y);
      moves := moves + row;
      y := y + 1;
    }
    ValidMovesSpec(b, player);
  }

  /** One more row of the grid scan. */
  lemma GridScanStep(keep: Move -> bool, y: nat)
    requires y < 8
    ensures GridScan(keep, y + 1) == GridScan(keep, y) + RowScan(keep, y, 8)
  {
  }

  /** The inner loop of `getValidMoves`: one row left to right, appending each
      empty cell whose flip list is non-empty. */
  method ScanRow(b: Grid, player: int, y: int) returns (moves: seq<Move>)
    requires 0 <= y < Size
    ensures moves == RowScan(Legality(b, player), y, 8)
  {
    ghost var keep := Legality(b, player);
    moves := [];
    var x := 0;
    while x < Size
      invariant 0 <= x <= Size
      invariant moves == RowScan(keep, y, x)
    {
      RowScanStep(b, player, x, y);
      var empty := At(b, x, y) == Empty;
      if empty && |Flips(b, x, y, player)| > 0 {
        moves := moves + [Move(x, y)];
      }
      x := x + 1;
    }
  }

  /** One more cell of a row scan for legal moves. */
  lemma RowScanStep(b: Grid, player: int, x: int, y: int)
    requires InBounds(x, y)
    ensures RowScan(Legality(b, player), y, x + 1) == RowScan(Legality(b, player), y, x) +
      (if At(b, x, y) == Empty && |Flips(b, x, y, player)| > 0 then [Move(x, y)] else [])
  {
  }

  /** Two row-major lists with the same members start with the same move, and
      their tails have the same members. */
  lemma RowMajorSameHead(a: seq<Move>, c: seq<Move>)
    requires RowMajor(a) && RowMajor(c) && |a| > 0
    requires forall m :: m in a <==> m in c
    ensures |c| > 0 && a[0] == c[0]
    ensures forall m :: m in a[1..] <==> m in c[1..]
  {
    assert a[0] in c && c[0] in a;
    var i :| 0 <= i < |c| && c[i] == a[0];
    var j :| 0 <= j < |a| && a[j] == c[0];
    assert Rank(c[0]) <= Rank(c[i]);
    assert Rank(a[0]) <= Rank(a[j]);
    assert a[0] == c[0];
    assert a == [a[0]] + a[1..] && c == [c[0]] + c[1..];
    forall m
      ensures m in a[1..] <==> m in c[1..]
    {
      if m in a[1..] {
        var k :| 1 <= k < |a| && a[k] == m;
        assert Rank(a[0]) < Rank(a[k]);
        assert m in c && m != c[0];
      }
      if m in c[1..] {
        var k :| 1 <= k < |c| && c[k] == m;
        assert Rank(c[0]) < Rank(c[k]);
        assert m in a && m != a[0];
      }
    }
  }

  /** Two row-major lists with the same members are the same list. */
  lemma {:induction false} RowMajorUnique(a: seq<Move>, c: seq<Move>)
    requires RowMajor(a) && RowMajor(c)
    requires forall m :: m in a <==> m in c
    ensures a == c
    decreases |a|
  {
    assert |c| > 0 ==> c[0] in a;
    if |a| > 0 {
      RowMajorSameHead(a, c);
      RowMajorUnique(a[1..], c[1..]);
      assert a == [a[0]] + a[1..] && c == [c[0]] + c[1..];
    }
  }

  // ---------------------------------------------------------------------------
  // Black's first moves
  // ---------------------------------------------------------------------------

  /** The moves Black has on the opening board, in row-major order. */
  const OpeningMoves: seq<Move> := [Move(3, 2), Move(2, 3), Move(5, 4), Move(4, 5)]

  /** The opening moves are listed in row-major order. */
  lemma OpeningMovesOrdered()
    ensures RowMajor(OpeningMoves)
  {
    forall i, j | 0 <= i < j < |OpeningMoves|
      ensures Rank(OpeningMoves[i]) < Rank(OpeningMoves[j])
    {
      OpeningRank(i);
      OpeningRank(j);
    }
  }

  lemma OpeningRank(k: int)
    requires 0 <= k < |OpeningMoves|
    ensures 19 + 7 * k <= Rank(OpeningMoves[k]) < 26 + 7 * k
  {
    if k == 0 {
    } else if k == 1 {
    } else if k == 2 {
    } else {
    }
  }

  /** The colours of the opening by cell: White exactly on the (row, col)
      cells (3,3) and (4,4), Black exactly on (3,4) and (4,3). */
  lemma OpeningColours(p: Pos)
    requires PosInBounds(p)
    ensures AtPos(Opening(), p) == White <==> p == Pos(3, 3) || p == Pos(4, 4)
    ensures AtPos(Opening(), p) == Black <==> p == Pos(3, 4) || p == Pos(4, 3)
  {
    OpeningCells();
  }

  /** On the opening every bracket for Black is one White disc long and
      starts on one of the four opening moves. */
  lemma OpeningBracket(x: int, y: int, d: Direction, n: int)
    requires Brackets(Opening(), x, y, Black, d, n)
    ensures n == 1 && Move(x, y) in OpeningMoves
  {
    var first := RayPos(x, y, d, 1);
    assert PosInBounds(first) && AtPos(Opening(), first) == White;
    OpeningColours(first);
    if n >= 2 {
      var second := RayPos(x, y, d, 2);
      assert PosInBounds(second) && AtPos(Opening(), second) == White;
      OpeningColours(second);
      var third := RayPos(x, y, d, 3);
      assert PosInBounds(third);
      OpeningColours(third);
      assert false;
    }
    var next := RayPos(x, y, d, 2);
    OpeningColours(next);
  }

  /** Black may open exactly on the four opening moves. */
  lemma OpeningLegal(x: int, y: int)
    ensures IsLegal(Opening(), x, y, Black) <==> Move(x, y) in OpeningMoves
  {
    if IsLegal(Opening(), x, y, Black) {
      OpeningLegalOnlyThere(x, y);
    }
    if Move(x, y) in OpeningMoves {
      OpeningMoveLegal(x, y);
    }
  }

  /** A legal opening move starts a bracket, and every opening bracket starts
      on one of the four. */
  lemma OpeningLegalOnlyThere(x: int, y: int)
    requires IsLegal(Opening(), x, y, Black)
    ensures Move(x, y) in OpeningMoves
  {
    var b := Opening();
    var p := Flips(b, x, y, Black)[0];
    FlipsBracketed(b, x, y, Black, p);
    var j, n, k :| 0 <= j < 8 && Brackets(b, x, y, Black, Dirs[j], n) &&
      1 <= k <= n && p == RayPos(x, y, Dirs[j], k);
    OpeningBracket(x, y, Dirs[j], n);
  }

  /** Each of the four brackets one White disc towards the centre. */
  lemma OpeningMoveLegal(x: int, y: int)
    requires Move(x, y) in OpeningMoves
    ensures IsLegal(Opening(), x, y, Black)
  {
    var b := Opening();
    var j := if y == 2 then 1 else if x == 2 then 3 else if x == 5 then 2 else 0;
    var p := RayPos(x, y, Dirs[j], 1);
    OpeningColours(p);
    OpeningColours(RayPos(x, y, Dirs[j], 2));
    OpeningColours(Pos(y, x));
    assert Brackets(b, x, y, Black, Dirs[j], 1);
    FlipsBracketed(b, x, y, Black, p);
  }

  /** The legal-move list is the only row-major list of the legal moves. */
  lemma ValidMovesUnique(b: Grid, player: int, moves: seq<Move>)
    requires forall m :: m in moves <==> IsLegal(b, m.x, m.y, player)
    requires RowMajor(moves)
    ensures ValidMoves(b, player) == moves
  {
    ValidMovesSpec(b, player);
    RowMajorUnique(ValidMoves(b, player), moves);
  }

  /** Playing a listed move always succeeds. */
  lemma ValidMoveApplies(b: Grid, m: Move, player: int)
    requires m in ValidMoves(b, player)
    ensures Place(b, m.x, m.y, player).Some?
  {
    ValidMovesSpec(b, player);
  }
}

=== FILE: client_session.dfy ===
// The game client of `network/NetworkClient.java`: constructor defaults, the
// `USER_ID` handshake, the `MOVE x y` encoder and the line decoder of its
// receive loop. The socket is abstracted: connecting takes the outcome as a
// parameter and the receive loop takes the lines read.

module ClientSession {
  import opened Wrappers
  import opened JavaText
  import Config
  import MinigameProtocol

  datatype Client = Client(userId: string, serverIp: string, serverPort: int, connected: bool)

  /** The four-argument constructor: a null IP falls back to the configured IP
      and a port that is not positive falls back to the configured port. */
  function NewClient(props: Config.Properties, userId: string, ip: Option<string>, port: int): (c: Client)
    ensures c.userId == userId && !c.connected
    ensures ip.Some? ==> c.serverIp == ip.value
    ensures ip.None? ==> c.serverIp == Config.GetServerIP(props)
    ensures port > 0 ==> c.serverPort == port
    ensures port <= 0 ==> c.serverPort == Config.GetServerPort(props)
  {
    Client(userId, if ip.Some? then ip.value else Config.GetServerIP(props),
           if port > 0 then port else Config.GetServerPort(props), false)
  }

  /** The two-argument constructor (`this(gameView, userId, null, getServerPort())`)
      always ends up on the configured IP and the configured port, whatever that
      port is. */
  lemma DefaultConstructorUsesConfig(props: Config.Properties, userId: string)
    ensures var c := NewClient(props, userId, None, Config.GetServerPort(props));
      c.serverIp == Config.GetServerIP(props) && c.serverPort == Config.GetServerPort(props)
  {
  }

  const HandshakePrefix: string := "USER_ID "

  /** `connect()`: on a successful socket the first line written is
      `USER_ID <userId>`; on failure nothing is written and nothing changes. */
  function Connect(c: Client, socketOk: bool): (r: (Client, seq<string>))
    ensures socketOk ==>
      && r.0 == c.(connected := true) && |r.1| == 1
      && StartsWith(r.1[0], HandshakePrefix) && r.1[0][|HandshakePrefix|..] == c.userId
    ensures !socketOk ==> r == (c, [])
  {
    if socketOk then
      var line := HandshakePrefix + c.userId;
      assert line[..|HandshakePrefix|] == HandshakePrefix;
      (c.(connected := true), [line])
    else (c, [])
  }

  /** The `MOVE x y` line. */
  function EncodeMove(x: int, y: int): (line: string)
    ensures StartsWith(line, "MOVE")
    ensures Split(line, ' ') == ["MOVE", IntToString(x), IntToString(y)]
  {
    var parts := ["MOVE", IntToString(x), IntToString(y)];
    var line := "MOVE " + IntToString(x) + " " + IntToString(y);
    JoinThree(parts);
    assert "MOVE " == "MOVE" + " " && line == Join(parts, ' ');
    assert forall k :: 0 <= k < 3 ==> ' ' !in parts[k];
    SplitJoin(parts, ' ');
    assert line[..4] == "MOVE";
    line
  }

  /** Joining three tokens with spaces spells out the line. */
  lemma JoinThree(parts: seq<string>)
    requires |parts| == 3
    ensures Join(parts, ' ') == parts[0] + " " + parts[1] + " " + parts[2]
  {
    assert Join(parts[2..], ' ') == parts[2];
    assert Join(parts[1..], ' ') == parts[1] + " " + Join(parts[2..], ' ');
  }

  /** `sendMove(x, y)`: one `MOVE x y` line once connected, nothing before. */
  function SendMove(c: Client, x: int, y: int): (sent: seq<string>)
    ensures !c.connected ==> sent == []
    ensures c.connected ==> |sent| == 1 && Split(sent[0], ' ') == ["MOVE", IntToString(x), IntToString(y)]
  {
    if c.connected then [EncodeMove(x, y)] else []
  }

  /** What one received line makes the client do. `Fails` is the uncaught
      `NumberFormatException` that ends the receive loop. */
  datatype Event =
    | StartGame(color: string, opponent: Option<string>)
    | OpponentMove(x: int, y: int)
    | Ignored
    | Fails

  /** The `MOVE` branch, shared with the older client: exactly three tokens,
      both coordinates parsed by `Integer.parseInt`. */
  function DecodeMove(line: string): (e: Event)
    ensures !e.StartGame?
    ensures e == Ignored <==> |Split(line, ' ')| != 3
    ensures e.OpponentMove? ==> IsInt32(e.x) && IsInt32(e.y)
  {
    var parts := Split(line, ' ');
    if |parts| != 3 then Ignored
    else match (ParseInt(parts[1]), ParseInt(parts[2]))
      case (Some(x), Some(y)) => OpponentMove(x, y)
      case _ => Fails
  }

  /** The `START_` branch: `split(" ", 2)`; the colour is the first token
      without its six-char prefix, and a non-empty remainder is the opponent
      id. */
  function DecodeStart(line: string): (e: Event)
    requires StartsWith(line, "START_")
    ensures e.StartGame?
    ensures ' ' !in e.color
    ensures e.opponent.Some? ==> e.opponent.value != ""
  {
    var parts := SplitFirst(line, ' ');
    assert line == "START_" + line[6..];
    SplitFirstKeepsPrefix("START_", line[6..], ' ');
    var color := parts[0][6..];
    assert forall i :: 0 <= i < |color| ==> color[i] == parts[0][i + 6];
    StartGame(color, if |parts| > 1 && parts[1] != "" then Some(parts[1]) else None)
  }

  /** One pass of the `run` loop body: `START_` lines, then `MOVE` lines;
      every other line, `MINIGAME_*` included, is ignored. */
  function DecodeLine(line: string): (e: Event)
    ensures e.StartGame? <==> StartsWith(line, "START_")
    ensures e.OpponentMove? || e.Fails? ==> StartsWith(line, "MOVE")
  {
    if StartsWith(line, "START_") then DecodeStart(line)
    else if StartsWith(line, "MOVE") then DecodeMove(line)
    else Ignored
  }

  /** Decoding a line written by `sendMove(x, y)` yields exactly (x, y). */
  lemma MoveRoundTrip(x: int, y: int)
    requires IsInt32(x) && IsInt32(y)
    ensures DecodeLine(EncodeMove(x, y)) == OpponentMove(x, y)
  {
    var line := EncodeMove(x, y);
    assert !StartsWith(line, "START_") by {
      assert line[..4] == "MOVE";
      assert line[0] == 'M';
    }
    assert DecodeLine(line) == DecodeMove(line);
    var parts := Split(line, ' ');
    assert parts == ["MOVE", IntToString(x), IntToString(y)];
    IntRoundTrip(x);
    IntRoundTrip(y);
  }

  /** A start line `START_<colour> <id>` gives the colour and, when it is not
      empty, the opponent id; the server's bare `START_<colour>` gives no id. */
  lemma StartRoundTrip(color: string, id: string)
    requires ' ' !in color
    ensures DecodeLine("START_" + color + " " + id) == StartGame(color, if id == "" then None else Some(id))
    ensures DecodeLine("START_" + color) == StartGame(color, None)
  {
    var line := "START_" + color + " " + id;
    assert line[..6] == "START_";
    assert ' ' !in "START_" + color;
    SplitFirstAt("START_" + color, id, ' ');
    var bare := "START_" + color;
    assert bare[..6] == "START_";
    assert bare[6..] == color;
  }

  /** A `MOVE` line with other than three tokens is ignored. */
  lemma MoveNeedsThreeTokens(line: string)
    requires StartsWith(line, "MOVE") && |Split(line, ' ')| != 3
    ensures DecodeLine(line) == Ignored
  {
    assert line[0] == 'M';
  }

  /** A `MOVE` line built from two space-free tokens is a `MOVE` line, not a
      `START_` line, and splits back into its three tokens. */
  lemma MoveLineSplits(t1: string, t2: string)
    requires ' ' !in t1 && ' ' !in t2 && t2 != ""
    ensures var line := "MOVE " + t1 + " " + t2;
      && StartsWith(line, "MOVE") && !StartsWith(line, "START_")
      && Split(line, ' ') == ["MOVE", t1, t2]
  {
    var parts := ["MOVE", t1, t2];
    var line := "MOVE " + t1 + " " + t2;
    JoinThree(parts);
    assert "MOVE " == "MOVE" + " " && line == Join(parts, ' ');
    assert forall k :: 0 <= k < 3 ==> ' ' !in parts[k];
    SplitJoin(parts, ' ');
    assert line[..4] == "MOVE";
    assert line[0] == 'M';
  }

  /** A three-token `MOVE` line whose x coordinate has a non-digit character
      ends the receive loop. */
  lemma NonNumericMoveFails(token: string, i: nat, y: int)
    requires ' ' !in token && i < |token| && !IsDigit(token[i])
    requires i > 0 || (token[0] != '-' && token[0] != '+')
    ensures DecodeLine("MOVE " + token + " " + IntToString(y)) == Fails
  {
    MoveLineSplits(token, IntToString(y));
    ParseIntRejectsNonNumeric(token, i);
  }

  /** Coordinates in digits of any script are read as `Integer.parseInt`
      reads them: a full-width or Arabic-Indic `MOVE` line is a move. */
  lemma ScriptDigitMove(a: char, b: char)
    requires IsDigit(a) && IsDigit(b)
    ensures DecodeLine("MOVE " + [a] + " " + [b]) == OpponentMove(DigitValue(a), DigitValue(b))
  {
    assert a != ' ' && b != ' ';
    MoveLineSplits([a], [b]);
    ParseOneDigit(a);
    ParseOneDigit(b);
  }

  /** Minigame lines, handshake lines and anything else outside `START_` and
      `MOVE` are ignored by this client. */
  lemma MinigameLinesIgnored(line: string)
    requires MinigameProtocol.IsMinigameMessage(line) || StartsWith(line, HandshakePrefix)
    ensures DecodeLine(line) == Ignored
  {
    assert line[0] == 'M' || line[0] == 'U';
    if line[0] == 'M' {
      assert line[1] == 'I';
    }
  }

  /** The `run` loop of both clients, over the line decoder of each: the
      events handed to the view, in order, and whether the loop ended on a
      malformed number (after which the socket is closed and no further line
      is read). Ignored lines deliver nothing. */
  function ReceiveWith(decode: string -> Event, lines: seq<string>): (r: (seq<Event>, bool))
    ensures forall k :: 0 <= k < |r.0| ==> r.0[k].StartGame? || r.0[k].OpponentMove?
    ensures |r.0| <= |lines|
  {
    if |lines| == 0 then ([], false)
    else
      var prev := ReceiveWith(decode, lines[..|lines| - 1]);
      if prev.1 then prev
      else match decode(lines[|lines| - 1])
        case Fails => (prev.0, true)
        case Ignored => prev
        case e => (prev.0 + [e], false)
  }

  /** This client's receive loop. */
  function Receive(lines: seq<string>): (seq<Event>, bool) {
    ReceiveWith(DecodeLine, lines)
  }

  /** Once a malformed number has ended the loop, later lines change nothing,
      whichever decoder the loop uses. */
  lemma {:induction false} ReceiveStopsAtFailure(decode: string -> Event, lines: seq<string>, more: seq<string>)
    requires ReceiveWith(decode, lines).1
    ensures ReceiveWith(decode, lines + more) == ReceiveWith(decode, lines)
    decreases |more|
  {
    if |more| > 0 {
      assert (lines + more)[..|lines + more| - 1] == lines + more[..|more| - 1];
      ReceiveStopsAtFailure(decode, lines, more[..|more| - 1]);
    } else {
      assert lines + more == lines;
    }
  }

  /** Every move line the peer wrote arrives as the same move, in order. */
  lemma {:induction false} ReceiveMoves(moves: seq<(int, int)>)
    requires forall k :: 0 <= k < |moves| ==> IsInt32(moves[k].0) && IsInt32(moves[k].1)
    ensures Receive(EncodeAll(moves)) == (MovesOf(moves), false)
  {
    if |moves| > 0 {
      var init := moves[..|moves| - 1];
      assert EncodeAll(moves)[..|moves| - 1] == EncodeAll(init);
      ReceiveMoves(init);
      MoveRoundTrip(moves[|moves| - 1].0, moves[|moves| - 1].1);
    }
  }

  function EncodeAll(moves: seq<(int, int)>): (lines: seq<string>)
    ensures |lines| == |moves|
  {
    if |moves| == 0 then [] else EncodeAll(moves[..|moves| - 1]) + [EncodeMove(moves[|moves| - 1].0, moves[|moves| - 1].1)]
  }

  function MovesOf(moves: seq<(int, int)>): seq<Event> {
    if |moves| == 0 then [] else MovesOf(moves[..|moves| - 1]) + [OpponentMove(moves[|moves| - 1].0, moves[|moves| - 1].1)]
  }
}

=== FILE: config.dfy ===
// The lookups of `service/ConfigService.java` over the loaded property map and
// the process environment, both passed in as values.

module Config {
  import opened Wrappers
  import opened JavaText

  /** The loaded `config.properties`; an absent file is the empty map. */
  type Properties = map<string, string>

  const IpKey: string := "server.ip"
  const PortKey: string := "server.port"
  const ApiKeyKey: string := "gemini.api.key"
  const DefaultIp: string := "127.0.0.1"
  const DefaultPort: int := 8080

  /** `getServerIP`: the `server.ip` property, or 127.0.0.1 when it is absent. */
  function GetServerIP(props: Properties): (ip: string)
    ensures IpKey in props ==> ip == props[IpKey]
    ensures IpKey !in props ==> ip == DefaultIp
  {
    if IpKey in props then props[IpKey] else DefaultIp
  }

  /** `setServerIP`: overwrites the `server.ip` property. */
  function SetServerIP(props: Properties, ip: string): (r: Properties)
    ensures IpKey in r
    ensures forall k :: k != IpKey ==> (k in r <==> k in props)
    ensures forall k :: k != IpKey && k in props ==> r[k] == props[k]
  {
    props[IpKey := ip]
  }

  /** After `setServerIP(ip)`, `getServerIP()` returns `ip`, and the port and
      API key lookups are unaffected. */
  lemma SetThenGetIp(props: Properties, ip: string)
    ensures GetServerIP(SetServerIP(props, ip)) == ip
    ensures GetServerPort(SetServerIP(props, ip)) == GetServerPort(props)
    ensures forall env :: GetGeminiApiKey(SetServerIP(props, ip), env) == GetGeminiApiKey(props, env)
  {
    var r := SetServerIP(props, ip);
    assert PortKey != IpKey && ApiKeyKey != IpKey;
    assert (PortKey in r) == (PortKey in props);
  }

  /** `getServerPort`: the `server.port` property read by `Integer.parseInt`,
      falling back to 8080 when it is absent or does not parse. */
  function GetServerPort(props: Properties): (port: int)
    ensures IsInt32(port)
    ensures PortKey !in props ==> port == DefaultPort
    ensures PortKey in props && ParseInt(props[PortKey]).None? ==> port == DefaultPort
    ensures PortKey in props && ParseInt(props[PortKey]).Some? ==> port == ParseInt(props[PortKey]).value
  {
    var text := if PortKey in props then props[PortKey] else "8080";
    DefaultPortText();
    match ParseInt(text)
    case Some(p) => p
    case None => DefaultPort
  }

  /** The built-in default text "8080" parses to 8080. */
  lemma DefaultPortText()
    ensures ParseInt("8080") == Some(DefaultPort)
  {
    assert "8080"[..3] == "808" && "808"[..2] == "80" && "80"[..1] == "8";
    assert DigitsValue("8") == 8;
    assert DigitsValue("80") == 80;
    assert DigitsValue("808") == 808;
    assert DigitsValue("8080") == 8080;
  }

  /** A port written in decimal is read back; an absent one is the default. */
  lemma PortRoundTrip(props: Properties, p: int)
    requires IsInt32(p)
    ensures GetServerPort(props[PortKey := IntToString(p)]) == p
    ensures GetServerPort(props - {PortKey}) == DefaultPort
  {
    IntRoundTrip(p);
  }

  /** `getGeminiApiKey`: a non-empty `GEMINI_API_KEY` environment value wins,
      then a non-empty `gemini.api.key` property; otherwise null (`None`). */
  function GetGeminiApiKey(props: Properties, env: Option<string>): (key: Option<string>)
    ensures key.Some? ==> key.value != ""
    ensures key.Some? ==> key == env || (ApiKeyKey in props && key.value == props[ApiKeyKey])
    ensures env.Some? && env.value != "" ==> key == env
    ensures key.None? <==> (env.None? || env.value == "") && (ApiKeyKey !in props || props[ApiKeyKey] == "")
  {
    if env.Some? && env.value != "" then env
    else
      var configKey := if ApiKeyKey in props then props[ApiKeyKey] else "";
      if configKey != "" then Some(configKey) else None
  }
}

=== FILE: connect_dialog.dfy ===
// The server-connection dialog of `ui/MenuView.java` (`startOnlineMatch`): the
// prefilled texts, when the Connect button is enabled, the trimmed result and
// the port checks before the match is started. The dialog widgets become the
// two field texts and the button pressed.

module ConnectDialog {
  import opened Wrappers
  import opened JavaText
  import Config

  const FallbackIp: string := "127.0.0.1"
  const MinPort: int := 1
  const MaxPort: int := 65535

  /** The prefilled IP: the configured one, or 127.0.0.1 when it is null or
      empty. */
  function DefaultIp(configured: Option<string>): (ip: string)
    ensures ip != ""
    ensures configured.Some? && configured.value != "" ==> ip == configured.value
    ensures configured.None? || configured.value == "" ==> ip == FallbackIp
  {
    if configured.None? || configured.value == "" then FallbackIp else configured.value
  }

  /** The prefilled texts from the configuration: its IP (defaulted as above)
      and `String.valueOf` of its port. */
  function Prefill(props: Config.Properties): (r: (string, string))
    ensures r.0 != "" && r.1 != ""
  {
    (DefaultIp(Some(Config.GetServerIP(props))), IntToString(Config.GetServerPort(props)))
  }

  /** The listeners' rule: Connect is disabled iff either trimmed field is
      empty. */
  predicate ConnectDisabled(ipText: string, portText: string) {
    Trim(ipText) == "" || Trim(portText) == ""
  }

  /** The two fields and the Connect button's disabled flag. */
  datatype Dialog = Dialog(ipText: string, portText: string, disabled: bool)

  /** The dialog as shown: prefilled, Connect enabled (the listeners run only
      after an edit). */
  function Open(props: Config.Properties): (d: Dialog)
    ensures (d.ipText, d.portText) == Prefill(props) && !d.disabled
  {
    var (ip, port) := Prefill(props);
    Dialog(ip, port, false)
  }

  /** An edit of the IP field; the listener recomputes the flag. */
  function EditIp(d: Dialog, text: string): (r: Dialog)
    ensures r.ipText == text && r.portText == d.portText
    ensures r.disabled <==> ConnectDisabled(text, d.portText)
  {
    Dialog(text, d.portText, ConnectDisabled(text, d.portText))
  }

  /** An edit of the port field; the listener recomputes the flag. */
  function EditPort(d: Dialog, text: string): (r: Dialog)
    ensures r.portText == text && r.ipText == d.ipText
    ensures r.disabled <==> ConnectDisabled(d.ipText, text)
  {
    Dialog(d.ipText, text, ConnectDisabled(d.ipText, text))
  }

  /** The prefilled port text is the decimal spelling of an `int`: never
      blank and unchanged by trimming. */
  lemma PrefilledPortNotBlank(props: Config.Properties)
    ensures Trim(Prefill(props).1) == Prefill(props).1 != ""
  {
    var port := Prefill(props).1;
    assert IsDigit(port[0]) || port[0] == '-';
    assert IsDigit(port[|port| - 1]);
    TrimNoop(port);
  }

  /** The result converter: the trimmed pair when an enabled Connect closes
      the dialog, nothing on Cancel. */
  function DialogResult(d: Dialog, connect: bool): (r: Option<(string, string)>)
    ensures r.Some? <==> connect && !d.disabled
    ensures r.Some? ==> r.value == (Trim(d.ipText), Trim(d.portText))
  {
    if connect && !d.disabled then Some((Trim(d.ipText), Trim(d.portText))) else None
  }

  /** After an edit, a dialog result always has both fields non-blank. */
  lemma EditedResultNotBlank(d: Dialog, connect: bool)
    requires d.disabled <==> ConnectDisabled(d.ipText, d.portText)
    ensures DialogResult(d, connect).Some? ==>
      DialogResult(d, connect).value.0 != "" && DialogResult(d, connect).value.1 != ""
  {
  }

  /** How `startOnlineMatch` ends. */
  datatype Outcome = Cancelled | NotANumber | OutOfRange | Start(ip: string, port: int)

  /** The port checks after the dialog: `Integer.parseInt`, then the range
      1..65535. */
  function CheckPort(ip: string, portString: string): (o: Outcome)
    ensures o.NotANumber? <==> ParseInt(portString).None?
    ensures o.Start? <==> ParseInt(portString).Some? && MinPort <= ParseInt(portString).value <= MaxPort
    ensures o.Start? ==> o == Start(ip, ParseInt(portString).value)
  {
    match ParseInt(portString)
    case None => NotANumber
    case Some(port) => if port < MinPort || port > MaxPort then OutOfRange else Start(ip, port)
  }

  /** A port typed in full-width digits, "８０", is read as 80 by
      `Integer.parseInt`, so the match starts on port 80. */
  lemma FullWidthPortStarts(ip: string, a: char, b: char)
    requires a as int == 0xFF18 && b as int == 0xFF10
    ensures CheckPort(ip, [a, b]) == Start(ip, 80)
  {
    ParseFullWidth(a, b);
  }

  /** `startOnlineMatch`: the dialog, then the port checks. */
  function StartOnlineMatch(d: Dialog, connect: bool): (o: Outcome)
    ensures o == Cancelled <==> DialogResult(d, connect).None?
  {
    match DialogResult(d, connect)
    case None => Cancelled
    case Some((ip, port)) => CheckPort(ip, port)
  }

  /** The match is started exactly when an enabled Connect is pressed and the
      trimmed port parses into 1..65535; it gets the trimmed IP and that
      port. */
  lemma StartOnlyWithValidPort(d: Dialog, connect: bool)
    ensures var o := StartOnlineMatch(d, connect);
      o.Start? <==> connect && !d.disabled
                    && ParseInt(Trim(d.portText)).Some? && MinPort <= ParseInt(Trim(d.portText)).value <= MaxPort
    ensures var o := StartOnlineMatch(d, connect);
      o.Start? ==> o.ip == Trim(d.ipText) && Some(o.port) == ParseInt(Trim(d.portText))
  {
  }

  /** Accepting the prefilled dialog starts the match on the configured port
      whenever that port lies in range. */
  lemma PrefillConnects(props: Config.Properties)
    requires MinPort <= Config.GetServerPort(props) <= MaxPort
    ensures StartOnlineMatch(Open(props), true) == Start(Trim(Prefill(props).0), Config.GetServerPort(props))
  {
    PrefilledPortNotBlank(props);
    IntRoundTrip(Config.GetServerPort(props));
  }
}

=== FILE: database.dfy ===
// The two pieces of `service/DatabaseService.java` that do not touch JDBC: the
// hand-rolled settings JSON (written by `saveUserSettings`, read by
// `parseSettingsJson`) and the lowercase hex spelling of a password digest in
// `hashPassword`. The SQL statements and the SHA-256 digest are not modelled;
// the digest enters as its bytes.

module Database {
  import opened Wrappers
  import opened JavaText

  // ---------------------------------------------------------------------------
  // Settings text
  // ---------------------------------------------------------------------------

  /** One map entry, in the order the map's `entrySet()` yields it. */
  datatype Entry = Entry(key: string, value: string)

  function Quoted(s: string): string {
    "\"" + s + "\""
  }

  /** `"key":"value"` */
  function EntryText(e: Entry): string {
    Quoted(e.key) + ":" + Quoted(e.value)
  }

  function EntryTexts(es: seq<Entry>): (ts: seq<string>)
    ensures |ts| == |es|
    ensures forall i :: 0 <= i < |es| ==> ts[i] == EntryText(es[i])
  {
    if |es| == 0 then [] else [EntryText(es[0])] + EntryTexts(es[1..])
  }

  /** The settings object: the entry texts between braces, separated by
      commas. */
  function SettingsJson(es: seq<Entry>): (json: string)
    ensures |json| >= 2 && json[0] == '{' && json[|json| - 1] == '}'
  {
    "{" + Join(EntryTexts(es), ',') + "}"
  }

  /** The loop of `saveUserSettings`: a comma before every entry but the
      first. */
  method BuildSettingsJson(es: seq<Entry>) returns (json: string)
    ensures json == SettingsJson(es)
  {
    json := "{";
    var first := true;
    var i := 0;
    while i < |es|
      invariant 0 <= i <= |es|
      invariant first <==> i == 0
      invariant json == "{" + Join(EntryTexts(es[..i]), ',')
    {
      AppendEntry(es, i, json);
      if !first {
        json := json + ",";
      }
      json := json + EntryText(es[i]);
      first := false;
      i := i + 1;
    }
    assert es[..|es|] == es;
    json := json + "}";
  }

  /** One turn of the builder's loop. */
  lemma AppendEntry(es: seq<Entry>, i: nat, json: string)
    requires i < |es| && json == "{" + Join(EntryTexts(es[..i]), ',')
    ensures i == 0 ==> json + EntryText(es[i]) == "{" + Join(EntryTexts(es[..i + 1]), ',')
    ensures i > 0 ==> json + "," + EntryText(es[i]) == "{" + Join(EntryTexts(es[..i + 1]), ',')
  {
    var prev := EntryTexts(es[..i]);
    var t := EntryText(es[i]);
    JoinSnoc(prev, t, ',');
    assert es[..i + 1] == es[..i] + [es[i]];
    EntryTextsSnoc(es[..i], es[i]);
    if i > 0 {
      assert json + "," + t == "{" + (Join(prev, ',') + [','] + t);
    }
  }

  lemma EntryTextsSnoc(es: seq<Entry>, e: Entry)
    ensures EntryTexts(es + [e]) == EntryTexts(es) + [EntryText(e)]
  {
  }

  /** Joining one more piece appends a separator and the piece, unless there
      was nothing before. */
  lemma {:induction false} JoinSnoc(parts: seq<string>, t: string, c: char)
    ensures Join(parts + [t], c) == if parts == [] then t else Join(parts, c) + [c] + t
    decreases |parts|
  {
    if |parts| >= 2 {
      assert (parts + [t])[1..] == parts[1..] + [t];
      JoinSnoc(parts[1..], t, c);
    } else if |parts| == 1 {
      assert (parts + [t])[1..] == [t];
    }
  }

  /** A fragment's piece cleaned: trimmed, then every `"` removed. */
  function Unquote(s: string): (r: string)
    ensures '"' !in r
  {
    RemoveChar(Trim(s), '"')
  }

  /** What one comma-separated fragment contributes: an entry when it splits
      into exactly two parts on `:`. */
  function Fragment(p: string): (r: Option<Entry>)
    ensures r.Some? <==> |Split(p, ':')| == 2
  {
    var kv := Split(p, ':');
    if |kv| == 2 then Some(Entry(Unquote(kv[0]), Unquote(kv[1]))) else None
  }

  /** Fragment `p` yields an entry under key `k`. */
  predicate Keyed(p: string, k: string) {
    var f := Fragment(p);
    f.Some? && f.value.key == k
  }

  /** The loop of `parseSettingsJson`: each fragment in turn, a later key
      overwriting an earlier one. */
  function Collect(fragments: seq<string>, acc: map<string, string>): (r: map<string, string>)
    ensures forall k :: k in acc ==> k in r
    ensures forall k :: k in r ==> k in acc || exists i :: 0 <= i < |fragments| && Keyed(fragments[i], k)
    decreases |fragments|
  {
    if |fragments| == 0 then acc
    else
      var f := Fragment(fragments[0]);
      Collect(fragments[1..], if f.Some? then acc[f.value.key := f.value.value] else acc)
  }

  /** `parseSettingsJson`: `null` or `""` is the empty map; otherwise the
      trimmed text loses its braces, is cut at commas, and each fragment with
      exactly one `key:value` split is stored with quotes removed. */
  function ParseSettingsJson(json: Option<string>): (r: map<string, string>)
    ensures json.None? || json.value == "" ==> r == map[]
    ensures forall k :: k in r ==> '"' !in k && '"' !in r[k]
  {
    if json.None? || json.value == "" then map[]
    else
      var body := RemoveChar(RemoveChar(Trim(json.value), '{'), '}');
      var r := Collect(Split(body, ','), map[]);
      CollectUnquoted(Split(body, ','), map[]);
      r
  }

  lemma {:induction false} CollectUnquoted(fragments: seq<string>, acc: map<string, string>)
    requires forall k :: k in acc ==> '"' !in k && '"' !in acc[k]
    ensures var r := Collect(fragments, acc);
      forall k :: k in r ==> '"' !in k && '"' !in r[k]
    decreases |fragments|
  {
    if |fragments| > 0 {
      var f := Fragment(fragments[0]);
      CollectUnquoted(fragments[1..], if f.Some? then acc[f.value.key := f.value.value] else acc);
    }
  }

  /** Entries stored one after another into a map, later ones overwriting. */
  function Put(acc: map<string, string>, es: seq<Entry>): map<string, string>
    decreases |es|
  {
    if |es| == 0 then acc else Put(acc[es[0].key := es[0].value], es[1..])
  }

  /** After storing `es`, a key holds the value of its last entry in `es`, and
      keys `es` does not mention keep their earlier state. */
  lemma {:induction false} PutLookup(acc: map<string, string>, es: seq<Entry>, k: string)
    ensures k in Put(acc, es) <==> k in acc || exists i :: 0 <= i < |es| && es[i].key == k
    ensures forall i :: 0 <= i < |es| && es[i].key == k && (forall j :: i < j < |es| ==> es[j].key != k) ==>
      Put(acc, es)[k] == es[i].value
    ensures (forall i :: 0 <= i < |es| ==> es[i].key != k) && k in acc ==> Put(acc, es)[k] == acc[k]
    decreases |es|
  {
    if |es| > 0 {
      var rest := es[1..];
      PutLookup(acc[es[0].key := es[0].value], rest, k);
      assert forall i :: 1 <= i < |es| ==> es[i] == rest[i - 1];
      if exists i :: 0 <= i < |es| && es[i].key == k {
        var i :| 0 <= i < |es| && es[i].key == k;
        if i > 0 {
          assert rest[i - 1].key == k;
        }
      }
      forall i | 0 <= i < |es| && es[i].key == k && (forall j :: i < j < |es| ==> es[j].key != k)
        ensures Put(acc, es)[k] == es[i].value
      {
        if i > 0 {
          assert rest[i - 1] == es[i];
          assert forall j :: i - 1 < j < |rest| ==> rest[j] == es[j + 1];
        } else {
          assert forall j :: 0 <= j < |rest| ==> rest[j] == es[j + 1];
        }
      }
    }
  }

  /** No key, value or fragment character that the reader treats as
      structure. */
  predicate Plain(s: string) {
    ',' !in s && ':' !in s && '"' !in s && '{' !in s && '}' !in s
  }

  predicate PlainEntries(es: seq<Entry>) {
    forall i :: 0 <= i < |es| ==> Plain(es[i].key) && Plain(es[i].value)
  }

  /** Reading back a settings text stores its entries in order, so a map of
      plain keys and values comes back as it was written. */
  lemma SettingsRoundTrip(es: seq<Entry>)
    requires PlainEntries(es)
    ensures ParseSettingsJson(Some(SettingsJson(es))) == Put(map[], es)
  {
    var ts := EntryTexts(es);
    var json := SettingsJson(es);
    var body := Join(ts, ',');
    forall i | 0 <= i < |ts|
      ensures ',' !in ts[i] && '{' !in ts[i] && '}' !in ts[i] && |ts[i]| >= 5
    {
      EntryTextChars(es[i]);
    }
    JoinAvoids(ts, ',', '{');
    JoinAvoids(ts, ',', '}');
    StripBraces(body);
    if |es| == 0 {
      assert body == "";
      assert Split("", ',') == [""];
      assert Split("", ':') == [""];
      assert Collect([""], map[]) == map[];
    } else {
      SplitJoin(ts, ',');
      CollectEntries(es, map[]);
    }
  }

  /** The reader's first step recovers what was written between the braces. */
  lemma StripBraces(body: string)
    requires '{' !in body && '}' !in body
    ensures RemoveChar(RemoveChar(Trim("{" + body + "}"), '{'), '}') == body
  {
    var json := "{" + body + "}";
    TrimNoop(json);
    RemoveCharAppend("{" + body, "}", '{');
    RemoveCharAppend("{", body, '{');
    assert RemoveChar(json, '{') == body + "}";
    RemoveCharAppend(body, "}", '}');
  }

  /** The characters an entry text is built from. */
  lemma EntryTextChars(e: Entry)
    requires Plain(e.key) && Plain(e.value)
    ensures var t := EntryText(e);
      ',' !in t && '{' !in t && '}' !in t && |t| >= 5
  {
  }

  /** Each entry text reads back as its entry. */
  lemma FragmentOfEntry(e: Entry)
    requires Plain(e.key) && Plain(e.value)
    ensures Fragment(EntryText(e)) == Some(e)
  {
    var a := Quoted(e.key);
    var b := Quoted(e.value);
    JoinPair(a, b, ':');
    assert a + [':'] + b == EntryText(e);
    SplitJoin([a, b], ':');
    UnquoteQuoted(e.key);
    UnquoteQuoted(e.value);
  }

  lemma JoinPair(a: string, b: string, c: char)
    ensures Join([a, b], c) == a + [c] + b
  {
    assert [a, b][1..] == [b];
  }

  lemma UnquoteQuoted(s: string)
    requires '"' !in s
    ensures Unquote(Quoted(s)) == s
  {
    TrimNoop(Quoted(s));
    RemoveCharAppend("\"" + s, "\"", '"');
    RemoveCharAppend("\"", s, '"');
  }

  lemma {:induction false} CollectEntries(es: seq<Entry>, acc: map<string, string>)
    requires PlainEntries(es)
    ensures Collect(EntryTexts(es), acc) == Put(acc, es)
    decreases |es|
  {
    if |es| > 0 {
      FragmentOfEntry(es[0]);
      assert EntryTexts(es)[1..] == EntryTexts(es[1..]);
      CollectEntries(es[1..], acc[es[0].key := es[0].value]);
    }
  }

  /** `replace` distributes over concatenation. */
  lemma {:induction false} RemoveCharAppend(a: string, b: string, c: char)
    ensures RemoveChar(a + b, c) == RemoveChar(a, c) + RemoveChar(b, c)
    decreases |a|
  {
    if |a| > 0 {
      var ab := a + b;
      assert ab[0] == a[0] && ab[1..] == a[1..] + b;
      RemoveCharAppend(a[1..], b, c);
      var h := if a[0] == c then "" else [a[0]];
      assert RemoveChar(ab, c) == h + RemoveChar(ab[1..], c);
      assert RemoveChar(a, c) == h + RemoveChar(a[1..], c);
    } else {
      assert a + b == b;
    }
  }

  /** With distinct keys every written entry reads back under its key, and
      nothing else does. */
  lemma SettingsRoundTripDistinct(es: seq<Entry>)
    requires PlainEntries(es)
    requires forall i, j :: 0 <= i < j < |es| ==> es[i].key != es[j].key
    ensures var r := ParseSettingsJson(Some(SettingsJson(es)));
      && (forall i :: 0 <= i < |es| ==> es[i].key in r && r[es[i].key] == es[i].value)
      && (forall k :: k in r ==> exists i :: 0 <= i < |es| && es[i].key == k)
  {
    SettingsRoundTrip(es);
    forall i | 0 <= i < |es|
      ensures es[i].key in Put(map[], es) && Put(map[], es)[es[i].key] == es[i].value
    {
      PutLookup(map[], es, es[i].key);
    }
    forall k | k in Put(map[], es)
      ensures exists i :: 0 <= i < |es| && es[i].key == k
    {
      PutLookup(map[], es, k);
    }
  }

  /** A fragment without exactly one `:` split is dropped. */
  lemma MalformedFragmentDropped(p: string, rest: seq<string>, acc: map<string, string>)
    requires |Split(p, ':')| != 2
    ensures Collect([p] + rest, acc) == Collect(rest, acc)
  {
    assert ([p] + rest)[1..] == rest;
  }

  // ---------------------------------------------------------------------------
  // Digest to hex
  // ---------------------------------------------------------------------------

  /** A Java `byte`. */
  newtype JByte = x: int | -128 <= x < 128

  predicate IsLowerHex(c: char) {
    '0' <= c <= '9' || 'a' <= c <= 'f'
  }

  function HexDigit(d: nat): (c: char)
    requires d < 16
    ensures IsLowerHex(c) && HexDigitValue(c) == d
  {
    if d < 10 then (48 + d) as char else (87 + d) as char
  }

  function HexDigitValue(c: char): (d: nat)
    requires IsLowerHex(c)
    ensures d < 16
  {
    if c <= '9' then c as int - 48 else c as int - 87
  }

  /** `Integer.toHexString(n)` for a non-negative `n`: lowercase, no leading
      zeros. */
  function ToHexString(n: nat): (r: string)
    ensures |r| >= 1
  {
    if n < 16 then [HexDigit(n)] else ToHexString(n / 16) + [HexDigit(n % 16)]
  }

  /** `0xff & b`: the byte read as unsigned. */
  function Unsigned(b: JByte): (u: nat)
    ensures u < 256 && u == (b as int) % 256
  {
    if b < 0 then b as int + 256 else b as int
  }

  /** The two hex digits of one digest byte: `0xff & b` in hex, with a `0` in
      front when that is a single digit. */
  function ByteHex(b: JByte): (r: string)
    ensures |r| == 2
  {
    var u := Unsigned(b);
    var h := ToHexString(u);
    HexOfByteValue(u);
    if |h| == 1 then "0" + h else h
  }

  /** The two digits are lowercase hex and spell the unsigned value `0xff & b`. */
  lemma ByteHexValue(b: JByte)
    ensures var r := ByteHex(b);
      IsLowerHex(r[0]) && IsLowerHex(r[1])
      && HexDigitValue(r[0]) * 16 + HexDigitValue(r[1]) == Unsigned(b)
  {
    var u := Unsigned(b);
    HexOfByteValue(u);
    if u >= 16 {
      assert u == (u / 16) * 16 + u % 16;
    }
  }

  /** A value below 256 has one hex digit below 16 and two from there on. */
  lemma HexOfByteValue(u: nat)
    requires u < 256
    ensures ToHexString(u) == if u < 16 then [HexDigit(u)] else [HexDigit(u / 16), HexDigit(u % 16)]
  {
    if u >= 16 {
      assert ToHexString(u / 16) == [HexDigit(u / 16)];
    }
  }

  function HexOf(digest: seq<JByte>): string {
    if |digest| == 0 then "" else ByteHex(digest[0]) + HexOf(digest[1..])
  }

  /** Two hex digits per byte. */
  lemma {:induction false} HexOfLength(digest: seq<JByte>)
    ensures |HexOf(digest)| == 2 * |digest|
  {
    if |digest| > 0 {
      HexOfLength(digest[1..]);
    }
  }

  /** The pair at `2i` is the spelling of byte `i`. */
  lemma {:induction false} HexOfPairs(digest: seq<JByte>)
    ensures |HexOf(digest)| == 2 * |digest|
    ensures forall i :: 0 <= i < |digest| ==> HexOf(digest)[2 * i..2 * i + 2] == ByteHex(digest[i])
  {
    HexOfLength(digest);
    if |digest| > 0 {
      HexOfPairs(digest[1..]);
      var h := HexOf(digest);
      var t := HexOf(digest[1..]);
      assert h == ByteHex(digest[0]) + t;
      forall i | 1 <= i < |digest|
        ensures h[2 * i..2 * i + 2] == ByteHex(digest[i])
      {
        var j := i - 1;
        SliceAfter(ByteHex(digest[0]), t, 2 * i, 2 * i + 2, 2 * j, 2 * j + 2);
        assert digest[1..][j] == digest[i];
      }
      assert h[0..2] == ByteHex(digest[0]);
    }
  }

  /** A slice that lies past a prefix is a slice of what follows it. */
  lemma SliceAfter(a: string, t: string, lo: nat, hi: nat, lo': nat, hi': nat)
    requires lo == lo' + |a| && hi == hi' + |a| && lo' <= hi' <= |t|
    ensures (a + t)[lo..hi] == t[lo'..hi']
  {
  }

  /** Every char of the hex text is a lowercase hex digit. */
  lemma HexOfLowercase(digest: seq<JByte>)
    ensures forall j :: 0 <= j < |HexOf(digest)| ==> IsLowerHex(HexOf(digest)[j])
  {
    HexOfPairs(digest);
    var h := HexOf(digest);
    forall j | 0 <= j < |h|
      ensures IsLowerHex(h[j])
    {
      var i := j / 2;
      assert j == 2 * i || j == 2 * i + 1;
      HexDecodes(digest, i);
    }
  }

  /** Reading the hex text back gives every byte's unsigned value. */
  lemma HexDecodes(digest: seq<JByte>, i: nat)
    requires i < |digest|
    ensures var h := HexOf(digest);
      2 * i + 1 < |h| && IsLowerHex(h[2 * i]) && IsLowerHex(h[2 * i + 1])
      && HexDigitValue(h[2 * i]) * 16 + HexDigitValue(h[2 * i + 1]) == Unsigned(digest[i])
  {
    HexOfPairs(digest);
    ByteHexValue(digest[i]);
    var h := HexOf(digest);
    assert h[2 * i..2 * i + 2][0] == h[2 * i];
    assert h[2 * i..2 * i + 2][1] == h[2 * i + 1];
  }

  lemma HexOfStep(digest: seq<JByte>, i: nat)
    requires i < |digest|
    ensures HexOf(digest[i..]) == ByteHex(digest[i]) + HexOf(digest[i + 1..])
  {
    assert digest[i..][1..] == digest[i + 1..];
  }

  /** One turn of the loop keeps the text built so far a prefix of the
      whole spelling. */
  lemma AppendByteHex(digest: seq<JByte>, i: nat, before: string, h: string)
    requires i < |digest| && h == ToHexString(Unsigned(digest[i]))
    requires before + HexOf(digest[i..]) == HexOf(digest)
    ensures |h| == 1 ==> before + "0" + h + HexOf(digest[i + 1..]) == HexOf(digest)
    ensures |h| != 1 ==> before + h + HexOf(digest[i + 1..]) == HexOf(digest)
  {
    HexOfStep(digest, i);
    ByteHexPadded(digest[i]);
    Regroup(before, h, ByteHex(digest[i]), HexOf(digest[i + 1..]), HexOf(digest[i..]), HexOf(digest));
  }

  /** `ByteHex` is the Java spelling: `toHexString`, padded to two digits. */
  lemma ByteHexPadded(b: JByte)
    ensures var h := ToHexString(Unsigned(b));
      ByteHex(b) == if |h| == 1 then "0" + h else h
  {
  }

  lemma Regroup(before: string, h: string, bh: string, tail: string, rest: string, whole: string)
    requires before + rest == whole && rest == bh + tail
    requires bh == if |h| == 1 then "0" + h else h
    ensures |h| == 1 ==> before + "0" + h + tail == whole
    ensures |h| != 1 ==> before + h + tail == whole
  {
    if |h| == 1 {
      assert before + "0" + h + tail == before + ("0" + h + tail);
    }
  }

  /** The loop of `hashPassword` after the digest: two hex digits appended per
      byte. */
  method HashHex(digest: seq<JByte>) returns (hex: string)
    ensures hex == HexOf(digest)
    ensures |hex| == 2 * |digest|
  {
    hex := "";
    var i := 0;
    assert digest[0..] == digest;
    while i < |digest|
      invariant 0 <= i <= |digest|
      invariant hex + HexOf(digest[i..]) == HexOf(digest)
    {
      var h := ToHexString(Unsigned(digest[i]));
      ghost var before := hex;
      if |h| == 1 {
        hex := hex + "0";
      }
      hex := hex + h;
      AppendByteHex(digest, i, before, h);
      i := i + 1;
    }
    assert digest[i..] == [];
    HexOfLength(digest);
  }
}

=== FILE: engine.dfy ===
// The game state of `model/GameModel.java`: board, turn, game-over flag, mode,
// AI colour and difficulty, with the operations the views call on it and the
// decision logic of `saveGameResult`.

module Engine {
  import opened Wrappers
  import opened Board

  datatype Mode = Local | Online | AI
  datatype Difficulty = Easy | Medium | Hard

  datatype Model = Model(
    board: Grid,
    turn: int,
    gameOver: bool,
    mode: Mode,
    aiColor: int,
    difficulty: Difficulty)

  /** `initializeBoard`: the opening position, Black to move, not over. In AI
      mode the AI colour comes from a coin (`random.nextBoolean()`), otherwise it
      is 0. Mode and difficulty are kept. */
  function InitializeBoard(m: Model, coin: bool): (r: Model)
    ensures r.mode == m.mode && r.difficulty == m.difficulty
    ensures r.turn == Black && !r.gameOver
    ensures r.board == Opening()
    ensures m.mode == AI ==> r.aiColor == Black || r.aiColor == White
    ensures m.mode != AI ==> r.aiColor == Empty
  {
    Model(Opening(), Black, false, m.mode,
          if m.mode == AI then (if coin then Black else White) else Empty,
          m.difficulty)
  }

  /** The constructor: local mode, medium difficulty, then `initializeBoard`. */
  function NewModel(): (r: Model)
    ensures r.mode == Local && r.difficulty == Medium
    ensures r.aiColor == Empty && r.turn == Black && !r.gameOver
  {
    InitializeBoard(Model(Opening(), Black, false, Local, Empty, Medium), false)
  }

  /** A fresh game starts with two discs each, on a well-formed board, and the
      side to move has a legal move. */
  lemma InitialPosition(m: Model, coin: bool)
    ensures var r := InitializeBoard(m, coin);
      && WellFormed(r.board)
      && Count(r.board, Black) == 2 && Count(r.board, White) == 2
      && At(r.board, 3, 2) == Empty && IsLegal(r.board, 3, 2, r.turn)
  {
    OpeningCells();
    var b := Opening();
    OpeningCounts();
    FlipsBracketed(b, 3, 2, Black, Pos(3, 3));
    assert Brackets(b, 3, 2, Black, Dirs[1], 1);
  }

  /** After `initializeBoard` Black may play exactly (3,2), (2,3), (5,4) and
      (4,5), and `getValidMoves` lists them in that order. */
  lemma OpeningValidMoves(m: Model, coin: bool)
    ensures GetValidMoves(InitializeBoard(m, coin)) == OpeningMoves
  {
    forall mv
      ensures mv in OpeningMoves <==> IsLegal(Opening(), mv.x, mv.y, Black)
    {
      OpeningLegal(mv.x, mv.y);
    }
    OpeningMovesOrdered();
    ValidMovesUnique(Opening(), Black, OpeningMoves);
  }

  lemma OpeningCounts()
    ensures Count(Opening(), Black) == 2 && Count(Opening(), White) == 2
  {
    var b := Opening();
    assert b[..64] == b;
    CountRows(b, Black);
    CountRows(b, White);
  }

  /** Counting the opening row by row. */
  lemma CountRows(b: Grid, v: int)
    requires b == Opening()
    requires v == Black || v == White
    ensures Count(b, v) == 2
  {
    var r3 := [0, 0, 0, 2, 1, 0, 0, 0];
    var r4 := [0, 0, 0, 1, 2, 0, 0, 0];
    var top := EmptyRow + EmptyRow + EmptyRow;
    CountAppend(top, r3, v);
    CountAppend(top + r3, r4, v);
    CountAppend(top + r3 + r4, EmptyRow + EmptyRow + EmptyRow, v);
    CountNone(top, v);
    CountNone(EmptyRow + EmptyRow + EmptyRow, v);
    CountCentre(v);
    assert b == top + r3 + r4 + (EmptyRow + EmptyRow + EmptyRow);
  }

  /** The two middle rows of the opening hold one disc of each colour. */
  lemma CountCentre(v: int)
    requires v == Black || v == White
    ensures Count([0, 0, 0, 2, 1, 0, 0, 0], v) == 1
    ensures Count([0, 0, 0, 1, 2, 0, 0, 0], v) == 1
  {
    var z := [0, 0, 0];
    CountNone(z, v);
    CountAppend(z + [2, 1], z, v);
    CountAppend(z, [2, 1], v);
    CountAppend(z + [1, 2], z, v);
    CountAppend(z, [1, 2], v);
    assert [0, 0, 0, 2, 1, 0, 0, 0] == z + [2, 1] + z;
    assert [0, 0, 0, 1, 2, 0, 0, 0] == z + [1, 2] + z;
    assert [2, 1][..1] == [2] && [1, 2][..1] == [1];
  }

  /** Counting distributes over concatenation. */
  lemma {:induction false} CountAppend(s: seq<int>, t: seq<int>, v: int)
    ensures Count(s + t, v) == Count(s, v) + Count(t, v)
    decreases |t|
  {
    if |t| > 0 {
      assert (s + t)[..|s + t| - 1] == s + t[..|t| - 1];
      CountAppend(s, t[..|t| - 1], v);
    } else {
      assert s + t == s;
    }
  }

  /** A sequence of empties has no discs of colour `v`. */
  lemma {:induction false} CountNone(s: seq<int>, v: int)
    requires forall i :: 0 <= i < |s| ==> s[i] == Empty
    requires v != Empty
    ensures Count(s, v) == 0
  {
    if |s| > 0 {
      CountNone(s[..|s| - 1], v);
    }
  }

  /** `placePieceAndFlip(x, y)` for the side to move: the flag it returns and the
      state afterwards. Only the board can change, and only on success. */
  function PlacePieceAndFlip(m: Model, x: int, y: int): (r: (bool, Model))
    ensures r.0 <==> IsLegal(m.board, x, y, m.turn)
    ensures !r.0 ==> r.1 == m
    ensures r.0 ==> r.1 == m.(board := Place(m.board, x, y, m.turn).value)
  {
    match Place(m.board, x, y, m.turn)
    case None => (false, m)
    case Some(b) => (true, m.(board := b))
  }

  /** A successful move by Black or White keeps the board well-formed, gives
      the mover the placed disc plus every flip, and takes the flips from the
      opponent. */
  lemma PlacePieceAndFlipScores(m: Model, x: int, y: int)
    requires WellFormed(m.board) && (m.turn == Black || m.turn == White)
    requires PlacePieceAndFlip(m, x, y).0
    ensures var after := PlacePieceAndFlip(m, x, y).1;
      var n := |Flips(m.board, x, y, m.turn)|;
      && WellFormed(after.board)
      && Count(after.board, m.turn) == Count(m.board, m.turn) + n + 1
      && Count(after.board, Opponent(m.turn)) == Count(m.board, Opponent(m.turn)) - n
      && n >= 1
  {
    PlaceWellFormed(m.board, x, y, m.turn);
    PlaceScore(m.board, x, y, m.turn);
  }

  /** `getValidMoves`: the legal moves of the side to move. */
  function GetValidMoves(m: Model): (moves: seq<Move>)
    ensures forall mv :: mv in moves ==> Place(m.board, mv.x, mv.y, m.turn).Some?
  {
    ValidMovesSpec(m.board, m.turn);
    ValidMoves(m.board, m.turn)
  }

  /** `getValidMovesFor(player)`: switches the turn to `player`, asks for the
      legal moves, and switches back. */
  method GetValidMovesFor(m: Model, player: int) returns (moves: seq<Move>, after: Model)
    ensures after == m
    ensures forall mv :: mv in moves <==> IsLegal(m.board, mv.x, mv.y, player)
    ensures RowMajor(moves)
    ensures moves == GetValidMoves(m.(turn := player))
  {
    var originalTurn := m.turn;
    var tmp := m.(turn := player);
    moves := ComputeValidMoves(tmp.board, tmp.turn);
    after := tmp.(turn := originalTurn);
  }

  /** `switchTurn`: 1 becomes 2, anything else becomes 1. */
  function SwitchTurn(m: Model): (r: Model)
    ensures r.turn == Black || r.turn == White
    ensures r.turn != m.turn
    ensures r.board == m.board && r.gameOver == m.gameOver && r.mode == m.mode
    ensures r.aiColor == m.aiColor && r.difficulty == m.difficulty
  {
    m.(turn := Opponent(m.turn))
  }

  /** Switching twice is the identity on a Black/White turn; from any other value
      the first switch gives Black and the second White. */
  lemma SwitchTwice(m: Model)
    ensures m.turn == Black || m.turn == White ==> SwitchTurn(SwitchTurn(m)) == m
    ensures m.turn != Black && m.turn != White ==> SwitchTurn(SwitchTurn(m)).turn == White
    ensures m.turn != Black && m.turn != White ==> SwitchTurn(m).turn == Black
  {
  }

  /** `setCurrentTurn`: only the turn changes. */
  function SetCurrentTurn(m: Model, t: int): (r: Model)
    ensures r.turn == t
    ensures r.(turn := m.turn) == m
  {
    m.(turn := t)
  }

  /** `getScore(player)`: the two nested loops counting cells equal to `player`. */
  method GetScore(b: Grid, player: int) returns (count: nat)
    ensures count == Count(b, player)
    ensures count <= 64
  {
    count := 0;
    var y := 0;
    while y < Size
      invariant 0 <= y <= Size
      invariant count == Count(b[..y * 8], player)
    {
      var x := 0;
      while x < Size
        invariant 0 <= x <= Size
        invariant count == Count(b[..y * 8 + x], player)
      {
        var k := y * 8 + x;
        assert b[..k + 1][..k] == b[..k];
        if At(b, x, y) == player {
          count := count + 1;
        }
        x := x + 1;
      }
      y := y + 1;
    }
    assert b[..64] == b;
  }

  /** On a well-formed board the two scores and the empty cells add up to 64. */
  lemma ScoreSum(b: Grid)
    requires WellFormed(b)
    ensures Count(b, Black) + Count(b, White) + Count(b, Empty) == 64
  {
    CountPartition(b);
  }

  // ---------------------------------------------------------------------------
  // saveGameResult
  // ---------------------------------------------------------------------------

  datatype Outcome = Win | Loss | DrawResult

  /** One database write, in the order `saveGameResult` issues them. */
  datatype DbWrite =
    | UpdateStats(user: string, outcome: Outcome)
    | SaveRecord(player1: string, player2: string, winner: string,
                 blackScore: int, whiteScore: int, moves: string)

  /** What `saveGameResult(currentUserId, opponentUserId, myColor)` writes. A
      missing user or a disconnected database writes nothing. Local games save
      a record only; AI and online games first update the user's statistics and
      then save the record. The move list is always the empty JSON array. */
  function SaveGameResult(m: Model, user: Option<string>, opponent: Option<string>,
                          myColor: int, connected: bool): (w: seq<DbWrite>)
    ensures user.None? || !connected <==> w == []
    ensures w != [] ==>
      && w[|w| - 1].SaveRecord?
      && w[|w| - 1].blackScore == Count(m.board, Black)
      && w[|w| - 1].whiteScore == Count(m.board, White)
      && w[|w| - 1].moves == "[]"
    ensures w != [] && m.mode == Local ==> |w| == 1
    ensures w != [] && m.mode != Local ==>
      |w| == 2 && w[0].UpdateStats? && w[0].user == user.value
  {
    if user.None? || !connected then []
    else
      var id := user.value;
      var black := Count(m.board, Black);
      var white := Count(m.board, White);
      match m.mode
      case Local =>
        var winner := if black > white then id + " (Black)"
                      else if white > black then id + " (White)"
                      else "DRAW";
        [SaveRecord(id + " (Black)", id + " (White)", winner, black, white, "[]")]
      case AI =>
        var outcome := if black > white then Win else if white > black then Loss else DrawResult;
        var winner := if black > white then id else if white > black then "AI" else "DRAW";
        [UpdateStats(id, outcome), SaveRecord(id, "AI", winner, black, white, "[]")]
      case Online =>
        var p2 := opponent.GetOr("Online_Opponent");
        var outcome :=
          if black > white then (if myColor == Black then Win else Loss)
          else if white > black then (if myColor == White then Win else Loss)
          else DrawResult;
        var winner := match outcome
          case Win => id
          case Loss => p2
          case DrawResult => "DRAW";
        [UpdateStats(id, outcome), SaveRecord(id, p2, winner, black, white, "[]")]
  }

  /** The outcome credited to the user of an online game is a win exactly when
      the user's colour has more discs, a draw exactly on equal scores, and a
      loss otherwise; the recorded winner is the user on a win and the
      opponent (or its placeholder) on a loss. */
  lemma OnlineOutcome(m: Model, id: string, opponent: Option<string>, myColor: int)
    requires m.mode == Online
    requires myColor == Black || myColor == White
    ensures var w := SaveGameResult(m, Some(id), opponent, myColor, true);
      var mine := Count(m.board, myColor);
      var theirs := Count(m.board, Opponent(myColor));
      && (w[0].outcome == Win <==> mine > theirs)
      && (w[0].outcome == DrawResult <==> mine == theirs)
      && (w[0].outcome == Loss <==> mine < theirs)
      && (w[0].outcome == Win ==> w[1].winner == id)
      && (w[0].outcome == Loss ==> w[1].winner == opponent.GetOr("Online_Opponent"))
      && w[1].player1 == id && w[1].player2 == opponent.GetOr("Online_Opponent")
  {
  }

  /** Whatever `myColor` is, an online game with unequal scores is never
      recorded as a draw, and equal scores always are. */
  lemma OnlineDrawOnlyOnTie(m: Model, id: string, opponent: Option<string>, myColor: int)
    requires m.mode == Online
    ensures var w := SaveGameResult(m, Some(id), opponent, myColor, true);
      w[0].outcome == DrawResult <==> Count(m.board, Black) == Count(m.board, White)
  {
  }

  /** In an AI game the user is credited by the disc colours alone: a win
      exactly when Black has more discs, whichever colour the AI played. */
  lemma AIOutcomeIgnoresColour(m: Model, id: string, opponent: Option<string>, myColor: int, aiColor: int)
    requires m.mode == AI
    ensures var w := SaveGameResult(m, Some(id), opponent, myColor, true);
      var w' := SaveGameResult(m.(aiColor := aiColor), Some(id), None, 0, true);
      && w == w'
      && (w[0].outcome == Win <==> Count(m.board, Black) > Count(m.board, White))
      && (w[0].outcome == Loss <==> Count(m.board, White) > Count(m.board, Black))
      && w[1].player2 == "AI"
  {
  }

  /** A local game never touches the statistics and names both seats after the
      user; a decisive result names the winning colour. */
  lemma LocalRecordOnly(m: Model, id: string, opponent: Option<string>, myColor: int)
    requires m.mode == Local
    ensures var w := SaveGameResult(m, Some(id), opponent, myColor, true);
      && w == [w[0]] && w[0].SaveRecord?
      && w[0].player1 == id + " (Black)" && w[0].player2 == id + " (White)"
      && (Count(m.board, Black) > Count(m.board, White) ==> w[0].winner == w[0].player1)
      && (Count(m.board, White) > Count(m.board, Black) ==> w[0].winner == w[0].player2)
      && (Count(m.board, Black) == Count(m.board, White) ==> w[0].winner == "DRAW")
  {
  }
}

=== FILE: game_view.dfy ===
// The turn and chance-card controller of `ui/GameView.java`, over the newer
// engine. The JavaFX scene, alerts, animations and sounds are gone; what stays
// is the state the handlers read and write (the engine state, `myColor`, the
// three card flags and `minigameOwnerColor`) and the lines they send. Each
// `Random` draw is an index oracle `pick`, and the minigame itself is reduced
// to its reported result.

module GameView {
  import opened Wrappers
  import opened JavaText
  import opened Board
  import Engine
  import ClientSession
  import MinigameProtocol

  /** `myColor` is 0 until the server assigns a colour; `ownerColor` is
      `minigameOwnerColor`, 0 when no minigame is pending. */
  datatype View = View(m: Engine.Model, myColor: int, cardUsed: seq<bool>, ownerColor: int)

  const CardCount: nat := 3

  /** Some cell is a legal move for `player`. */
  ghost predicate CanMove(b: Grid, player: int) {
    exists x, y :: IsLegal(b, x, y, player)
  }

  /** The legal-move list is empty exactly when no cell is legal. */
  lemma NoMovesIff(b: Grid, player: int)
    ensures ValidMoves(b, player) == [] <==> !CanMove(b, player)
  {
    var moves := ValidMoves(b, player);
    ValidMovesSpec(b, player);
    if CanMove(b, player) {
      var x, y :| IsLegal(b, x, y, player);
      assert Move(x, y) in moves;
    }
    if moves != [] {
      var mv := moves[0];
      assert mv in moves;
      assert IsLegal(b, mv.x, mv.y, player);
    }
  }

  // ---------------------------------------------------------------------------
  // Turn and pass
  // ---------------------------------------------------------------------------

  /** `checkPassConditions`: when the side to move has no legal move the turn
      passes, and when the other side has none either the game is over. */
  function CheckPassConditions(m: Engine.Model): (r: Engine.Model)
    ensures r.board == m.board && r.mode == m.mode
    ensures r.aiColor == m.aiColor && r.difficulty == m.difficulty
    ensures r.gameOver ==> m.gameOver || Engine.GetValidMoves(m) == []
  {
    if Engine.GetValidMoves(m) != [] then m
    else
      var s := Engine.SwitchTurn(m);
      if Engine.GetValidMoves(s) == [] then s.(gameOver := true) else s
  }

  /** `updateGameViewAfterMove`: switch the turn, then check for a pass. */
  function AfterMove(m: Engine.Model): (r: Engine.Model)
    ensures r.board == m.board && r.mode == m.mode
  {
    CheckPassConditions(Engine.SwitchTurn(m))
  }

  /** After a move the opponent moves if it can; otherwise the mover moves
      again if it can; otherwise the game is over. The board is untouched. */
  lemma AfterMoveSpec(m: Engine.Model)
    requires m.turn == Black || m.turn == White
    ensures var r := AfterMove(m); var o := Opponent(m.turn);
      && (CanMove(m.board, o) ==> r.turn == o && r.gameOver == m.gameOver)
      && (!CanMove(m.board, o) && CanMove(m.board, m.turn) ==> r.turn == m.turn && r.gameOver == m.gameOver)
      && (!CanMove(m.board, o) && !CanMove(m.board, m.turn) ==> r.turn == m.turn && r.gameOver)
  {
    NoMovesIff(m.board, Opponent(m.turn));
    NoMovesIff(m.board, m.turn);
  }

  /** After a move, either the game is over or the side to move has a legal
      move: no turn is ever handed to a player who cannot move. */
  lemma AfterMoveProgress(m: Engine.Model)
    requires m.turn == Black || m.turn == White
    ensures var r := AfterMove(m); r.gameOver || CanMove(r.board, r.turn)
  {
    AfterMoveSpec(m);
  }

  // ---------------------------------------------------------------------------
  // Clicks and opponent moves
  // ---------------------------------------------------------------------------

  /** How `handleTileClick` ends. */
  datatype Click = GameOverAlert | AIToMove | NotMyTurn | InvalidMove | Moved

  /** `handleTileClick(x, y)`: the game-over, AI-turn and online-turn gates,
      then `placePieceAndFlip`; an accepted move is sent to the peer online and
      followed by `updateGameViewAfterMove`. */
  function HandleTileClick(v: View, x: int, y: int): (r: (Click, View, seq<string>))
    ensures r.0 == Moved <==>
      && !v.m.gameOver
      && !(v.m.mode == Engine.AI && v.m.turn == v.m.aiColor)
      && !(v.m.mode == Engine.Online && v.m.turn != v.myColor)
      && IsLegal(v.m.board, x, y, v.m.turn)
    ensures v.m.gameOver ==> r.0 == GameOverAlert
    ensures r.0 != Moved ==> r.1 == v && r.2 == []
    ensures r.0 == Moved ==>
      r.1 == v.(m := AfterMove(v.m.(board := Place(v.m.board, x, y, v.m.turn).value)))
    ensures r.0 == Moved && v.m.mode == Engine.Online ==> r.2 == [ClientSession.EncodeMove(x, y)]
    ensures v.m.mode != Engine.Online ==> r.2 == []
  {
    if v.m.gameOver then (GameOverAlert, v, [])
    else if v.m.mode == Engine.AI && v.m.turn == v.m.aiColor then (AIToMove, v, [])
    else if v.m.mode == Engine.Online && v.m.turn != v.myColor then (NotMyTurn, v, [])
    else
      var (flipped, placed) := Engine.PlacePieceAndFlip(v.m, x, y);
      if !flipped then (InvalidMove, v, [])
      else
        var sent := if v.m.mode == Engine.Online then [ClientSession.EncodeMove(x, y)] else [];
        (Moved, v.(m := AfterMove(placed)), sent)
  }

  /** `processOpponentMove(x, y)`: no gate at all; a rejected move changes
      nothing, an accepted one is followed by `updateGameViewAfterMove`. */
  function ProcessOpponentMove(v: View, x: int, y: int): (r: View)
    ensures !IsLegal(v.m.board, x, y, v.m.turn) ==> r == v
    ensures IsLegal(v.m.board, x, y, v.m.turn) ==>
      r == v.(m := AfterMove(v.m.(board := Place(v.m.board, x, y, v.m.turn).value)))
  {
    var (flipped, placed) := Engine.PlacePieceAndFlip(v.m, x, y);
    if flipped then v.(m := AfterMove(placed)) else v
  }

  /** A move accepted on one side reaches the other as the same coordinates,
      and the peer, holding the same game, ends in the same game. */
  lemma MoveReachesPeer(me: View, peer: View, x: int, y: int)
    requires me.m == peer.m && me.m.mode == Engine.Online
    requires HandleTileClick(me, x, y).0 == Moved
    ensures var sent := HandleTileClick(me, x, y).2;
      |sent| == 1 && ClientSession.DecodeLine(sent[0]) == ClientSession.OpponentMove(x, y)
    ensures ProcessOpponentMove(peer, x, y).m == HandleTileClick(me, x, y).1.m
  {
    ClientSession.MoveRoundTrip(x, y);
  }

  /** `setPlayerColor(color)`: a fresh board; "BLACK" gives 1, "WHITE" gives 2,
      any other text leaves `myColor` as it was. The `show(ONLINE)` the source
      schedules 1.5 s later (`GameView.java:534-545`) is not part of this step:
      it arrives as a separate `Show(v, Online, coin)` event. */
  function SetPlayerColor(v: View, color: string, coin: bool): (r: View)
    ensures r.m == Engine.InitializeBoard(v.m, coin)
    ensures color == "BLACK" ==> r.myColor == Black
    ensures color == "WHITE" ==> r.myColor == White
    ensures color != "BLACK" && color != "WHITE" ==> r.myColor == v.myColor
    ensures r.cardUsed == v.cardUsed && r.ownerColor == v.ownerColor
  {
    var my := if color == "BLACK" then Black else if color == "WHITE" then White else v.myColor;
    View(Engine.InitializeBoard(v.m, coin), my, v.cardUsed, v.ownerColor)
  }

  /** `show(mode)`: set the mode, reset the board, and in local and online
      games reset the three chance cards to unused. */
  function Show(v: View, mode: Engine.Mode, coin: bool): (r: View)
    ensures r.m == Engine.InitializeBoard(v.m.(mode := mode), coin)
    ensures mode != Engine.AI ==> r.cardUsed == [false, false, false]
    ensures mode == Engine.AI ==> r.cardUsed == v.cardUsed
    ensures r.myColor == v.myColor && r.ownerColor == v.ownerColor
  {
    var cards := if mode == Engine.Local || mode == Engine.Online then seq(CardCount, _ => false) else v.cardUsed;
    View(Engine.InitializeBoard(v.m.(mode := mode), coin), v.myColor, cards, v.ownerColor)
  }

  // ---------------------------------------------------------------------------
  // Chance cards
  // ---------------------------------------------------------------------------

  /** The chance-card user: me online, otherwise the side not to move. */
  function OwnerColor(v: View): (c: int)
    ensures v.m.mode == Engine.Online ==> c == v.myColor
    ensures v.m.mode != Engine.Online ==> c != v.m.turn && (c == Black || c == White)
  {
    if v.m.mode == Engine.Online then v.myColor else Opponent(v.m.turn)
  }

  /** Owner and opponent are the two colours, once online play has a colour. */
  lemma OwnerOpponentDistinct(v: View)
    requires v.m.mode == Engine.Online ==> v.myColor == Black || v.myColor == White
    ensures var o := OwnerColor(v);
      (o == Black || o == White) && Opponent(o) != o && {o, Opponent(o)} == {Black, White}
  {
  }

  predicate Supported(gameType: string) {
    gameType == "MEMORY" || gameType == "REACTION" || gameType == "DODGE"
  }

  /** `startMinigame(gameType)`: record the owner, then, for a known game,
      announce it to the peer when online. An unknown game type only shows an
      alert, after the owner has been recorded. */
  function StartMinigame(v: View, gameType: string): (r: (View, seq<string>))
    ensures r.0 == v.(ownerColor := OwnerColor(v))
    ensures r.1 != [] <==> Supported(gameType) && v.m.mode == Engine.Online
    ensures r.1 != [] ==> r.1 == [MinigameProtocol.CreateStartMessage(gameType)]
  {
    var sent := if Supported(gameType) && v.m.mode == Engine.Online
                then [MinigameProtocol.CreateStartMessage(gameType)] else [];
    (v.(ownerColor := OwnerColor(v)), sent)
  }

  /** How `useChanceCard` ends. */
  datatype CardOutcome = AlreadyUsed | GameAlreadyOver | OwnTurn | Started

  /** `useChanceCard(gameType, cardIndex)`: refused when the card was used,
      when the game is over, or online while it is my turn; otherwise the card
      is marked used and the minigame starts. */
  function UseChanceCard(v: View, card: nat, gameType: string): (r: (CardOutcome, View, seq<string>))
    requires card < |v.cardUsed|
    ensures r.0 == Started <==>
      !v.cardUsed[card] && !v.m.gameOver && !(v.m.mode == Engine.Online && v.m.turn == v.myColor)
    ensures v.cardUsed[card] ==> r.0 == AlreadyUsed
    ensures r.0 != Started ==> r.1 == v && r.2 == []
    ensures r.0 == Started ==>
      r.1 == v.(cardUsed := v.cardUsed[card := true], ownerColor := OwnerColor(v))
  {
    if v.cardUsed[card] then (AlreadyUsed, v, [])
    else if v.m.gameOver then (GameAlreadyOver, v, [])
    else if v.m.mode == Engine.Online && v.m.turn == v.myColor then (OwnTurn, v, [])
    else
      var (started, sent) := StartMinigame(v.(cardUsed := v.cardUsed[card := true]), gameType);
      (Started, started, sent)
  }

  /** A card works once: whatever happens in between that leaves the card
      flags alone, a second use of the same card is refused and changes
      nothing. */
  lemma CardUsedOnce(v: View, card: nat, gameType: string, w: View, gameType2: string)
    requires card < |v.cardUsed|
    requires UseChanceCard(v, card, gameType).0 == Started
    requires w.cardUsed == UseChanceCard(v, card, gameType).1.cardUsed
    ensures UseChanceCard(w, card, gameType2).0 == AlreadyUsed
    ensures UseChanceCard(w, card, gameType2).1 == w
  {
  }

  /** Using one card leaves the other cards' flags as they were. */
  lemma CardUseIsLocal(v: View, card: nat, gameType: string, other: nat)
    requires card < |v.cardUsed| && other < |v.cardUsed| && other != card
    ensures UseChanceCard(v, card, gameType).1.cardUsed[other] == v.cardUsed[other]
  {
  }

  // ---------------------------------------------------------------------------
  // Forced moves
  // ---------------------------------------------------------------------------

  /** `pickRandomMoveFor(color)`: null when `color` has no legal move, else
      the `pick`-th entry of `getValidMovesFor(color)`. */
  function PickRandomMoveFor(m: Engine.Model, color: int, pick: nat): (r: Option<Move>)
    ensures r.None? <==> !CanMove(m.board, color)
    ensures r.Some? ==> IsLegal(m.board, r.value.x, r.value.y, color)
  {
    var moves := ValidMoves(m.board, color);
    NoMovesIff(m.board, color);
    if |moves| == 0 then None
    else
      var mv := moves[pick % |moves|];
      ValidMoveApplies(m.board, mv, color);
      Some(mv)
  }

  /** `applyForcedMove(moveColor, returnTurnColor, move)`: the move is played
      as `moveColor`; on success the turn goes to `returnTurnColor`, on failure
      the board and the turn are as before the call. It never sets the
      game-over flag. */
  function ApplyForcedMove(m: Engine.Model, moveColor: int, returnColor: int, mv: Move): (r: Engine.Model)
    ensures !IsLegal(m.board, mv.x, mv.y, moveColor) ==> r == m
    ensures IsLegal(m.board, mv.x, mv.y, moveColor) ==>
      r == m.(board := Place(m.board, mv.x, mv.y, moveColor).value, turn := returnColor)
    ensures r.gameOver == m.gameOver
  {
    var before := m.turn;
    var (success, placed) := Engine.PlacePieceAndFlip(Engine.SetCurrentTurn(m, moveColor), mv.x, mv.y);
    if success then Engine.SetCurrentTurn(placed, returnColor)
    else Engine.SetCurrentTurn(placed, before)
  }

  /** `handleMinigameSuccess(result, ownerColor)`: a random legal move is
      forced on the opponent and the turn stays with the owner; with no legal
      move the turn is simply given to the owner. Online the result goes to
      the peer with the forced coordinates, or -1 -1. */
  function HandleMinigameSuccess(m: Engine.Model, owner: int, score: int, time: int, pick: nat)
    : (r: (Engine.Model, seq<string>))
    ensures var opp := Opponent(owner);
      !CanMove(m.board, opp) ==> r.0 == m.(turn := owner)
    ensures var opp := Opponent(owner);
      CanMove(m.board, opp) ==>
        && r.0.turn == owner
        && (exists x, y :: IsLegal(m.board, x, y, opp)
              && r.0 == m.(board := Place(m.board, x, y, opp).value, turn := owner))
    ensures m.mode != Engine.Online <==> r.1 == []
  {
    var opp := Opponent(owner);
    var forced := PickRandomMoveFor(m, opp, pick);
    var after := if forced.Some? then ApplyForcedMove(m, opp, owner, forced.value)
                 else Engine.SetCurrentTurn(m, owner);
    var fx := if forced.Some? then forced.value.x else -1;
    var fy := if forced.Some? then forced.value.y else -1;
    var sent := if m.mode == Engine.Online
                then [MinigameProtocol.CreateResultMessage(true, score, time, fx, fy)] else [];
    (after, sent)
  }

  /** The callback of a minigame played here: success goes to
      `handleMinigameSuccess` with the recorded owner, failure only reports
      FAIL -1 -1 online; either way the owner record is cleared. */
  function FinishMinigame(v: View, success: bool, score: int, time: int, pick: nat): (r: (View, seq<string>))
    ensures r.0.ownerColor == 0 && r.0.myColor == v.myColor && r.0.cardUsed == v.cardUsed
    ensures !success ==> r.0.m == v.m
    ensures !success ==> r.1 == (if v.m.mode == Engine.Online
      then [MinigameProtocol.CreateResultMessage(false, score, time, -1, -1)] else [])
    ensures success ==> r == (v.(m := HandleMinigameSuccess(v.m, v.ownerColor, score, time, pick).0, ownerColor := 0),
                              HandleMinigameSuccess(v.m, v.ownerColor, score, time, pick).1)
  {
    if success then
      var (after, sent) := HandleMinigameSuccess(v.m, v.ownerColor, score, time, pick);
      (v.(m := after, ownerColor := 0), sent)
    else
      var sent := if v.m.mode == Engine.Online
                  then [MinigameProtocol.CreateResultMessage(false, score, time, -1, -1)] else [];
      (v.(ownerColor := 0), sent)
  }

  /** `showMinigameSpectator`: the peer started a minigame, so its colour is
      the owner. */
  function ShowMinigameSpectator(v: View): (r: View)
    ensures r == v.(ownerColor := Opponent(v.myColor))
    ensures r.ownerColor != v.myColor
  {
    v.(ownerColor := Opponent(v.myColor))
  }

  /** The owner a network result is about: the recorded one, else the colour
      that is not mine. */
  function RemoteOwner(v: View): (c: int)
    ensures v.ownerColor != 0 ==> c == v.ownerColor
    ensures v.ownerColor == 0 ==> c != v.myColor && (c == Black || c == White)
  {
    if v.ownerColor != 0 then v.ownerColor else Opponent(v.myColor)
  }

  /** `handleMinigameResultFromNetwork`: on SUCCESS the given coordinates are
      forced on the owner's opponent when both are non-negative, else a random
      legal move; on FAIL the turn goes to the opponent. The owner record is
      cleared either way. */
  function HandleMinigameResultFromNetwork(v: View, success: bool, fx: int, fy: int, pick: nat): (r: View)
    ensures r.ownerColor == 0 && r.myColor == v.myColor && r.cardUsed == v.cardUsed
    ensures !success ==> r.m == v.m.(turn := Opponent(RemoteOwner(v)))
    ensures success && fx >= 0 && fy >= 0 ==>
      r.m == ApplyForcedMove(v.m, Opponent(RemoteOwner(v)), RemoteOwner(v), Move(fx, fy))
    ensures success && !(fx >= 0 && fy >= 0) && !CanMove(v.m.board, Opponent(RemoteOwner(v))) ==>
      r.m == v.m
    ensures var opp := Opponent(RemoteOwner(v));
      success && !(fx >= 0 && fy >= 0) && CanMove(v.m.board, opp) ==>
        exists x, y :: IsLegal(v.m.board, x, y, opp)
          && r.m == v.m.(board := Place(v.m.board, x, y, opp).value, turn := RemoteOwner(v))
    ensures r.m.board != v.m.board ==> success
  {
    var owner := RemoteOwner(v);
    var opp := Opponent(owner);
    var after :=
      if success then
        var mv := if fx >= 0 && fy >= 0 then Some(Move(fx, fy)) else PickRandomMoveFor(v.m, opp, pick);
        if mv.Some? then ApplyForcedMove(v.m, opp, owner, mv.value) else v.m
      else Engine.SetCurrentTurn(v.m, opp);
    v.(m := after, ownerColor := 0)
  }

  /** `handleRandomMove`: a random legal move for the side to move, after
      which the turn goes to the recorded owner, else to the other side; with
      no legal move the turn goes there directly. */
  function HandleRandomMove(v: View, pick: nat): (r: View)
    ensures var back := if v.ownerColor != 0 then v.ownerColor else Opponent(v.m.turn);
      && r.m.turn == back
      && (!CanMove(v.m.board, v.m.turn) ==> r.m == v.m.(turn := back))
      && (CanMove(v.m.board, v.m.turn) ==>
            exists x, y :: IsLegal(v.m.board, x, y, v.m.turn)
              && r.m == v.m.(board := Place(v.m.board, x, y, v.m.turn).value, turn := back))
      && r == v.(m := r.m)
  {
    var moveColor := v.m.turn;
    var back := if v.ownerColor != 0 then v.ownerColor else Opponent(moveColor);
    var mv := PickRandomMoveFor(v.m, moveColor, pick);
    var after := if mv.Some? then ApplyForcedMove(v.m, moveColor, back, mv.value)
                 else Engine.SetCurrentTurn(v.m, back);
    v.(m := after)
  }

  /** With an owner recorded and the owner's opponent to move, the random move
      changes the game exactly as `handleMinigameSuccess` does for that owner:
      both force a random legal move on the opponent and hand the turn back. */
  lemma RandomMoveIsMinigameSuccess(v: View, score: int, time: int, pick: nat)
    requires v.ownerColor == Black || v.ownerColor == White
    requires v.m.turn == Opponent(v.ownerColor)
    ensures HandleRandomMove(v, pick).m == HandleMinigameSuccess(v.m, v.ownerColor, score, time, pick).0
  {
  }

  /** A random move that is played raises the mover's disc count by the placed
      disc and at least one flip, and lowers the other side's by the flips. */
  lemma RandomMoveGains(v: View, pick: nat)
    requires v.m.turn == Black || v.m.turn == White
    requires CanMove(v.m.board, v.m.turn)
    ensures var r := HandleRandomMove(v, pick).m;
      && Count(r.board, v.m.turn) >= Count(v.m.board, v.m.turn) + 2
      && Count(r.board, Opponent(v.m.turn)) < Count(v.m.board, Opponent(v.m.turn))
      && Count(r.board, v.m.turn) + Count(r.board, Opponent(v.m.turn)) ==
           Count(v.m.board, v.m.turn) + Count(v.m.board, Opponent(v.m.turn)) + 1
  {
    var mv := PickRandomMoveFor(v.m, v.m.turn, pick).value;
    LegalMoveGains(v.m.board, mv.x, mv.y, v.m.turn);
  }

  lemma LegalMoveGains(b: Grid, x: int, y: int, c: int)
    requires c == Black || c == White
    requires IsLegal(b, x, y, c)
    ensures Place(b, x, y, c).Some?
    ensures var a := Place(b, x, y, c).value;
      && Count(a, c) >= Count(b, c) + 2
      && Count(a, Opponent(c)) < Count(b, Opponent(c))
      && Count(a, c) + Count(a, Opponent(c)) == Count(b, c) + Count(b, Opponent(c)) + 1
  {
    PlaceScore(b, x, y, c);
  }

  // ---------------------------------------------------------------------------
  // Both sides of an online chance card
  // ---------------------------------------------------------------------------

  /** The line the owner sends on success, read by the protocol's reader,
      carries the forced coordinates; applying it on the peer, which holds the
      same game and recorded the owner as the spectator does, leaves both
      sides with the same game. */
  lemma SuccessSync(me: View, peer: View, score: int, time: int, pick: nat, pick2: nat)
    requires me.m == peer.m && me.m.mode == Engine.Online
    requires me.myColor == Black || me.myColor == White
    requires peer.myColor == Opponent(me.myColor)
    requires peer.ownerColor == 0 || peer.ownerColor == me.myColor
    requires CanMove(me.m.board, Opponent(me.myColor))
    requires IsInt32(score) && IsInt64(time)
    ensures var (after, sent) := HandleMinigameSuccess(me.m, me.myColor, score, time, pick);
      && |sent| == 1
      && MinigameProtocol.ParseResult(sent[0]).Some?
      && var res := MinigameProtocol.ParseResult(sent[0]).value;
         res.success
         && HandleMinigameResultFromNetwork(peer, res.success, res.forcedX, res.forcedY, pick2).m == after
  {
    var opp := Opponent(me.myColor);
    var forced := PickRandomMoveFor(me.m, opp, pick);
    var mv := forced.value;
    assert InBounds(mv.x, mv.y);
    MinigameProtocol.ResultRoundTrip(true, score, time, mv.x, mv.y);
  }

  /** A failed minigame, played while the peer is to move, leaves both sides
      with the peer to move on the same board. */
  lemma FailureSync(me: View, peer: View, score: int, time: int, pick: nat, pick2: nat)
    requires me.m == peer.m && me.m.mode == Engine.Online
    requires me.myColor == Black || me.myColor == White
    requires me.m.turn == Opponent(me.myColor)
    requires peer.myColor == Opponent(me.myColor)
    requires peer.ownerColor == 0 || peer.ownerColor == me.myColor
    requires IsInt32(score) && IsInt64(time)
    ensures var (after, sent) := FinishMinigame(me, false, score, time, pick);
      && |sent| == 1
      && MinigameProtocol.ParseResult(sent[0]) == Some(MinigameProtocol.MinigameResult(false, score, time, -1, -1))
      && HandleMinigameResultFromNetwork(peer, false, -1, -1, pick2).m == after.m
  {
    assert IsInt32(-1);
    MinigameProtocol.ResultRoundTrip(false, score, time, -1, -1);
  }

  // ---------------------------------------------------------------------------
  // Winner
  // ---------------------------------------------------------------------------

  /** `getWinnerMessage`: which side leads, with the leader's count. */
  datatype Verdict = BlackWins(black: nat) | WhiteWins(white: nat) | Draw

  function GetWinnerMessage(m: Engine.Model): (r: Verdict)
    ensures r.BlackWins? <==> Count(m.board, Black) > Count(m.board, White)
    ensures r.WhiteWins? <==> Count(m.board, White) > Count(m.board, Black)
    ensures r.BlackWins? ==> r.black == Count(m.board, Black)
    ensures r.WhiteWins? ==> r.white == Count(m.board, White)
  {
    var black := Count(m.board, Black);
    var white := Count(m.board, White);
    if black > white then BlackWins(black)
    else if white > black then WhiteWins(white)
    else Draw
  }
}

=== FILE: java_text.dfy ===
/** The handful of `java.lang.String` / `Integer` operations that the protocol,
    snapshot and settings code is built from, with Java's exact semantics for
    the cases that code relies on (trailing-empty removal in `split`, the
    32-bit range of `Integer.parseInt`, `trim` stripping every char <= U+0020). */
module JavaText {
  import opened Wrappers

  const IntMin: int := -0x8000_0000
  const IntMax: int := 0x7fff_ffff

  /** A value of Java's `int` type. */
  predicate IsInt32(n: int) {
    IntMin <= n <= IntMax
  }

  // ---------------------------------------------------------------------------
  // Prefixes and searching
  // ---------------------------------------------------------------------------

  predicate StartsWith(s: string, prefix: string) {
    |prefix| <= |s| && s[..|prefix|] == prefix
  }

  /** `t` occurs in `s` starting at index `j`. */
  predicate OccursAt(s: string, t: string, j: int) {
    0 <= j && j + |t| <= |s| && s[j..j + |t|] == t
  }

  /** `s.indexOf(t, from)`: the first occurrence of `t` at or after `from`. */
  function IndexOfFrom(s: string, t: string, from: nat): (r: Option<nat>)
    decreases |s| - from
    ensures r.Some? ==> from <= r.value && OccursAt(s, t, r.value)
  {
    if from + |t| > |s| then None
    else if s[from..from + |t|] == t then Some(from)
    else IndexOfFrom(s, t, from + 1)
  }

  /** The occurrence found is the first one at or after `from`, and none is
      found only when there is none. */
  lemma {:induction false} IndexOfFromFirst(s: string, t: string, from: nat)
    ensures var r := IndexOfFrom(s, t, from);
      && (r.Some? ==> forall j :: from <= j < r.value ==> !OccursAt(s, t, j))
      && (r.None? ==> forall j :: from <= j ==> !OccursAt(s, t, j))
    decreases |s| - from
  {
    if from + |t| <= |s| && s[from..from + |t|] != t {
      IndexOfFromFirst(s, t, from + 1);
    }
  }

  /** `s.indexOf(t)`. */
  function IndexOf(s: string, t: string): Option<nat> {
    IndexOfFrom(s, t, 0)
  }

  /** A search from `from` finds the first occurrence at `pos` when `t` occurs
      there and nowhere in between. */
  lemma {:induction false} IndexOfFromAt(s: string, t: string, from: nat, pos: nat)
    requires from <= pos && OccursAt(s, t, pos)
    requires forall j :: from <= j < pos ==> !OccursAt(s, t, j)
    ensures IndexOfFrom(s, t, from) == Some(pos)
    decreases pos - from
  {
    if from < pos {
      assert !OccursAt(s, t, from);
      IndexOfFromAt(s, t, from + 1, pos);
    }
  }

  /** Searching `a + b` when no occurrence starts inside `a` finds the first
      occurrence inside `b`, shifted by `|a|`. */
  lemma IndexOfAfter(a: string, b: string, t: string, p: nat)
    requires forall j :: 0 <= j < |a| ==> !OccursAt(a + b, t, j)
    requires IndexOf(b, t) == Some(p)
    ensures IndexOf(a + b, t) == Some(|a| + p)
  {
    forall j | |a| <= j
      ensures OccursAt(a + b, t, j) == OccursAt(b, t, j - |a|)
    {
      if j + |t| <= |a + b| {
        assert (a + b)[j..j + |t|] == b[j - |a|..j - |a| + |t|];
      }
    }
    IndexOfFromFirst(b, t, 0);
    IndexOfFromAt(a + b, t, 0, |a| + p);
  }

  /** `s.indexOf(c, from)` for a single char: the first position at or after
      `from` holding `c`. */
  lemma IndexOfCharAt(s: string, c: char, from: nat, pos: nat)
    requires from <= pos < |s| && s[pos] == c
    requires forall j :: from <= j < pos ==> s[j] != c
    ensures IndexOfFrom(s, [c], from) == Some(pos)
  {
    assert s[pos..pos + 1] == [c];
    forall j | from <= j < pos
      ensures !OccursAt(s, [c], j)
    {
      assert s[j..j + 1][0] == s[j];
    }
    IndexOfFromAt(s, [c], from, pos);
  }

  /** A found one-char occurrence is that char. */
  lemma OccursChar(s: string, c: char, j: nat)
    requires OccursAt(s, [c], j)
    ensures j < |s| && s[j] == c
  {
    assert s[j..j + 1][0] == s[j];
  }

  // ---------------------------------------------------------------------------
  // trim
  // ---------------------------------------------------------------------------

  /** `String.trim` removes every leading and trailing char with code <= U+0020. */
  predicate IsTrimmable(c: char) {
    c <= ' '
  }

  function TrimStart(s: string): string {
    if |s| > 0 && IsTrimmable(s[0]) then TrimStart(s[1..]) else s
  }

  function TrimEnd(s: string): string {
    if |s| > 0 && IsTrimmable(s[|s| - 1]) then TrimEnd(s[..|s| - 1]) else s
  }

  function Trim(s: string): (r: string)
    ensures |r| <= |s|
    ensures r == [] || (!IsTrimmable(r[0]) && !IsTrimmable(r[|r| - 1]))
  {
    TrimStartSpec(s);
    TrimEndSpec(TrimStart(s));
    TrimEnd(TrimStart(s))
  }

  /** `TrimStart` drops exactly the leading run of trimmable chars. */
  lemma {:induction false} TrimStartSpec(s: string)
    ensures var r := TrimStart(s);
      && |r| <= |s| && r == s[|s| - |r|..]
      && (r == [] || !IsTrimmable(r[0]))
      && forall i :: 0 <= i < |s| - |r| ==> IsTrimmable(s[i])
  {
    if |s| > 0 && IsTrimmable(s[0]) {
      TrimStartSpec(s[1..]);
    }
  }

  /** `TrimEnd` drops exactly the trailing run of trimmable chars. */
  lemma {:induction false} TrimEndSpec(s: string)
    ensures var r := TrimEnd(s);
      && |r| <= |s| && r == s[..|r|]
      && (r == [] || !IsTrimmable(r[|r| - 1]))
      && forall i :: |r| <= i < |s| ==> IsTrimmable(s[i])
  {
    if |s| > 0 && IsTrimmable(s[|s| - 1]) {
      TrimEndSpec(s[..|s| - 1]);
    }
  }

  /** A string with no trimmable char at either end is its own trim. */
  lemma TrimNoop(s: string)
    requires s == [] || (!IsTrimmable(s[0]) && !IsTrimmable(s[|s| - 1]))
    ensures Trim(s) == s
  {
  }

  // ---------------------------------------------------------------------------
  // split and join on one (non-regex-special) character
  // ---------------------------------------------------------------------------

  /** The pieces of `s` between occurrences of `c`, empty pieces included. */
  function SplitAll(s: string, c: char): (r: seq<string>)
    ensures |r| >= 1
    ensures forall k :: 0 <= k < |r| ==> c !in r[k]
  {
    if |s| == 0 then [""]
    else
      var rest := SplitAll(s[1..], c);
      if s[0] == c then [""] + rest
      else [[s[0]] + rest[0]] + rest[1..]
  }

  function DropTrailingEmpty(parts: seq<string>): (r: seq<string>)
    ensures |r| <= |parts| && r == parts[..|r|]
    ensures r == [] || r[|r| - 1] != ""
  {
    if |parts| > 0 && parts[|parts| - 1] == "" then DropTrailingEmpty(parts[..|parts| - 1])
    else parts
  }

  /** `s.split(c)` in Java: the whole string when `c` does not occur, otherwise
      the pieces with trailing empty pieces removed. */
  function Split(s: string, c: char): (r: seq<string>)
    ensures c !in s ==> r == [s]
    ensures forall k :: 0 <= k < |r| ==> c !in r[k]
    ensures c in s ==> r == [] || r[|r| - 1] != ""
  {
    if c !in s then [s] else DropTrailingEmpty(SplitAll(s, c))
  }

  /** `s.split(c, 2)` in Java: at most two pieces, split at the first `c`. */
  function SplitFirst(s: string, c: char): (r: seq<string>)
    ensures 1 <= |r| <= 2
    ensures |r| == 1 <==> c !in s
    ensures |r| == 1 ==> r[0] == s
    ensures |r| == 2 ==> c !in r[0] && s == r[0] + [c] + r[1]
  {
    if |s| == 0 then [s]
    else if s[0] == c then ["", s[1..]]
    else
      var rest := SplitFirst(s[1..], c);
      if |rest| == 1 then [s] else [[s[0]] + rest[0], rest[1]]
  }

  /** `split(c, 2)` cuts at the first `c`. */
  lemma {:induction false} SplitFirstAt(a: string, b: string, c: char)
    requires c !in a
    ensures SplitFirst(a + [c] + b, c) == [a, b]
  {
    var s := a + [c] + b;
    if |a| == 0 {
      assert s == [c] + b && s[1..] == b;
    } else {
      assert s[0] == a[0] && s[1..] == a[1..] + [c] + b;
      SplitFirstAt(a[1..], b, c);
      assert [a[0]] + a[1..] == a;
    }
  }

  /** When the separator does not occur in `p`, the first piece of
      `split(c, 2)` of `p + t` still starts with `p`. */
  lemma {:induction false} SplitFirstKeepsPrefix(p: string, t: string, c: char)
    requires c !in p
    ensures StartsWith(SplitFirst(p + t, c)[0], p)
  {
    if |p| > 0 {
      var s := p + t;
      assert s[0] == p[0] && s[1..] == p[1..] + t;
      SplitFirstKeepsPrefix(p[1..], t, c);
      var rest := SplitFirst(s[1..], c);
      if |rest| == 2 {
        var first := [s[0]] + rest[0];
        assert first[..|p|] == [p[0]] + rest[0][..|p| - 1];
        assert [p[0]] + p[1..] == p;
      }
    }
  }

  /** Pieces joined with `c` between consecutive pieces. */
  function Join(parts: seq<string>, c: char): string {
    if |parts| == 0 then ""
    else if |parts| == 1 then parts[0]
    else parts[0] + [c] + Join(parts[1..], c)
  }

  /** A char that is neither the separator nor in any piece is not in the
      join. */
  lemma {:induction false} JoinAvoids(parts: seq<string>, c: char, d: char)
    requires d != c
    requires forall k :: 0 <= k < |parts| ==> d !in parts[k]
    ensures d !in Join(parts, c)
  {
    if |parts| >= 2 {
      JoinAvoids(parts[1..], c, d);
    }
  }

  /** A join of non-empty pieces starts with the first piece's first char and
      ends with the last piece's last char. */
  lemma {:induction false} JoinEnds(parts: seq<string>, c: char)
    requires |parts| >= 1 && forall k :: 0 <= k < |parts| ==> |parts[k]| >= 1
    ensures var j := Join(parts, c);
      |j| >= 1 && j[0] == parts[0][0] && j[|j| - 1] == parts[|parts| - 1][|parts[|parts| - 1]| - 1]
  {
    if |parts| >= 2 {
      JoinEnds(parts[1..], c);
    }
  }

  lemma {:induction false} SplitAllNoSeparator(s: string, c: char)
    requires c !in s
    ensures SplitAll(s, c) == [s]
  {
    if |s| > 0 {
      assert s[0] != c && c !in s[1..];
      SplitAllNoSeparator(s[1..], c);
      assert [s[0]] + s[1..] == s;
    }
  }

  lemma {:induction false} SplitAllCons(a: string, b: string, c: char)
    requires c !in a
    ensures SplitAll(a + [c] + b, c) == [a] + SplitAll(b, c)
  {
    if |a| == 0 {
      assert a + [c] + b == [c] + b;
      assert ([c] + b)[1..] == b;
    } else {
      assert (a + [c] + b)[1..] == a[1..] + [c] + b;
      SplitAllCons(a[1..], b, c);
      assert [a[0]] + a[1..] == a;
    }
  }

  /** Every char of every piece comes from the split text. */
  predicate CharsFrom(pieces: seq<string>, s: string) {
    forall k, i :: 0 <= k < |pieces| && 0 <= i < |pieces[k]| ==> pieces[k][i] in s
  }

  lemma {:induction false} SplitAllChars(s: string, c: char)
    ensures CharsFrom(SplitAll(s, c), s)
  {
    if |s| > 0 {
      var rest := SplitAll(s[1..], c);
      var r := SplitAll(s, c);
      SplitAllChars(s[1..], c);
      forall k, i | 0 <= k < |r| && 0 <= i < |r[k]|
        ensures r[k][i] in s
      {
        if s[0] == c {
          assert r[k] == rest[k - 1];
          assert rest[k - 1][i] in s[1..];
        } else if k == 0 {
          assert r[0] == [s[0]] + rest[0];
          if i > 0 {
            assert rest[0][i - 1] in s[1..];
          }
        } else {
          assert r[k] == rest[k];
          assert rest[k][i] in s[1..];
        }
      }
    }
  }

  /** Splitting a join gives back every piece, empty ones included. */
  lemma {:induction false} SplitAllJoin(parts: seq<string>, c: char)
    requires |parts| >= 1
    requires forall k :: 0 <= k < |parts| ==> c !in parts[k]
    ensures SplitAll(Join(parts, c), c) == parts
  {
    if |parts| == 1 {
      SplitAllNoSeparator(parts[0], c);
    } else {
      SplitAllJoin(parts[1..], c);
      SplitAllCons(parts[0], Join(parts[1..], c), c);
    }
  }

  lemma {:induction false} JoinNoSeparator(parts: seq<string>, c: char)
    requires |parts| >= 1
    requires forall k :: 0 <= k < |parts| ==> c !in parts[k]
    ensures c in Join(parts, c) <==> |parts| >= 2
  {
    if |parts| >= 2 {
      var j := Join(parts, c);
      assert j[|parts[0]|] == c;
    }
  }

  /** Java's `split` undoes `Join` as long as no piece contains the separator
      and the last piece is non-empty (so nothing is dropped as trailing). */
  lemma SplitJoin(parts: seq<string>, c: char)
    requires |parts| >= 1 && parts[|parts| - 1] != ""
    requires forall k :: 0 <= k < |parts| ==> c !in parts[k]
    ensures Split(Join(parts, c), c) == parts
  {
    JoinNoSeparator(parts, c);
    if |parts| >= 2 {
      SplitAllJoin(parts, c);
    }
  }

  // ---------------------------------------------------------------------------
  // Decimal integers: Integer.toString and Integer.parseInt
  // ---------------------------------------------------------------------------

  /** The zero of every block of ten decimal digits (Unicode category Nd) in
      the Basic Multilingual Plane, in increasing order, ASCII first: the
      characters a Java `char` can hold that `Character.isDigit` accepts.
      The list is the same from Unicode 7 (Java 9) on. */
  const DigitZeros: seq<int> := [
    0x0030, 0x0660, 0x06F0, 0x07C0, 0x0966, 0x09E6, 0x0A66, 0x0AE6, 0x0B66, 0x0BE6,
    0x0C66, 0x0CE6, 0x0D66, 0x0DE6, 0x0E50, 0x0ED0, 0x0F20, 0x1040, 0x1090, 0x17E0,
    0x1810, 0x1946, 0x19D0, 0x1A80, 0x1A90, 0x1B50, 0x1BB0, 0x1C40, 0x1C50, 0xA620,
    0xA8D0, 0xA900, 0xA9D0, 0xA9F0, 0xAA50, 0xABF0, 0xFF10]

  /** Each zero is at least ten past the one before, so the blocks of ten
      are disjoint and in order. */
  predicate Ascending(zs: seq<int>) {
    forall j :: 0 <= j < |zs| - 1 ==> zs[j] + 10 <= zs[j + 1]
  }

  lemma DigitZerosAscending()
    ensures Ascending(DigitZeros)
  {
  }

  /** The zero of the first block of ten from `zs` that holds `cp`. */
  function BlockZero(zs: seq<int>, cp: int): (z: Option<int>)
    ensures z.Some? ==> z.value <= cp < z.value + 10
  {
    if |zs| == 0 then None
    else if zs[0] <= cp < zs[0] + 10 then Some(zs[0])
    else BlockZero(zs[1..], cp)
  }

  /** The zero of the digit block holding `c`, if `c` is a decimal digit.
      Every block above ASCII starts at or after U+0660, so a character below
      that is a digit only when it is an ASCII one. */
  function DecimalZero(c: char): (z: Option<int>)
    ensures z.Some? ==> z.value <= c as int < z.value + 10
  {
    if '0' <= c <= '9' then Some(0x30)
    else if c as int < 0x0660 then None
    else BlockZero(DigitZeros, c as int)
  }

  /** In an ascending list, every zero after the first is at least ten past
      the first. */
  lemma {:induction false} AscendingFirst(zs: seq<int>, j: nat)
    requires Ascending(zs) && 0 < j < |zs|
    ensures zs[0] + 10 <= zs[j]
  {
    if j > 1 {
      AscendingFirst(zs, j - 1);
    }
  }

  /** In an ascending list, exactly the blocks that hold `cp` give an answer,
      and at most one does. */
  lemma {:induction false} BlockZeroSpec(zs: seq<int>, cp: int)
    requires Ascending(zs)
    ensures BlockZero(zs, cp).Some? <==> exists j :: 0 <= j < |zs| && zs[j] <= cp < zs[j] + 10
    ensures forall j :: 0 <= j < |zs| && zs[j] <= cp < zs[j] + 10 ==> BlockZero(zs, cp) == Some(zs[j])
  {
    if |zs| > 0 {
      var t := zs[1..];
      assert Ascending(t) by {
        forall j | 0 <= j < |t| - 1
          ensures t[j] + 10 <= t[j + 1]
        {
          assert t[j] == zs[j + 1] && t[j + 1] == zs[j + 2];
        }
      }
      BlockZeroSpec(t, cp);
      forall j | 0 < j < |zs|
        ensures zs[j] <= cp < zs[j] + 10 <==> t[j - 1] <= cp < t[j - 1] + 10
      {
        assert t[j - 1] == zs[j];
      }
      if zs[0] <= cp < zs[0] + 10 {
        forall j | 0 < j < |zs|
          ensures !(zs[j] <= cp < zs[j] + 10)
        {
          AscendingFirst(zs, j);
        }
      } else {
        assert forall j :: 0 <= j < |zs| && zs[j] <= cp < zs[j] + 10 ==> j > 0;
        assert (exists j :: 0 <= j < |zs| && zs[j] <= cp < zs[j] + 10) ==>
               (exists j :: 0 <= j < |t| && t[j] <= cp < t[j] + 10);
      }
    }
  }

  /** The ASCII block comes first, the Arabic-Indic block second and the
      full-width block last; every block after ASCII starts at or after
      U+0660. */
  lemma DigitZerosFacts()
    ensures |DigitZeros| == 37 && DigitZeros[0] == 0x30
    ensures DigitZeros[1] == 0x0660 && DigitZeros[36] == 0xFF10
    ensures forall j :: 0 < j < |DigitZeros| ==> DigitZeros[j] >= 0x0660
  {
  }

  /** A character is a decimal digit exactly when one of the blocks holds it,
      and then its zero is that block's. */
  lemma DecimalZeroSpec(c: char)
    ensures DecimalZero(c).Some? <==> exists j :: 0 <= j < |DigitZeros| && DigitZeros[j] <= c as int < DigitZeros[j] + 10
    ensures forall j :: 0 <= j < |DigitZeros| && DigitZeros[j] <= c as int < DigitZeros[j] + 10 ==>
      DecimalZero(c) == Some(DigitZeros[j])
  {
    DigitZerosFacts();
    if c as int >= 0x0660 {
      DigitZerosAscending();
      BlockZeroSpec(DigitZeros, c as int);
    }
  }

  /** `Character.isDigit(c)`, which is also the set of characters that
      `Character.digit(c, 10)` reads when `Integer.parseInt` parses. */
  predicate IsDigit(c: char) {
    DecimalZero(c).Some?
  }

  /** The ASCII digits `0`-`9`: what a regular expression's `\d` and `[0-9]`
      match, and what `Integer.toString` writes. */
  predicate IsAsciiDigit(c: char) {
    '0' <= c <= '9'
  }

  predicate AllDigits(s: string) {
    forall i :: 0 <= i < |s| ==> IsDigit(s[i])
  }

  predicate AllAsciiDigits(s: string) {
    forall i :: 0 <= i < |s| ==> IsAsciiDigit(s[i])
  }

  function DigitChar(d: nat): (c: char)
    requires d < 10
    ensures IsAsciiDigit(c) && IsDigit(c)
  {
    (48 + d) as char
  }

  /** `Character.digit(c, 10)`: the digit's offset from its block's zero. */
  function DigitValue(c: char): (d: nat)
    requires IsDigit(c)
    ensures d < 10
    ensures IsAsciiDigit(c) ==> DigitChar(d) == c
  {
    c as int - DecimalZero(c).value
  }

  /** The value of a run of decimal digits. */
  function DigitsValue(s: string): nat
    requires AllDigits(s)
  {
    if |s| == 0 then 0 else DigitsValue(s[..|s| - 1]) * 10 + DigitValue(s[|s| - 1])
  }

  /** Decimal digits of `n`, without leading zeros. */
  function NatToString(n: nat): (r: string)
    ensures |r| >= 1 && AllAsciiDigits(r) && AllDigits(r)
  {
    if n < 10 then [DigitChar(n)] else NatToString(n / 10) + [DigitChar(n % 10)]
  }

  lemma {:induction false} DigitsRoundTrip(n: nat)
    ensures DigitsValue(NatToString(n)) == n
  {
    if n >= 10 {
      DigitsRoundTrip(n / 10);
      var s := NatToString(n);
      assert s[..|s| - 1] == NatToString(n / 10);
    }
  }

  /** `Integer.toString(n)` / string concatenation of an `int`. */
  function IntToString(n: int): (r: string)
    ensures |r| >= 1
    ensures ' ' !in r && ',' !in r && ':' !in r && '"' !in r && '[' !in r && ']' !in r
    ensures n >= 0 ==> AllAsciiDigits(r) && AllDigits(r)
    ensures n < 0 ==> |r| >= 2 && r[0] == '-' && AllAsciiDigits(r[1..]) && AllDigits(r[1..])
  {
    var r := if n < 0 then "-" + NatToString(-n) else NatToString(n);
    assert n < 0 ==> r[1..] == NatToString(-n);
    r
  }

  /** An optional sign followed by at least one decimal digit, read as a value
      that must lie in [lo, hi]; anything else is `None`. The common core of
      `Integer.parseInt` and `Long.parseLong`. */
  function ParseBounded(s: string, lo: int, hi: int): (r: Option<int>)
    ensures r.Some? ==> lo <= r.value <= hi
  {
    if |s| == 0 then None
    else if s[0] == '-' || s[0] == '+' then
      var body := s[1..];
      if |body| == 0 || !AllDigits(body) then None
      else
        var v: int := if s[0] == '-' then -(DigitsValue(body) as int) else DigitsValue(body);
        if lo <= v <= hi then Some(v) else None
    else if !AllDigits(s) then None
    else if lo <= DigitsValue(s) <= hi then Some(DigitsValue(s))
    else None
  }

  /** `Integer.parseInt(s)`: a value inside the 32-bit range, otherwise
      `NumberFormatException`, modelled as `None`. */
  function ParseInt(s: string): (r: Option<int>)
    ensures r.Some? ==> IsInt32(r.value)
  {
    ParseBounded(s, IntMin, IntMax)
  }

  /** One digit of any script reads as its value. */
  lemma ParseOneDigit(a: char)
    requires IsDigit(a)
    ensures ParseInt([a]) == Some(DigitValue(a))
  {
    assert a != '-' && a != '+';
    assert AllDigits([a]) && [a][..0] == [];
    assert DigitsValue([a]) == DigitValue(a);
  }

  /** Two digits of any script read as a two-digit number. */
  lemma ParseTwoDigits(a: char, b: char)
    requires IsDigit(a) && IsDigit(b)
    ensures ParseInt([a, b]) == Some(DigitValue(a) * 10 + DigitValue(b))
  {
    assert AllDigits([a, b]);
    assert [a, b][..1] == [a] && [a][..0] == [];
    assert DigitsValue([a, b]) == DigitsValue([a]) * 10 + DigitValue(b);
    assert DigitsValue([a]) == DigitValue(a);
  }

  /** The full-width digits U+FF10 to U+FF19 are digits with their face
      values, as are the Arabic-Indic digits U+0660 to U+0669. */
  lemma ScriptDigits(c: char)
    requires 0xFF10 <= c as int < 0xFF1A || 0x0660 <= c as int < 0x066A
    ensures IsDigit(c)
    ensures 0xFF10 <= c as int ==> DigitValue(c) == c as int - 0xFF10
    ensures c as int < 0xFF10 ==> DigitValue(c) == c as int - 0x0660
  {
    DigitZerosFacts();
    DecimalZeroSpec(c);
  }

  /** `Integer.parseInt` of the full-width "８０" is 80. */
  lemma ParseFullWidth(a: char, b: char)
    requires a as int == 0xFF18 && b as int == 0xFF10
    ensures ParseInt([a, b]) == Some(80)
  {
    ScriptDigits(a);
    ScriptDigits(b);
    ParseTwoDigits(a, b);
  }

  const LongMin: int := -0x8000_0000_0000_0000
  const LongMax: int := 0x7fff_ffff_ffff_ffff

  /** A value of Java's `long` type. */
  predicate IsInt64(n: int) {
    LongMin <= n <= LongMax
  }

  /** `Long.parseLong(s)`. */
  function ParseLong(s: string): (r: Option<int>)
    ensures r.Some? ==> IsInt64(r.value)
  {
    ParseBounded(s, LongMin, LongMax)
  }

  /** Every integer printed by Java parses back to itself when it lies in the
      accepted range. */
  lemma BoundedRoundTrip(n: int, lo: int, hi: int)
    requires lo <= n <= hi
    ensures ParseBounded(IntToString(n), lo, hi) == Some(n)
  {
    if n < 0 {
      DigitsRoundTrip(-n);
      var s := IntToString(n);
      assert s[1..] == NatToString(-n);
      assert s[0] == '-';
    } else {
      DigitsRoundTrip(n);
    }
  }

  /** Every `int` printed by Java parses back to itself. */
  lemma IntRoundTrip(n: int)
    requires IsInt32(n)
    ensures ParseInt(IntToString(n)) == Some(n)
  {
    BoundedRoundTrip(n, IntMin, IntMax);
  }

  /** Every `long` printed by Java parses back to itself. */
  lemma LongRoundTrip(n: int)
    requires IsInt64(n)
    ensures ParseLong(IntToString(n)) == Some(n)
  {
    BoundedRoundTrip(n, LongMin, LongMax);
  }

  /** A string made only of digits (or empty) never parses when it is empty,
      and a string with a non-digit, non-sign char never parses. */
  lemma ParseIntRejectsNonNumeric(s: string, i: nat)
    requires i < |s| && !IsDigit(s[i]) && (i > 0 || (s[0] != '-' && s[0] != '+'))
    ensures ParseInt(s).None?
  {
    if s[0] == '-' || s[0] == '+' {
      assert !IsDigit(s[1..][i - 1]);
    }
  }

  // ---------------------------------------------------------------------------
  // Case
  // ---------------------------------------------------------------------------

  /** `Character.toLowerCase` restricted to ASCII letters. */
  function LowerAscii(c: char): char {
    if 'A' <= c <= 'Z' then (c as int + 32) as char else c
  }

  function LowerAsciiString(s: string): (r: string)
    ensures |r| == |s|
    ensures forall i :: 0 <= i < |s| ==> r[i] == LowerAscii(s[i])
  {
    if |s| == 0 then "" else [LowerAscii(s[0])] + LowerAsciiString(s[1..])
  }

  /** `a.equalsIgnoreCase(b)` for ASCII text. */
  predicate EqualsIgnoreCase(a: string, b: string) {
    LowerAsciiString(a) == LowerAsciiString(b)
  }

  /** Every occurrence of `c` removed, as `s.replace("c", "")` does. */
  function RemoveChar(s: string, c: char): (r: string)
    ensures c !in r
    ensures c !in s ==> r == s
  {
    if |s| == 0 then "" else (if s[0] == c then "" else [s[0]]) + RemoveChar(s[1..], c)
  }
}

=== FILE: legacy_client.dfy ===
// The older client of `NetworkClient.java` (package root), used by the older
// controller in `Main.java`: fixed port, no handshake, and a `START_` branch
// that keeps everything after the six-char prefix as the colour.

module LegacyClient {
  import opened Wrappers
  import opened JavaText
  import ClientSession

  /** `SERVER_PORT`: the older client always connects to 8080. */
  const ServerPort: int := 8080

  datatype Client = Client(serverIp: string, connected: bool)

  /** `connect()`: no line is written, only the socket state changes. */
  function Connect(c: Client, socketOk: bool): (r: (Client, seq<string>))
    ensures r.1 == []
    ensures r.0.serverIp == c.serverIp
    ensures r.0.connected == (socketOk || c.connected)
  {
    if socketOk then (c.(connected := true), []) else (c, [])
  }

  /** `sendMove(x, y)`: the same `MOVE x y` line as the newer client, once
      connected. */
  function SendMove(c: Client, x: int, y: int): (sent: seq<string>)
    ensures !c.connected ==> sent == []
    ensures c.connected ==> |sent| == 1 && Split(sent[0], ' ') == ["MOVE", IntToString(x), IntToString(y)]
  {
    if c.connected then [ClientSession.EncodeMove(x, y)] else []
  }

  /** The `run` loop body: the whole remainder after `START_` is the colour;
      `MOVE` lines as in the newer client; everything else is ignored. */
  function DecodeLine(line: string): (e: ClientSession.Event)
    ensures e.StartGame? <==> StartsWith(line, "START_")
    ensures e.StartGame? ==> e.opponent.None? && line == "START_" + e.color
  {
    if StartsWith(line, "START_") then ClientSession.StartGame(line[6..], None)
    else if StartsWith(line, "MOVE") then ClientSession.DecodeMove(line)
    else ClientSession.Ignored
  }

  /** A line written by `sendMove(x, y)` decodes to exactly (x, y). */
  lemma MoveRoundTrip(x: int, y: int)
    requires IsInt32(x) && IsInt32(y)
    ensures DecodeLine(ClientSession.EncodeMove(x, y)) == ClientSession.OpponentMove(x, y)
  {
    ClientSession.MoveRoundTrip(x, y);
  }

  /** The two clients agree on every line except `START_` lines with a space:
      there the older one keeps the space and what follows in the colour. */
  lemma AgreesWithNewerClient(line: string)
    ensures !StartsWith(line, "START_") ==> DecodeLine(line) == ClientSession.DecodeLine(line)
    ensures StartsWith(line, "START_") && ' ' !in line ==> DecodeLine(line) == ClientSession.DecodeLine(line)
    ensures StartsWith(line, "START_") && ' ' in line ==> DecodeLine(line).color != ClientSession.DecodeLine(line).color
  {
    if StartsWith(line, "START_") {
      var rest := line[6..];
      assert line == "START_" + rest;
      if ' ' in line {
        assert ' ' in rest;
        assert ' ' !in ClientSession.DecodeLine(line).color;
      } else {
        assert SplitFirst(line, ' ') == [line];
      }
    }
  }

  /** The `run` loop over the lines read, with this client's decoder; a
      malformed number ends the loop, since only `IOException` is caught. */
  function Receive(lines: seq<string>): (seq<ClientSession.Event>, bool) {
    ClientSession.ReceiveWith(DecodeLine, lines)
  }

  /** On a stream without a `START_` line that holds a space, the two receive
      loops deliver the same events and stop at the same line. */
  lemma {:induction false} ReceiveAgrees(lines: seq<string>)
    requires forall k :: 0 <= k < |lines| ==> !(StartsWith(lines[k], "START_") && ' ' in lines[k])
    ensures Receive(lines) == ClientSession.Receive(lines)
    decreases |lines|
  {
    if |lines| > 0 {
      ReceiveAgrees(lines[..|lines| - 1]);
      AgreesWithNewerClient(lines[|lines| - 1]);
    }
  }
}

=== FILE: legacy_engine.dfy ===
// The older engine `org/example/GameModel.java`. Its board code is the same
// text as the newer `model/GameModel.java`, so it is modelled over the same
// board functions; what it lacks (`getValidMovesFor`, `setCurrentTurn`,
// `saveGameResult`) is simply absent. The lemmas show each operation agrees with
// the newer engine and that the disc counts of every reachable board add up.

module LegacyEngine {
  import opened Board
  import Engine

  datatype Game = Game(
    board: Grid,
    turn: int,
    gameOver: bool,
    mode: Engine.Mode,
    aiColor: int,
    difficulty: Engine.Difficulty)

  /** The same fields read as a state of the newer engine. */
  function AsModel(g: Game): Engine.Model {
    Engine.Model(g.board, g.turn, g.gameOver, g.mode, g.aiColor, g.difficulty)
  }

  /** `initializeBoard`: the opening, Black to move, not over; the AI colour
      from a coin in AI mode and 0 otherwise. */
  function InitializeBoard(g: Game, coin: bool): (r: Game)
    ensures r.board == Opening() && r.turn == Black && !r.gameOver
    ensures r.mode == g.mode && r.difficulty == g.difficulty
    ensures r.aiColor == (if g.mode == Engine.AI then (if coin then Black else White) else Empty)
  {
    Game(Opening(), Black, false, g.mode,
         if g.mode == Engine.AI then (if coin then Black else White) else Empty,
         g.difficulty)
  }

  /** The constructor: local mode, medium difficulty, then `initializeBoard`. */
  function NewGame(): (r: Game)
    ensures r.board == Opening() && r.turn == Black && !r.gameOver
    ensures r.mode == Engine.Local && r.difficulty == Engine.Medium && r.aiColor == Empty
  {
    InitializeBoard(Game(Opening(), Black, false, Engine.Local, Empty, Engine.Medium), false)
  }

  /** `getPiecesToFlip(x, y, player)`: nothing off the board or on an occupied
      cell; otherwise cells that all hold the opponent, each listed once. */
  function GetPiecesToFlip(g: Game, x: int, y: int, player: int): (r: seq<Pos>)
    ensures !InBounds(x, y) || At(g.board, x, y) != Empty ==> r == []
  {
    Flips(g.board, x, y, player)
  }

  /** What `getPiecesToFlip` returns, in terms of the board alone. */
  lemma GetPiecesToFlipSpec(g: Game, x: int, y: int, player: int)
    ensures var r := GetPiecesToFlip(g, x, y, player);
      && (forall p :: p in r ==> PosInBounds(p) && AtPos(g.board, p) == Opponent(player))
      && Distinct(r)
      && Pos(y, x) !in r
  {
    FlipsCells(g.board, x, y, player);
    FlipsDistinct(g.board, x, y, player);
  }

  /** `placePieceAndFlip(x, y)`: on an illegal target nothing changes and the
      result is false; otherwise the target and exactly the flips become the
      mover's, and nothing else changes. */
  function PlacePieceAndFlip(g: Game, x: int, y: int): (r: (bool, Game))
    ensures r.0 <==> IsLegal(g.board, x, y, g.turn)
    ensures !r.0 ==> r.1 == g
    ensures r.0 ==> r.1 == g.(board := r.1.board)
    ensures r.0 ==> forall cx, cy :: InBounds(cx, cy) ==>
      At(r.1.board, cx, cy) ==
        if (cx == x && cy == y) || Pos(cy, cx) in Flips(g.board, x, y, g.turn) then g.turn
        else At(g.board, cx, cy)
  {
    match Place(g.board, x, y, g.turn)
    case None => (false, g)
    case Some(b) => (true, g.(board := b))
  }

  /** `getValidMoves`: exactly the legal cells for the side to move, in
      row-major order. */
  function GetValidMoves(g: Game): (moves: seq<Move>)
    ensures forall mv :: mv in moves <==> IsLegal(g.board, mv.x, mv.y, g.turn)
    ensures RowMajor(moves)
  {
    ValidMovesSpec(g.board, g.turn);
    ValidMoves(g.board, g.turn)
  }

  /** `switchTurn`: 1 becomes 2, anything else 1; nothing else changes. */
  function SwitchTurn(g: Game): (r: Game)
    ensures r.turn == (if g.turn == Black then White else Black)
    ensures r.(turn := g.turn) == g
  {
    g.(turn := Opponent(g.turn))
  }

  /** `getScore(player)`: the nested counting loops. */
  method GetScore(g: Game, player: int) returns (count: nat)
    ensures count == Count(g.board, player)
  {
    count := Engine.GetScore(g.board, player);
  }

  // ---------------------------------------------------------------------------
  // Agreement with the newer engine
  // ---------------------------------------------------------------------------

  /** Every operation the two engines share computes the same thing. The
      older board code (`getPiecesToFlip` at `GameModel.java:64-90` and the
      loops around it) reads line for line as the newer engine's, so both are
      defined over the one `Board` model: the agreement rests on that shared
      definition, and this lemma only confirms that the older engine's own
      wrappers around it line up with the newer engine's. */
  lemma AgreesWithEngine(g: Game, x: int, y: int, coin: bool)
    ensures AsModel(InitializeBoard(g, coin)) == Engine.InitializeBoard(AsModel(g), coin)
    ensures PlacePieceAndFlip(g, x, y).0 == Engine.PlacePieceAndFlip(AsModel(g), x, y).0
    ensures AsModel(PlacePieceAndFlip(g, x, y).1) == Engine.PlacePieceAndFlip(AsModel(g), x, y).1
    ensures GetValidMoves(g) == Engine.GetValidMoves(AsModel(g))
    ensures AsModel(SwitchTurn(g)) == Engine.SwitchTurn(AsModel(g))
  {
  }

  /** The two legal-move lists coincide; stated alone so that callers need
      not carry the rest of the agreement. */
  lemma ValidMovesAgree(g: Game)
    ensures GetValidMoves(g) == Engine.GetValidMoves(AsModel(g))
  {
  }

  // ---------------------------------------------------------------------------
  // Reachable boards
  // ---------------------------------------------------------------------------

  /** The calls a view makes on the engine. */
  datatype Call = Initialize(coin: bool) | Play(x: int, y: int) | Switch | SetGameOver(over: bool)

  function Apply(g: Game, c: Call): Game {
    match c
    case Initialize(coin) => InitializeBoard(g, coin)
    case Play(x, y) => PlacePieceAndFlip(g, x, y).1
    case Switch => SwitchTurn(g)
    case SetGameOver(over) => g.(gameOver := over)
  }

  function Run(g: Game, calls: seq<Call>): Game
    decreases |calls|
  {
    if |calls| == 0 then g else Run(Apply(g, calls[0]), calls[1..])
  }

  /** Cells hold 0, 1 or 2 and the turn is Black or White. */
  predicate Sane(g: Game) {
    WellFormed(g.board) && (g.turn == Black || g.turn == White)
  }

  lemma ApplyKeepsSane(g: Game, c: Call)
    requires Sane(g)
    ensures Sane(Apply(g, c))
  {
    match c
    case Initialize(_) => OpeningCells();
    case Play(x, y) =>
      if Place(g.board, x, y, g.turn).Some? {
        PlaceWellFormed(g.board, x, y, g.turn);
      }
    case Switch =>
    case SetGameOver(_) =>
  }

  lemma {:induction false} RunKeepsSane(g: Game, calls: seq<Call>)
    requires Sane(g)
    ensures Sane(Run(g, calls))
    decreases |calls|
  {
    if |calls| > 0 {
      ApplyKeepsSane(g, calls[0]);
      RunKeepsSane(Apply(g, calls[0]), calls[1..]);
    }
  }

  /** On every board reachable from a new game, `getScore(1) + getScore(2)`
      plus the empty cells is 64. */
  lemma ReachableScoreSum(calls: seq<Call>)
    ensures var b := Run(NewGame(), calls).board;
      Count(b, Black) + Count(b, White) + Count(b, Empty) == 64
  {
    OpeningCells();
    RunKeepsSane(NewGame(), calls);
    Engine.ScoreSum(Run(NewGame(), calls).board);
  }
}

=== FILE: login.dfy ===
// The input checks of `ui/LoginView.java` in front of the database: the order
// in which `handleLogin` and `handleRegister` reject their input. The database
// answers (connected, user found, id taken, insert succeeded) are parameters;
// the alerts are the outcome values.

module Login {

  /** The alert `handleLogin` ends with. */
  datatype LoginOutcome = MissingInput | LoginOffline | BadCredentials | LoggedIn

  /** `handleLogin(userId, password)` with the raw field texts; `found` is
      whether `loginUser` returns a user. */
  function HandleLogin(userId: string, password: string, connected: bool, found: bool): (o: LoginOutcome)
    ensures o == MissingInput <==> userId == "" || password == ""
    ensures o == LoginOffline <==> userId != "" && password != "" && !connected
    ensures o == LoggedIn <==> userId != "" && password != "" && connected && found
  {
    if userId == "" || password == "" then MissingInput
    else if !connected then LoginOffline
    else if found then LoggedIn
    else BadCredentials
  }

  /** Whether `loginUser` is called on the way to this outcome. */
  predicate QueriedUser(o: LoginOutcome) {
    o == BadCredentials || o == LoggedIn
  }

  /** The credentials reach the database only when both are filled in and the
      database is connected, whatever it would answer. */
  lemma LoginQueriesOnlyValidInput(userId: string, password: string, connected: bool, found: bool)
    ensures QueriedUser(HandleLogin(userId, password, connected, found)) <==>
      userId != "" && password != "" && connected
  {
  }

  /** The alert `handleRegister` ends with. */
  datatype RegisterOutcome =
    | EmptyField | Mismatch | ShortId | ShortPassword | RegisterOffline | IdTaken | Registered | RegisterFailed

  const MinIdLength: nat := 3
  const MinPasswordLength: nat := 4

  /** The checks of `handleRegister`, in source order. */
  predicate AnyEmpty(userId: string, password: string, confirm: string) {
    userId == "" || password == "" || confirm == ""
  }

  predicate InputAccepted(userId: string, password: string, confirm: string) {
    !AnyEmpty(userId, password, confirm) && password == confirm
    && |userId| >= MinIdLength && |password| >= MinPasswordLength
  }

  /** `handleRegister(userId, password, passwordConfirm)`; `idExists` is the
      answer of `isUserIdExists`, `inserted` that of `registerUser`. */
  function HandleRegister(userId: string, password: string, confirm: string,
                          connected: bool, idExists: bool, inserted: bool): (o: RegisterOutcome)
    ensures AnyEmpty(userId, password, confirm) ==> o == EmptyField
    ensures !AnyEmpty(userId, password, confirm) && password != confirm ==> o == Mismatch
    ensures o == ShortId ==> password == confirm && |userId| < MinIdLength
    ensures o == ShortPassword ==> |userId| >= MinIdLength && |password| < MinPasswordLength
    ensures o in {RegisterOffline, IdTaken, Registered, RegisterFailed} ==> InputAccepted(userId, password, confirm)
  {
    if AnyEmpty(userId, password, confirm) then EmptyField
    else if password != confirm then Mismatch
    else if |userId| < MinIdLength then ShortId
    else if |password| < MinPasswordLength then ShortPassword
    else if !connected then RegisterOffline
    else if idExists then IdTaken
    else if inserted then Registered
    else RegisterFailed
  }

  /** Whether `registerUser` is called on the way to this outcome. */
  predicate Inserts(o: RegisterOutcome) {
    o == Registered || o == RegisterFailed
  }

  /** `registerUser` is reached exactly when every input check passes, the
      database is connected and the id is free. */
  lemma RegisterReachedIff(userId: string, password: string, confirm: string,
                           connected: bool, idExists: bool, inserted: bool)
    ensures Inserts(HandleRegister(userId, password, confirm, connected, idExists, inserted)) <==>
      InputAccepted(userId, password, confirm) && connected && !idExists
  {
  }

  /** A mismatch is reported before the length rules: short but different
      passwords are a mismatch, not a length error. */
  lemma MismatchBeforeLength(userId: string, password: string, confirm: string,
                             connected: bool, idExists: bool, inserted: bool)
    requires userId != "" && password != "" && confirm != "" && password != confirm
    ensures HandleRegister(userId, password, confirm, connected, idExists, inserted) == Mismatch
  {
  }

  /** The input checks alone decide every rejection before the database is
      consulted: two database states give the same outcome on bad input. */
  lemma InputRejectionIgnoresDatabase(userId: string, password: string, confirm: string,
                                      c1: bool, e1: bool, i1: bool, c2: bool, e2: bool, i2: bool)
    requires !InputAccepted(userId, password, confirm)
    ensures HandleRegister(userId, password, confirm, c1, e1, i1) ==
            HandleRegister(userId, password, confirm, c2, e2, i2)
  {
  }
}

=== FILE: main_controller.dfy ===
// The older single-window controller `Main.java`, which drives the older
// engine. Its turn logic is the one of `ui/GameView.java`; the lemmas show
// where the two controllers agree and the two places they differ (a click
// before a colour is assigned, and an unknown colour name).

module MainController {
  import opened Board
  import Engine
  import LegacyEngine
  import GameView
  import ClientSession

  datatype Screen = Screen(g: LegacyEngine.Game, myColor: int)

  /** `checkPassConditions` over the older engine. */
  function CheckPassConditions(g: LegacyEngine.Game): (r: LegacyEngine.Game)
    ensures r.board == g.board && r.mode == g.mode
    ensures r.gameOver ==> g.gameOver || LegacyEngine.GetValidMoves(g) == []
  {
    if LegacyEngine.GetValidMoves(g) != [] then g
    else
      var s := LegacyEngine.SwitchTurn(g);
      if LegacyEngine.GetValidMoves(s) == [] then s.(gameOver := true) else s
  }

  /** `updateGameViewAfterMove`: switch, then check for a pass. */
  function AfterMove(g: LegacyEngine.Game): (r: LegacyEngine.Game)
    ensures r.board == g.board && r.mode == g.mode
  {
    CheckPassConditions(LegacyEngine.SwitchTurn(g))
  }

  /** The pass check is the same as the newer controller's. */
  lemma PassAgrees(g: LegacyEngine.Game)
    ensures LegacyEngine.AsModel(CheckPassConditions(g)) == GameView.CheckPassConditions(LegacyEngine.AsModel(g))
  {
    LegacyEngine.ValidMovesAgree(g);
    LegacyEngine.ValidMovesAgree(LegacyEngine.SwitchTurn(g));
  }

  /** So is the whole sequence after a move. */
  lemma AfterMoveAgrees(g: LegacyEngine.Game)
    ensures LegacyEngine.AsModel(AfterMove(g)) == GameView.AfterMove(LegacyEngine.AsModel(g))
  {
    PassAgrees(LegacyEngine.SwitchTurn(g));
  }

  /** After a move the opponent moves if it can, else the mover again if it
      can, else the game is over; the side to move can always move unless the
      game is over. */
  lemma AfterMoveSpec(g: LegacyEngine.Game)
    requires g.turn == Black || g.turn == White
    ensures var r := AfterMove(g); var o := Opponent(g.turn);
      && (GameView.CanMove(g.board, o) ==> r.turn == o && r.gameOver == g.gameOver)
      && (!GameView.CanMove(g.board, o) && GameView.CanMove(g.board, g.turn) ==>
            r.turn == g.turn && r.gameOver == g.gameOver)
      && (!GameView.CanMove(g.board, o) && !GameView.CanMove(g.board, g.turn) ==>
            r.turn == g.turn && r.gameOver)
      && (r.gameOver || GameView.CanMove(r.board, r.turn))
  {
    AfterMoveAgrees(g);
    GameView.AfterMoveSpec(LegacyEngine.AsModel(g));
    GameView.AfterMoveProgress(LegacyEngine.AsModel(g));
  }

  /** `handleTileClick(x, y)`: the game-over gate, the AI-turn gate, and
      online the colour gate, which also refuses clicks before a colour is
      assigned; then the move. */
  function HandleTileClick(s: Screen, x: int, y: int): (r: (GameView.Click, Screen, seq<string>))
    ensures r.0 == GameView.Moved <==>
      && !s.g.gameOver
      && !(s.g.mode == Engine.AI && s.g.turn == s.g.aiColor)
      && !(s.g.mode == Engine.Online && (s.myColor == 0 || s.g.turn != s.myColor))
      && IsLegal(s.g.board, x, y, s.g.turn)
    ensures r.0 != GameView.Moved ==> r.1 == s && r.2 == []
    ensures r.0 == GameView.Moved ==>
      r.1 == s.(g := AfterMove(s.g.(board := Place(s.g.board, x, y, s.g.turn).value)))
    ensures r.0 == GameView.Moved && s.g.mode == Engine.Online ==> r.2 == [ClientSession.EncodeMove(x, y)]
  {
    if s.g.gameOver then (GameView.GameOverAlert, s, [])
    else if s.g.mode == Engine.AI && s.g.turn == s.g.aiColor then (GameView.AIToMove, s, [])
    else if s.g.mode == Engine.Online && (s.myColor == 0 || s.g.turn != s.myColor) then (GameView.NotMyTurn, s, [])
    else
      var (flipped, placed) := LegacyEngine.PlacePieceAndFlip(s.g, x, y);
      if !flipped then (GameView.InvalidMove, s, [])
      else
        var sent := if s.g.mode == Engine.Online then [ClientSession.EncodeMove(x, y)] else [];
        (GameView.Moved, s.(g := AfterMove(placed)), sent)
  }

  /** The extra `myColor == 0` test changes nothing while the turn is Black or
      White: both controllers accept the same clicks, reach the same game and
      send the same lines. */
  lemma ClickAgrees(s: Screen, v: GameView.View, x: int, y: int)
    requires s.g.turn == Black || s.g.turn == White
    requires v.m == LegacyEngine.AsModel(s.g) && v.myColor == s.myColor
    ensures HandleTileClick(s, x, y).0 == GameView.HandleTileClick(v, x, y).0
    ensures LegacyEngine.AsModel(HandleTileClick(s, x, y).1.g) == GameView.HandleTileClick(v, x, y).1.m
    ensures HandleTileClick(s, x, y).2 == GameView.HandleTileClick(v, x, y).2
  {
    if !s.g.gameOver && !(s.g.mode == Engine.AI && s.g.turn == s.g.aiColor)
       && !(s.g.mode == Engine.Online && s.g.turn != s.myColor)
       && IsLegal(s.g.board, x, y, s.g.turn) {
      AfterMoveAgrees(s.g.(board := Place(s.g.board, x, y, s.g.turn).value));
    }
  }

  /** `processOpponentMove(x, y)`: an illegal move is ignored silently. */
  function ProcessOpponentMove(s: Screen, x: int, y: int): (r: Screen)
    ensures !IsLegal(s.g.board, x, y, s.g.turn) ==> r == s
    ensures IsLegal(s.g.board, x, y, s.g.turn) ==>
      r == s.(g := AfterMove(s.g.(board := Place(s.g.board, x, y, s.g.turn).value)))
  {
    var (flipped, placed) := LegacyEngine.PlacePieceAndFlip(s.g, x, y);
    if flipped then s.(g := AfterMove(placed)) else s
  }

  /** `setPlayerColor(color)`: a fresh board; "BLACK" is 1 and every other
      text is 2. */
  function SetPlayerColor(s: Screen, color: string, coin: bool): (r: Screen)
    ensures r.g == LegacyEngine.InitializeBoard(s.g, coin)
    ensures r.myColor == Black <==> color == "BLACK"
    ensures r.myColor == White <==> color != "BLACK"
  {
    Screen(LegacyEngine.InitializeBoard(s.g, coin), if color == "BLACK" then Black else White)
  }

  /** On the two names the server sends, both controllers assign the same
      colour; on any other name this one picks White while the newer one keeps
      its previous colour. */
  lemma SetPlayerColorAgrees(s: Screen, v: GameView.View, color: string, coin: bool)
    ensures color == "BLACK" || color == "WHITE" ==>
      SetPlayerColor(s, color, coin).myColor == GameView.SetPlayerColor(v, color, coin).myColor
    ensures color != "BLACK" && color != "WHITE" ==>
      SetPlayerColor(s, color, coin).myColor == White
      && GameView.SetPlayerColor(v, color, coin).myColor == v.myColor
  {
  }

  /** `getWinnerMessage`: the leader with both counts, leader first. */
  datatype Verdict = BlackWins(black: nat, white: nat) | WhiteWins(white: nat, black: nat) | Draw

  function GetWinnerMessage(g: LegacyEngine.Game): (r: Verdict)
    ensures r.BlackWins? ==> r.black > r.white
    ensures r.WhiteWins? ==> r.white > r.black
    ensures r.Draw? ==> Count(g.board, Black) == Count(g.board, White)
    ensures !r.Draw? ==> r.black == Count(g.board, Black) && r.white == Count(g.board, White)
  {
    var black := Count(g.board, Black);
    var white := Count(g.board, White);
    if black > white then BlackWins(black, white)
    else if white > black then WhiteWins(white, black)
    else Draw
  }

  /** Both controllers name the same winner. */
  lemma WinnerAgrees(g: LegacyEngine.Game)
    ensures GetWinnerMessage(g).BlackWins? <==> GameView.GetWinnerMessage(LegacyEngine.AsModel(g)).BlackWins?
    ensures GetWinnerMessage(g).WhiteWins? <==> GameView.GetWinnerMessage(LegacyEngine.AsModel(g)).WhiteWins?
    ensures GetWinnerMessage(g).Draw? <==> GameView.GetWinnerMessage(LegacyEngine.AsModel(g)).Draw?
  {
  }
}

=== FILE: memory_game.dfy ===
// The card-pair memory minigame of `minigame/games/memory/MemoryGame.java`:
// dealing, the click gate, the pair check, the countdown, reset, and the JSON
// snapshot a spectator applies. Card buttons become `Card` values whose face is
// the style class (`MemoryGameView.updateCardStyle`); the 800 ms pause before a
// pair check and the one-second timer become the events `CheckMatch` and
// `Tick`; `java.util.Random` becomes an oracle for `Collections.shuffle`.

module MemoryGame {
  import opened Wrappers
  import opened JavaText
  import MemoryJson
  import MinigameBase

  const GridSize: nat := 4
  const TotalPairs: nat := 8
  const TimeLimit: int := 30

  /** The style of a card: `memory-card-back`, `-front` or `-matched`. */
  datatype Face = Down | Up | Matched

  datatype Card = Card(value: int, face: Face)

  /** `updateCardStyle(card, flipped, matched)`: matched wins over flipped. */
  function Style(flipped: bool, matched: bool): (f: Face)
    ensures f == Matched <==> matched
    ensures f == Down <==> !flipped && !matched
  {
    if matched then Matched else if flipped then Up else Down
  }

  datatype Memory = Memory(
    cards: seq<Card>,
    first: Option<nat>,         // `firstCard`, as an index into `cards`
    second: Option<nat>,        // `secondCard`
    checking: bool,             // `isChecking`
    pendingCheck: bool,         // the pause that will run `checkMatch`
    started: bool,              // `gameStarted`
    gameOver: bool,
    success: bool,
    pairsFound: int,
    timeRemaining: int)

  // ---------------------------------------------------------------------------
  // Dealing
  // ---------------------------------------------------------------------------

  /** The values 1, 1, 2, 2, ..., n, n. */
  function PairValues(n: nat): (r: seq<int>)
    ensures |r| == 2 * n
  {
    if n == 0 then [] else PairValues(n - 1) + [n, n]
  }

  lemma {:induction false} PairValuesCount(n: nat, v: int)
    ensures multiset(PairValues(n))[v] == if 1 <= v <= n then 2 else 0
  {
    if n > 0 {
      PairValuesCount(n - 1, v);
      var prev := PairValues(n - 1);
      assert PairValues(n) == prev + [n, n];
      assert multiset(prev + [n, n]) == multiset(prev) + multiset{n, n};
    }
  }

  function Swap(s: seq<int>, i: nat, j: nat): (r: seq<int>)
    requires i < |s| && j < |s|
    ensures |r| == |s| && multiset(r) == multiset(s)
  {
    s[i := s[j]][j := s[i]]
  }

  /** `Collections.shuffle(list, rnd)` from index `i` down: position `i - 1`
      swaps with `rnd.nextInt(i)`, here `rnd(i) % i`. */
  function ShuffleFrom(s: seq<int>, i: nat, rnd: nat -> nat): (r: seq<int>)
    requires i <= |s|
    ensures |r| == |s| && multiset(r) == multiset(s)
    decreases i
  {
    if i <= 1 then s else ShuffleFrom(Swap(s, i - 1, rnd(i) % i), i - 1, rnd)
  }

  function Shuffle(s: seq<int>, rnd: nat -> nat): (r: seq<int>)
    ensures |r| == |s| && multiset(r) == multiset(s)
  {
    ShuffleFrom(s, |s|, rnd)
  }

  function Values(cs: seq<Card>): (vs: seq<int>)
    ensures |vs| == |cs| && forall k :: 0 <= k < |cs| ==> vs[k] == cs[k].value
  {
    seq(|cs|, k requires 0 <= k < |cs| => cs[k].value)
  }

  /** `initializeCards`: the sixteen shuffled values on face-down cards. */
  function Deal(rnd: nat -> nat): (cs: seq<Card>)
    ensures |cs| == 2 * TotalPairs
    ensures forall k :: 0 <= k < |cs| ==> cs[k].face == Down
    ensures multiset(Values(cs)) == multiset(PairValues(TotalPairs))
  {
    FaceDown(Shuffle(PairValues(TotalPairs), rnd))
  }

  /** Face-down cards carrying the given values. */
  function FaceDown(vs: seq<int>): (cs: seq<Card>)
    ensures Values(cs) == vs
    ensures forall k :: 0 <= k < |cs| ==> cs[k].face == Down
  {
    var cs := seq(|vs|, k requires 0 <= k < |vs| => Card(vs[k], Down));
    assert Values(cs) == vs;
    cs
  }

  /** `showAllCards`: every card face up, none matched. */
  function ShowAll(cs: seq<Card>): (r: seq<Card>)
    ensures |r| == |cs| && Values(r) == Values(cs)
    ensures forall k :: 0 <= k < |r| ==> r[k].face == Up
  {
    seq(|cs|, k requires 0 <= k < |cs| => Card(cs[k].value, Up))
  }

  /** Each value 1..n occurs exactly twice in `vs`, and no other value. */
  ghost predicate EachTwice(vs: seq<int>, n: nat) {
    forall v :: multiset(vs)[v] == if 1 <= v <= n then 2 else 0
  }

  lemma PairValuesEachTwice(n: nat)
    ensures EachTwice(PairValues(n), n)
  {
    forall v
      ensures multiset(PairValues(n))[v] == if 1 <= v <= n then 2 else 0
    {
      PairValuesCount(n, v);
    }
  }

  /** Every deal has sixteen cards and every value 1..8 exactly twice. */
  lemma DealPairs(rnd: nat -> nat)
    ensures |Deal(rnd)| == GridSize * GridSize
    ensures EachTwice(Values(Deal(rnd)), TotalPairs)
  {
    ShuffledPairs(TotalPairs, rnd);
  }

  /** A shuffle keeps each value 1..n exactly twice. */
  lemma ShuffledPairs(n: nat, rnd: nat -> nat)
    ensures EachTwice(Shuffle(PairValues(n), rnd), n)
  {
    PairValuesEachTwice(n);
  }

  /** `startPlayerMode`: a fresh deal shown face up, before the start button
      is pressed. */
  function Open(rnd: nat -> nat): (m: Memory)
    ensures Inv(m) && !m.started && !m.gameOver && m.pairsFound == 0 && m.timeRemaining == TimeLimit
  {
    var cards := ShowAll(Deal(rnd));
    DealPairs(rnd);
    OpeningInv(cards);
    Memory(cards, None, None, false, false, false, false, false, 0, TimeLimit)
  }

  lemma OpeningInv(cards: seq<Card>)
    requires |cards| == GridSize * GridSize && EachTwice(Values(cards), TotalPairs)
    requires forall k :: 0 <= k < |cards| ==> cards[k].face == Up
    ensures Inv(Memory(cards, None, None, false, false, false, false, false, 0, TimeLimit))
  {
    NoneMatched(cards);
  }

  /** `resetGame`: everything back to the opening values and a new deal shown
      face up. A pause still pending would run `checkMatch` on the cleared
      selection and fail before changing anything, so none is left pending. */
  function Reset(m: Memory, rnd: nat -> nat): (r: Memory)
    ensures Inv(r)
    ensures r.pairsFound == 0 && r.timeRemaining == TimeLimit
    ensures !r.started && !r.gameOver && !r.success && !r.checking
    ensures r.first.None? && r.second.None?
  {
    Open(rnd)
  }

  // ---------------------------------------------------------------------------
  // Play
  // ---------------------------------------------------------------------------

  /** `startGame`, bound to the start button, which is hidden once pressed:
      unmatched cards turn face down and the countdown starts. */
  function StartGame(m: Memory): (r: Memory)
    requires !m.started
    ensures r.started && |r.cards| == |m.cards| && Values(r.cards) == Values(m.cards)
    ensures forall k :: 0 <= k < |m.cards| ==>
      r.cards[k].face == (if m.cards[k].face == Matched then Matched else Down)
    ensures r.(started := m.started, cards := m.cards) == m
  {
    m.(started := true,
       cards := seq(|m.cards|, k requires 0 <= k < |m.cards| =>
         if m.cards[k].face == Matched then m.cards[k] else m.cards[k].(face := Down)))
  }

  /** The click gate: started, not over, no check pending, and the card face
      down. */
  predicate Clickable(m: Memory, i: nat) {
    i < |m.cards| && m.started && !m.gameOver && !m.checking && m.cards[i].face == Down
  }

  /** `onCardClick`: a clickable card turns face up and becomes the first or
      the second selected card; the second starts the pause before the
      check. */
  function Click(m: Memory, i: nat): (r: Memory)
    ensures !Clickable(m, i) ==> r == m
    ensures Clickable(m, i) ==>
      && r.cards == m.cards[i := Card(m.cards[i].value, Up)]
      && (m.first.None? ==> r == m.(cards := r.cards, first := Some(i)))
      && (m.first.Some? && m.second.None? ==>
            r == m.(cards := r.cards, second := Some(i), checking := true, pendingCheck := true))
  {
    if !Clickable(m, i) then m
    else
      var m1 := m.(cards := m.cards[i := Card(m.cards[i].value, Up)]);
      if m.first.None? then m1.(first := Some(i))
      else if m.second.None? then m1.(second := Some(i), checking := true, pendingCheck := true)
      else m1
  }

  /** The pause after a second card has elapsed and `checkMatch` is due. */
  predicate CheckDue(m: Memory) {
    && m.pendingCheck && m.first.Some? && m.second.Some?
    && m.first.value < |m.cards| && m.second.value < |m.cards|
  }

  /** `finishGame`: the game is over and the countdown stops. */
  function Finish(m: Memory): (r: Memory)
    ensures r.gameOver && r.(gameOver := m.gameOver) == m
  {
    m.(gameOver := true)
  }

  function ClearSelection(m: Memory): (r: Memory)
    ensures r.first.None? && r.second.None? && !r.checking
  {
    m.(first := None, second := None, checking := false)
  }

  /** `checkMatch`: an equal pair is matched and counted, and the eighth pair
      wins and ends the game with the selection left in place; an unequal
      pair turns face down again; otherwise the selection is cleared. */
  function CheckMatch(m: Memory): (r: Memory)
    requires CheckDue(m)
    ensures !r.pendingCheck && |r.cards| == |m.cards| && Values(r.cards) == Values(m.cards)
    ensures var a, b := m.first.value, m.second.value;
      && (forall k :: 0 <= k < |m.cards| && k != a && k != b ==> r.cards[k] == m.cards[k])
      && (m.cards[a].value == m.cards[b].value ==>
            && r.cards[a].face == Matched && r.cards[b].face == Matched
            && r.pairsFound == m.pairsFound + 1
            && (r.success <==> m.success || m.pairsFound + 1 == TotalPairs))
      && (m.cards[a].value != m.cards[b].value ==>
            && r.cards[a].face == Down && r.cards[b].face == Down
            && r.pairsFound == m.pairsFound && r.success == m.success)
    ensures var won := m.cards[m.first.value].value == m.cards[m.second.value].value
                       && m.pairsFound + 1 == TotalPairs;
      && (won ==> r.gameOver && r.first == m.first && r.second == m.second)
      && (!won ==> r.first.None? && r.second.None? && !r.checking)
    ensures r.timeRemaining == m.timeRemaining && r.started == m.started
  {
    var a, b := m.first.value, m.second.value;
    var m0 := m.(pendingCheck := false);
    if m.cards[a].value == m.cards[b].value then
      var m1 := m0.(cards := TurnPair(m.cards, a, b, Matched), pairsFound := m.pairsFound + 1);
      if m1.pairsFound == TotalPairs then Finish(m1.(success := true))
      else ClearSelection(m1)
    else
      ClearSelection(m0.(cards := TurnPair(m.cards, a, b, Down)))
  }

  /** Cards `a` and `b` restyled to `face`, values kept. */
  function TurnPair(cs: seq<Card>, a: nat, b: nat, face: Face): (r: seq<Card>)
    requires a < |cs| && b < |cs|
    ensures |r| == |cs| && Values(r) == Values(cs)
    ensures r[a].face == face && r[b].face == face
    ensures forall k :: 0 <= k < |cs| && k != a && k != b ==> r[k] == cs[k]
  {
    var r := cs[a := Card(cs[a].value, face)][b := Card(cs[b].value, face)];
    assert Values(r) == Values(cs);
    r
  }

  /** The countdown runs from `startGame` until `finishGame` or `resetGame`. */
  predicate TimerRunning(m: Memory) {
    m.started && !m.gameOver
  }

  /** One timer tick: a second less, and the game finishes at zero or below. */
  function Tick(m: Memory): (r: Memory)
    ensures !TimerRunning(m) ==> r == m
    ensures TimerRunning(m) ==>
      && r.timeRemaining == m.timeRemaining - 1
      && (r.gameOver <==> r.timeRemaining <= 0)
      && r.(timeRemaining := m.timeRemaining, gameOver := m.gameOver) == m
  {
    if !TimerRunning(m) then m
    else
      var m1 := m.(timeRemaining := m.timeRemaining - 1);
      if m1.timeRemaining <= 0 then Finish(m1) else m1
  }

  function Ticks(m: Memory, n: nat): Memory {
    if n == 0 then m else Tick(Ticks(m, n - 1))
  }

  /** Left alone, a running game with `t` seconds on the clock is still on
      after fewer than `t` ticks and over after exactly `t`, at zero. */
  lemma {:induction false} TicksToTimeout(m: Memory, n: nat)
    requires TimerRunning(m) && m.timeRemaining >= 1 && n <= m.timeRemaining
    ensures Ticks(m, n).timeRemaining == m.timeRemaining - n
    ensures Ticks(m, n).gameOver <==> n == m.timeRemaining
    ensures Ticks(m, n).(timeRemaining := m.timeRemaining, gameOver := m.gameOver) == m
  {
    if n > 0 {
      TicksToTimeout(m, n - 1);
    }
  }

  /** What `finishGame` hands to the callback three seconds later, if there
      is one: success, pairs found, elapsed seconds (a clock reading), MEMORY. */
  function Report(m: Memory, elapsed: int, hasCallback: bool): (r: Option<MinigameBase.Result>)
    ensures r.Some? <==> hasCallback
    ensures r.Some? ==>
      && r.value.kind == MinigameBase.Memory && r.value.success == m.success
      && r.value.score == m.pairsFound && r.value.elapsed == elapsed
  {
    if hasCallback then Some(MinigameBase.Result(m.success, m.pairsFound, elapsed, MinigameBase.Memory)) else None
  }

  /** `getType`. */
  function Kind(): (k: MinigameBase.Kind)
    ensures k == MinigameBase.Memory
  {
    MinigameBase.Memory
  }

  // ---------------------------------------------------------------------------
  // The invariant of a player's game
  // ---------------------------------------------------------------------------

  function MatchedCount(cs: seq<Card>): (n: nat)
    ensures n <= |cs|
  {
    if |cs| == 0 then 0
    else MatchedCount(cs[..|cs| - 1]) + (if cs[|cs| - 1].face == Matched then 1 else 0)
  }

  function MatchedBit(c: Card): nat {
    if c.face == Matched then 1 else 0
  }

  lemma {:induction false} MatchedCountUpdate(cs: seq<Card>, i: nat, c: Card)
    requires i < |cs|
    ensures MatchedCount(cs[i := c]) == MatchedCount(cs) - MatchedBit(cs[i]) + MatchedBit(c)
  {
    var last := |cs| - 1;
    if i < last {
      MatchedCountUpdate(cs[..last], i, c);
      assert cs[i := c][..last] == cs[..last][i := c];
    } else {
      assert cs[i := c][..last] == cs[..last];
    }
  }

  /** Two hands whose cards agree on being matched have equal counts. */
  lemma {:induction false} MatchedCountSame(a: seq<Card>, b: seq<Card>)
    requires |a| == |b|
    requires forall k :: 0 <= k < |a| ==> (a[k].face == Matched) == (b[k].face == Matched)
    ensures MatchedCount(a) == MatchedCount(b)
  {
    if |a| > 0 {
      MatchedCountSame(a[..|a| - 1], b[..|b| - 1]);
    }
  }

  lemma NoneMatched(cs: seq<Card>)
    requires forall k :: 0 <= k < |cs| ==> cs[k].face != Matched
    ensures MatchedCount(cs) == 0
  {
    MatchedCountSame(cs, seq(|cs|, k requires 0 <= k < |cs| => Card(0, Up)));
    ZeroWhenNoneMatched(|cs|);
  }

  lemma {:induction false} ZeroWhenNoneMatched(n: nat)
    ensures MatchedCount(seq(n, k requires 0 <= k < n => Card(0, Up))) == 0
  {
    if n > 0 {
      var s := seq(n, k requires 0 <= k < n => Card(0, Up));
      ZeroWhenNoneMatched(n - 1);
      assert s[..n - 1] == seq(n - 1, k requires 0 <= k < n - 1 => Card(0, Up));
    }
  }

  /** A hand whose every card counts as matched is all matched. */
  lemma {:induction false} AllMatched(cs: seq<Card>)
    requires MatchedCount(cs) == |cs|
    ensures forall k :: 0 <= k < |cs| ==> cs[k].face == Matched
  {
    if |cs| > 0 {
      AllMatched(cs[..|cs| - 1]);
      assert forall k :: 0 <= k < |cs| - 1 ==> cs[k] == cs[..|cs| - 1][k];
    }
  }

  /** What a player's game keeps true: sixteen cards holding the dealt
      values; two matched cards per pair found; success only with all eight
      pairs and the game over; the selection made of distinct face-up cards,
      a second card only while checking, and a check due exactly while a
      second card is selected and the game not yet won. */
  ghost predicate Inv(m: Memory) {
    && |m.cards| == GridSize * GridSize
    && EachTwice(Values(m.cards), TotalPairs)
    && 0 <= m.pairsFound && 2 * m.pairsFound == MatchedCount(m.cards)
    && (m.success ==> m.pairsFound == TotalPairs && m.gameOver)
    && (!m.started ==> m.first.None? && !m.checking && !m.gameOver)
    && (m.second.Some? <==> m.checking)
    && (m.second.Some? ==> m.first.Some?)
    && (m.pendingCheck <==> m.second.Some? && !m.success)
    && (m.first.Some? ==> m.first.value < |m.cards|)
    && (m.second.Some? ==> m.second.value < |m.cards| && m.second.value != m.first.value)
    && (!m.success && m.first.Some? ==> m.cards[m.first.value].face == Up)
    && (!m.success && m.second.Some? ==> m.cards[m.second.value].face == Up)
  }

  lemma StartPreservesInv(m: Memory)
    requires Inv(m) && !m.started
    ensures Inv(StartGame(m))
  {
    var r := StartGame(m);
    MatchedCountSame(m.cards, r.cards);
  }

  lemma ClickPreservesInv(m: Memory, i: nat)
    requires Inv(m)
    ensures Inv(Click(m, i))
  {
    if Clickable(m, i) {
      var r := Click(m, i);
      MatchedCountUpdate(m.cards, i, Card(m.cards[i].value, Up));
      assert Values(r.cards) == Values(m.cards);
    }
  }

  lemma CheckPreservesInv(m: Memory)
    requires Inv(m) && CheckDue(m)
    ensures Inv(CheckMatch(m))
  {
    var a, b := m.first.value, m.second.value;
    var r := CheckMatch(m);
    var face := if m.cards[a].value == m.cards[b].value then Matched else Down;
    var c1 := m.cards[a := Card(m.cards[a].value, face)];
    MatchedCountUpdate(m.cards, a, Card(m.cards[a].value, face));
    MatchedCountUpdate(c1, b, Card(m.cards[b].value, face));
    assert r.cards == c1[b := Card(m.cards[b].value, face)];
  }

  lemma TickPreservesInv(m: Memory)
    requires Inv(m)
    ensures Inv(Tick(m))
  {
  }

  /** At most eight pairs are ever found. */
  lemma PairsBounded(m: Memory)
    requires Inv(m)
    ensures 0 <= m.pairsFound <= TotalPairs
  {
  }

  /** A won game has every card matched. */
  lemma WonMeansAllMatched(m: Memory)
    requires Inv(m) && m.success
    ensures forall k :: 0 <= k < |m.cards| ==> m.cards[k].face == Matched
  {
    AllMatched(m.cards);
  }

  // ---------------------------------------------------------------------------
  // The snapshot
  // ---------------------------------------------------------------------------

  function Flipped(cs: seq<Card>): (bs: seq<bool>)
    ensures |bs| == |cs| && forall k :: 0 <= k < |cs| ==> bs[k] == (cs[k].face != Down)
  {
    seq(|cs|, k requires 0 <= k < |cs| => cs[k].face != Down)
  }

  function MatchedFlags(cs: seq<Card>): (bs: seq<bool>)
    ensures |bs| == |cs| && forall k :: 0 <= k < |cs| ==> bs[k] == (cs[k].face == Matched)
  {
    seq(|cs|, k requires 0 <= k < |cs| => cs[k].face == Matched)
  }

  function Fields(m: Memory): seq<MemoryJson.Field> {
    [ MemoryJson.Field("pairsFound", IntToString(m.pairsFound)),
      MemoryJson.Field("timeRemaining", IntToString(m.timeRemaining)),
      MemoryJson.Field("gameOver", MemoryJson.BoolText(m.gameOver)),
      MemoryJson.Field("success", MemoryJson.BoolText(m.success)),
      MemoryJson.Field("started", MemoryJson.BoolText(m.started)),
      MemoryJson.Field("values", MemoryJson.ArrayText(MemoryJson.IntTexts(Values(m.cards)))),
      MemoryJson.Field("flipped", MemoryJson.ArrayText(MemoryJson.BitTexts(Flipped(m.cards)))),
      MemoryJson.Field("matched", MemoryJson.ArrayText(MemoryJson.BitTexts(MatchedFlags(m.cards)))) ]
  }

  /** `getStateJson`. */
  function StateJson(m: Memory): (r: string)
    ensures |r| >= 2 && r[0] == '{' && r[|r| - 1] == '}'
  {
    MemoryJson.Object(Fields(m))
  }

  /** The object text of eight members, spelled out member by member. */
  lemma EightMembers(k0: string, t0: string, k1: string, t1: string, k2: string, t2: string,
                     k3: string, t3: string, k4: string, t4: string, k5: string, t5: string,
                     k6: string, t6: string, k7: string, t7: string)
    ensures MemoryJson.Object(
      [ MemoryJson.Field(k0, t0), MemoryJson.Field(k1, t1), MemoryJson.Field(k2, t2),
        MemoryJson.Field(k3, t3), MemoryJson.Field(k4, t4), MemoryJson.Field(k5, t5),
        MemoryJson.Field(k6, t6), MemoryJson.Field(k7, t7) ]) ==
      "{" + MemoryJson.Token(k0) + t0
      + ("," + MemoryJson.Token(k1)) + t1 + ("," + MemoryJson.Token(k2)) + t2
      + ("," + MemoryJson.Token(k3)) + t3 + ("," + MemoryJson.Token(k4)) + t4
      + ("," + MemoryJson.Token(k5)) + t5 + ("," + MemoryJson.Token(k6)) + t6
      + ("," + MemoryJson.Token(k7)) + t7 + "}"
  {
    var fs := [ MemoryJson.Field(k0, t0), MemoryJson.Field(k1, t1), MemoryJson.Field(k2, t2),
                MemoryJson.Field(k3, t3), MemoryJson.Field(k4, t4), MemoryJson.Field(k5, t5),
                MemoryJson.Field(k6, t6), MemoryJson.Field(k7, t7) ];
    var p0 := "{" + MemoryJson.Token(k0) + t0;
    assert MemoryJson.Object(fs) == p0 + ("," + MemoryJson.Members(fs[1..]));
    MemoryJson.SpelledMembers(p0, fs[1..]);
    MemoryJson.SpelledStep(p0, fs, 1);
    var p1 := p0 + ("," + MemoryJson.Token(k1)) + t1;
    MemoryJson.SpelledStep(p1, fs, 2);
    var p2 := p1 + ("," + MemoryJson.Token(k2)) + t2;
    MemoryJson.SpelledStep(p2, fs, 3);
    var p3 := p2 + ("," + MemoryJson.Token(k3)) + t3;
    MemoryJson.SpelledStep(p3, fs, 4);
    var p4 := p3 + ("," + MemoryJson.Token(k4)) + t4;
    MemoryJson.SpelledStep(p4, fs, 5);
    var p5 := p4 + ("," + MemoryJson.Token(k5)) + t5;
    MemoryJson.SpelledStep(p5, fs, 6);
    var p6 := p5 + ("," + MemoryJson.Token(k6)) + t6;
    MemoryJson.SpelledStep(p6, fs, 7);
    var p7 := p6 + ("," + MemoryJson.Token(k7)) + t7;
    assert MemoryJson.Spelled(p7, fs[8..]) == p7 + "}";
  }

  /** The snapshot spelled out: the format string of `getStateJson`, each key
      quoted and followed by a colon, with `%d` as decimal, `%b` as
      `true`/`false` and each array a bracketed, comma-joined list. */
  lemma StateJsonFormat(m: Memory)
    ensures StateJson(m) ==
      "{" + MemoryJson.Token("pairsFound") + IntToString(m.pairsFound)
      + ("," + MemoryJson.Token("timeRemaining")) + IntToString(m.timeRemaining)
      + ("," + MemoryJson.Token("gameOver")) + MemoryJson.BoolText(m.gameOver)
      + ("," + MemoryJson.Token("success")) + MemoryJson.BoolText(m.success)
      + ("," + MemoryJson.Token("started")) + MemoryJson.BoolText(m.started)
      + ("," + MemoryJson.Token("values")) + MemoryJson.ArrayText(MemoryJson.IntTexts(Values(m.cards)))
      + ("," + MemoryJson.Token("flipped")) + MemoryJson.ArrayText(MemoryJson.BitTexts(Flipped(m.cards)))
      + ("," + MemoryJson.Token("matched")) + MemoryJson.ArrayText(MemoryJson.BitTexts(MatchedFlags(m.cards)))
      + "}"
  {
    var fs := Fields(m);
    EightMembers(fs[0].key, fs[0].text, fs[1].key, fs[1].text, fs[2].key, fs[2].text,
                 fs[3].key, fs[3].text, fs[4].key, fs[4].text, fs[5].key, fs[5].text,
                 fs[6].key, fs[6].text, fs[7].key, fs[7].text);
  }

  /** `broadcastState`: the snapshot goes out only to a publisher, never from
      a spectator. */
  function Publish(m: Memory, hasPublisher: bool, spectator: bool): (out: seq<string>)
    ensures |out| <= 1
    ensures |out| == 1 <==> hasPublisher && !spectator
    ensures |out| == 1 ==> out[0] == StateJson(m)
  {
    if hasPublisher && !spectator then [StateJson(m)] else []
  }

  /** The per-card part of `updateFromJson`: a value when the array has one,
      and the style from the two flag arrays, a missing entry reading false. */
  function ApplyCards(cs: seq<Card>, values: seq<int>, flipped: seq<bool>, matched: seq<bool>): (r: seq<Card>)
    ensures |r| == |cs|
    ensures forall k :: 0 <= k < |cs| ==>
      && r[k].value == (if k < |values| then values[k] else cs[k].value)
      && r[k].face == Style(k < |flipped| && flipped[k], k < |matched| && matched[k])
  {
    seq(|cs|, k requires 0 <= k < |cs| =>
      Card(if k < |values| then values[k] else cs[k].value,
           Style((k < |flipped| && flipped[k]) || (k < |matched| && matched[k]), k < |matched| && matched[k])))
  }

  /** `updateFromJson`: each scalar read with its current value as the
      default, the arrays applied card by card; the selection is untouched. */
  function UpdateFromJson(m: Memory, json: string): (r: Memory)
    ensures |r.cards| == |m.cards|
    ensures r.first == m.first && r.second == m.second && r.checking == m.checking
    ensures IndexOf(json, MemoryJson.Token("pairsFound")).None? ==> r.pairsFound == m.pairsFound
    ensures IndexOf(json, MemoryJson.Token("timeRemaining")).None? ==> r.timeRemaining == m.timeRemaining
    ensures IndexOf(json, MemoryJson.Token("gameOver")).None? ==> r.gameOver == m.gameOver
    ensures IndexOf(json, MemoryJson.Token("success")).None? ==> r.success == m.success
    ensures IndexOf(json, MemoryJson.Token("started")).None? ==> r.started == m.started
  {
    m.(pairsFound := MemoryJson.ReadInt(json, "pairsFound", m.pairsFound),
       timeRemaining := MemoryJson.ReadInt(json, "timeRemaining", m.timeRemaining),
       gameOver := MemoryJson.ReadBool(json, "gameOver", m.gameOver),
       success := MemoryJson.ReadBool(json, "success", m.success),
       started := MemoryJson.ReadBool(json, "started", m.started),
       cards := ApplyCards(m.cards,
                           MemoryJson.ReadIntArray(json, "values"),
                           MemoryJson.ReadBoolArray(json, "flipped"),
                           MemoryJson.ReadBoolArray(json, "matched")))
  }

  /** The snapshot keys, in the order `getStateJson` writes them. */
  const Keys: seq<string> :=
    ["pairsFound", "timeRemaining", "gameOver", "success", "started", "values", "flipped", "matched"]

  lemma KeysAreWords()
    ensures forall i :: 0 <= i < |Keys| ==> MemoryJson.IsKey(Keys[i])
    ensures forall i, j :: 0 <= i < j < |Keys| ==> Keys[i] != Keys[j]
  {
    assert MemoryJson.IsKey("pairsFound");
    assert MemoryJson.IsKey("timeRemaining");
    assert MemoryJson.IsKey("gameOver");
    assert MemoryJson.IsKey("success");
    assert MemoryJson.IsKey("started");
    assert MemoryJson.IsKey("values");
    assert MemoryJson.IsKey("flipped");
    assert MemoryJson.IsKey("matched");
  }

  lemma ArrayTextQuoteFree(items: seq<string>)
    requires forall k :: 0 <= k < |items| ==> '"' !in items[k]
    ensures '"' !in MemoryJson.ArrayText(items)
  {
    JoinAvoids(items, ',', '"');
  }

  lemma BoolTextQuoteFree(b: bool)
    ensures '"' !in MemoryJson.BoolText(b)
  {
  }

  lemma TextsQuoteFree(m: Memory)
    ensures forall i :: 0 <= i < |Fields(m)| ==> '"' !in Fields(m)[i].text
  {
    var fs := Fields(m);
    ArrayTextQuoteFree(MemoryJson.IntTexts(Values(m.cards)));
    ArrayTextQuoteFree(MemoryJson.BitTexts(Flipped(m.cards)));
    ArrayTextQuoteFree(MemoryJson.BitTexts(MatchedFlags(m.cards)));
    forall i | 0 <= i < |fs|
      ensures '"' !in fs[i].text
    {
      if i == 0 {
        assert fs[0].text == IntToString(m.pairsFound);
      } else if i == 1 {
        assert fs[1].text == IntToString(m.timeRemaining);
      } else if i == 2 {
        BoolTextQuoteFree(m.gameOver);
      } else if i == 3 {
        BoolTextQuoteFree(m.success);
      } else if i == 4 {
        BoolTextQuoteFree(m.started);
      }
    }
  }

  /** The snapshot keys are distinct words and no value holds a quote. */
  lemma FieldsWellKeyed(m: Memory)
    ensures MemoryJson.WellKeyed(Fields(m))
  {
    var fs := Fields(m);
    KeysAreWords();
    TextsQuoteFree(m);
    assert forall i :: 0 <= i < |fs| ==> fs[i].key == Keys[i];
  }

  /** A spectator applying a player's snapshot takes over the player's
      counters, flags and every card's value and face, whatever it showed
      before, as long as both have the same number of cards and every number
      fits an `int`. */
  lemma SnapshotRoundTrip(m: Memory, spectator: Memory)
    requires |spectator.cards| == |m.cards|
    requires IsInt32(m.pairsFound) && IsInt32(m.timeRemaining)
    requires forall k :: 0 <= k < |m.cards| ==> IsInt32(m.cards[k].value)
    ensures var r := UpdateFromJson(spectator, StateJson(m));
      && r.pairsFound == m.pairsFound && r.timeRemaining == m.timeRemaining
      && r.gameOver == m.gameOver && r.success == m.success && r.started == m.started
      && r.cards == m.cards
  {
    SnapshotScalars(m, spectator);
    SnapshotCards(m, spectator);
  }

  lemma SnapshotScalars(m: Memory, spectator: Memory)
    requires IsInt32(m.pairsFound) && IsInt32(m.timeRemaining)
    ensures var json := StateJson(m);
      && MemoryJson.ReadInt(json, "pairsFound", spectator.pairsFound) == m.pairsFound
      && MemoryJson.ReadInt(json, "timeRemaining", spectator.timeRemaining) == m.timeRemaining
      && MemoryJson.ReadBool(json, "gameOver", spectator.gameOver) == m.gameOver
      && MemoryJson.ReadBool(json, "success", spectator.success) == m.success
      && MemoryJson.ReadBool(json, "started", spectator.started) == m.started
  {
    FieldsWellKeyed(m);
    SnapshotCounters(m, Fields(m), spectator);
    SnapshotFlags(m, Fields(m), spectator);
  }

  lemma SnapshotCounters(m: Memory, fs: seq<MemoryJson.Field>, spectator: Memory)
    requires fs == Fields(m) && MemoryJson.WellKeyed(fs)
    requires IsInt32(m.pairsFound) && IsInt32(m.timeRemaining)
    ensures MemoryJson.ReadInt(MemoryJson.Object(fs), "pairsFound", spectator.pairsFound) == m.pairsFound
    ensures MemoryJson.ReadInt(MemoryJson.Object(fs), "timeRemaining", spectator.timeRemaining) == m.timeRemaining
  {
    MemoryJson.ReadIntBack(fs, 0, m.pairsFound, spectator.pairsFound);
    MemoryJson.ReadIntBack(fs, 1, m.timeRemaining, spectator.timeRemaining);
  }

  lemma SnapshotFlags(m: Memory, fs: seq<MemoryJson.Field>, spectator: Memory)
    requires fs == Fields(m) && MemoryJson.WellKeyed(fs)
    ensures MemoryJson.ReadBool(MemoryJson.Object(fs), "gameOver", spectator.gameOver) == m.gameOver
    ensures MemoryJson.ReadBool(MemoryJson.Object(fs), "success", spectator.success) == m.success
    ensures MemoryJson.ReadBool(MemoryJson.Object(fs), "started", spectator.started) == m.started
  {
    MemoryJson.ReadBoolBack(fs, 2, m.gameOver, spectator.gameOver);
    MemoryJson.ReadBoolBack(fs, 3, m.success, spectator.success);
    MemoryJson.ReadBoolBack(fs, 4, m.started, spectator.started);
  }

  lemma SnapshotArrays(m: Memory)
    requires forall k :: 0 <= k < |m.cards| ==> IsInt32(m.cards[k].value)
    ensures var json := StateJson(m);
      && MemoryJson.ReadIntArray(json, "values") == Values(m.cards)
      && MemoryJson.ReadBoolArray(json, "flipped") == Flipped(m.cards)
      && MemoryJson.ReadBoolArray(json, "matched") == MatchedFlags(m.cards)
  {
    var fs := Fields(m);
    FieldsWellKeyed(m);
    MemoryJson.ReadIntArrayBack(fs, 5, Values(m.cards));
    MemoryJson.ReadBoolArrayBack(fs, 6, Flipped(m.cards));
    MemoryJson.ReadBoolArrayBack(fs, 7, MatchedFlags(m.cards));
  }

  /** Applying a hand's own value and flag arrays restores it exactly. */
  lemma ApplyOwnCards(cs: seq<Card>, prior: seq<Card>)
    requires |prior| == |cs|
    ensures ApplyCards(prior, Values(cs), Flipped(cs), MatchedFlags(cs)) == cs
  {
  }

  lemma SnapshotCards(m: Memory, spectator: Memory)
    requires |spectator.cards| == |m.cards|
    requires forall k :: 0 <= k < |m.cards| ==> IsInt32(m.cards[k].value)
    ensures UpdateFromJson(spectator, StateJson(m)).cards == m.cards
  {
    SnapshotArrays(m);
    ApplyOwnCards(m.cards, spectator.cards);
  }

  /** A snapshot without any of the keys keeps every counter, flag and card
      value, and turns every card face down: a missing flag array reads as
      all false. */
  lemma EmptySnapshot(m: Memory)
    ensures var r := UpdateFromJson(m, "{}");
      && r.pairsFound == m.pairsFound && r.timeRemaining == m.timeRemaining
      && r.gameOver == m.gameOver && r.success == m.success && r.started == m.started
      && Values(r.cards) == Values(m.cards)
      && forall k :: 0 <= k < |r.cards| ==> r.cards[k].face == Down
  {
    forall key: string
      ensures IndexOf("{}", MemoryJson.Token(key)).None?
    {
      assert |MemoryJson.Token(key)| >= 3;
    }
  }
}

=== FILE: memory_json.dfy ===
// The memory game's state snapshot: the flat JSON object written by
// `MemoryGame.getStateJson` and the hand-rolled readers of `updateFromJson`
// (`parseInt`, `parseBoolean`, `extractArray`, `parseIntArray`,
// `parseBooleanArray`). None of the readers is a JSON parser: each searches
// the text for `"key":` and reads what follows, so the round trip rests on the
// keys being distinct words that occur nowhere else in the text.

module MemoryJson {
  import opened Wrappers
  import opened JavaText

  // ---------------------------------------------------------------------------
  // Flat objects
  // ---------------------------------------------------------------------------

  /** One `"key":text` member. */
  datatype Field = Field(key: string, text: string)

  /** The token every reader searches for. */
  function Token(key: string): string {
    "\"" + key + "\":"
  }

  function Member(f: Field): string {
    Token(f.key) + f.text
  }

  /** The members after the opening brace, comma-separated, then the closing
      brace. */
  function Members(fs: seq<Field>): (r: string)
    requires |fs| >= 1
  {
    if |fs| == 1 then Member(fs[0]) + "}" else Member(fs[0]) + "," + Members(fs[1..])
  }

  function Object(fs: seq<Field>): (r: string)
    requires |fs| >= 1
    ensures |r| >= 2 && r[0] == '{' && r[|r| - 1] == '}'
  {
    MembersEnd(fs);
    "{" + Members(fs)
  }

  predicate IsLetter(c: char) {
    'a' <= c <= 'z' || 'A' <= c <= 'Z'
  }

  predicate IsKey(k: string) {
    |k| >= 1 && forall i :: 0 <= i < |k| ==> IsLetter(k[i])
  }

  /** Keys are distinct words and no member text holds a quote. */
  predicate WellKeyed(fs: seq<Field>) {
    && (forall i :: 0 <= i < |fs| ==> IsKey(fs[i].key) && '"' !in fs[i].text)
    && (forall i, j :: 0 <= i < j < |fs| ==> fs[i].key != fs[j].key)
  }

  /** Where member `i` starts inside `Members(fs)`. */
  function Offset(fs: seq<Field>, i: nat): nat
    requires i < |fs|
  {
    if i == 0 then 0 else |Member(fs[0])| + 1 + Offset(fs[1..], i - 1)
  }

  /** What follows member `i`: the closing brace, or a comma and the rest. */
  function After(fs: seq<Field>, i: nat): string
    requires i < |fs|
  {
    if i == |fs| - 1 then "}" else "," + Members(fs[i + 1..])
  }

  lemma {:induction false} MemberAt(fs: seq<Field>, i: nat)
    requires i < |fs|
    ensures Offset(fs, i) <= |Members(fs)|
    ensures Members(fs)[Offset(fs, i)..] == Member(fs[i]) + After(fs, i)
  {
    if i > 0 {
      var tail := fs[1..];
      MemberAt(tail, i - 1);
      assert tail[i - 1] == fs[i];
      assert i - 1 < |tail| - 1 ==> tail[i..] == fs[i + 1..];
      var pre := Member(fs[0]) + ",";
      assert Members(fs) == pre + Members(tail);
      assert Members(fs)[|pre| + Offset(tail, i - 1)..] == Members(tail)[Offset(tail, i - 1)..];
    }
  }

  /** The members always end with the closing brace. */
  lemma {:induction false} MembersEnd(fs: seq<Field>)
    requires |fs| >= 1
    ensures |Members(fs)| >= 1 && Members(fs)[|Members(fs)| - 1] == '}'
  {
    if |fs| > 1 {
      MembersEnd(fs[1..]);
    }
  }

  /** `t` does not occur at `j` when the `m`-th char already differs. */
  lemma Mismatch(s: string, t: string, j: nat, m: nat)
    requires m < |t|
    requires j + m < |s| ==> s[j + m] != t[m]
    ensures !OccursAt(s, t, j)
  {
    assert j + |t| <= |s| ==> s[j..j + |t|][m] == s[j + m];
  }

  /** No token of another key starts inside a member or its trailing comma. */
  lemma NoTokenInMember(f: Field, key: string, rest: string)
    requires IsKey(f.key) && IsKey(key) && f.key != key && '"' !in f.text
    ensures forall j :: 0 <= j < |Member(f)| + 1 ==> !OccursAt(Member(f) + "," + rest, Token(key), j)
  {
    forall j | 0 <= j < |Member(f)| + 1
      ensures !OccursAt(Member(f) + "," + rest, Token(key), j)
    {
      if j == 0 {
        NoTokenAtMemberStart(f, key, rest);
      } else {
        NoTokenInsideMember(f, key, rest, j);
      }
    }
  }

  /** The member's own token differs from another key's token. */
  lemma NoTokenAtMemberStart(f: Field, key: string, rest: string)
    requires IsKey(f.key) && IsKey(key) && f.key != key
    ensures !OccursAt(Member(f) + "," + rest, Token(key), 0)
  {
    var tail := f.text + "," + rest;
    assert Member(f) + "," + rest == Token(f.key) + tail;
    TokensDiffer(f.key, key, tail);
  }

  /** Two distinct keys' tokens differ within the shorter key and its closing
      quote. */
  lemma TokensDiffer(k: string, key: string, tail: string)
    requires IsKey(k) && IsKey(key) && k != key
    ensures !OccursAt(Token(k) + tail, Token(key), 0)
  {
    var m: nat;
    if |key| < |k| {
      m := |key|;
    } else if |key| > |k| {
      m := |k|;
    } else {
      m :| m < |k| && k[m] != key[m];
    }
    TokenAt(k, tail, m);
    TokenAt(key, "", m);
    assert Token(key) + "" == Token(key);
    Mismatch(Token(k) + tail, Token(key), 0, m + 1);
  }

  /** The char after position `p` of a token: the key's char, or the closing
      quote. */
  lemma TokenAt(k: string, tail: string, p: nat)
    requires p <= |k|
    ensures p + 1 < |Token(k) + tail|
    ensures (Token(k) + tail)[p + 1] == if p < |k| then k[p] else '"'
  {
  }

  /** No token starts after the member's first char: keys, the text and the
      comma hold no quote, and the quote and colon that close the key cannot
      open a token. */
  lemma NoTokenInsideMember(f: Field, key: string, rest: string, j: nat)
    requires IsKey(f.key) && IsKey(key) && '"' !in f.text
    requires 0 < j < |Member(f)| + 1
    ensures !OccursAt(Member(f) + "," + rest, Token(key), j)
  {
    var s := Member(f) + "," + rest;
    var t := Token(key);
    var k := f.key;
    var n := |k|;
    assert s == "\"" + k + "\":" + f.text + "," + rest;
    assert t[0] == '"' && t[|key| + 1] == '"';
    if j <= n {
      assert s[j] == k[j - 1];
      Mismatch(s, t, j, 0);
    } else if j == n + 1 {
      assert s[j] == '"' && s[j + 1] == ':';
      Mismatch(s, t, j, 1);
    } else if j == n + 2 {
      assert s[j] == ':';
      Mismatch(s, t, j, 0);
    } else if j < n + 3 + |f.text| {
      assert s[j] == f.text[j - n - 3];
      Mismatch(s, t, j, 0);
    } else {
      assert s[j] == ',';
      Mismatch(s, t, j, 0);
    }
  }

  /** The first occurrence of a member's token is that member. */
  lemma {:induction false} FindMember(fs: seq<Field>, i: nat)
    requires i < |fs| && WellKeyed(fs)
    ensures IndexOf(Members(fs), Token(fs[i].key)) == Some(Offset(fs, i))
    decreases i, 1
  {
    if i == 0 {
      FindFirstMember(fs);
    } else {
      FindLaterMember(fs, i);
    }
  }

  lemma {:induction false} FindLaterMember(fs: seq<Field>, i: nat)
    requires 0 < i < |fs| && WellKeyed(fs)
    ensures IndexOf(Members(fs), Token(fs[i].key)) == Some(Offset(fs, i))
    decreases i, 0
  {
    TailWellKeyed(fs);
    FindMember(fs[1..], i - 1);
    SkipMember(fs, i);
  }

  lemma FindFirstMember(fs: seq<Field>)
    requires |fs| >= 1
    ensures IndexOf(Members(fs), Token(fs[0].key)) == Some(0)
  {
    var s := Members(fs);
    var t := Token(fs[0].key);
    MemberAt(fs, 0);
    assert s[..|t|] == t;
    IndexOfFromAt(s, t, 0, 0);
  }

  lemma TailWellKeyed(fs: seq<Field>)
    requires |fs| >= 1 && WellKeyed(fs)
    ensures WellKeyed(fs[1..])
  {
    var tail := fs[1..];
    forall a, b | 0 <= a < b < |tail|
      ensures tail[a].key != tail[b].key
    {
      assert tail[a] == fs[a + 1] && tail[b] == fs[b + 1];
    }
  }

  /** A search for a later member's token skips the first member. */
  lemma SkipMember(fs: seq<Field>, i: nat)
    requires 0 < i < |fs|
    requires IsKey(fs[0].key) && IsKey(fs[i].key) && '"' !in fs[0].text && fs[0].key != fs[i].key
    requires IndexOf(Members(fs[1..]), Token(fs[1..][i - 1].key)) == Some(Offset(fs[1..], i - 1))
    ensures IndexOf(Members(fs), Token(fs[i].key)) == Some(Offset(fs, i))
  {
    var tail := fs[1..];
    assert tail[i - 1] == fs[i];
    NoTokenInMember(fs[0], fs[i].key, Members(tail));
    IndexOfAfter(Member(fs[0]) + ",", Members(tail), Token(fs[i].key), Offset(tail, i - 1));
  }

  /** In the whole object, member `i`'s token is first found right where the
      member starts, one past the opening brace, and the member's text and
      what follows it come next. */
  lemma FindInObject(fs: seq<Field>, i: nat)
    requires i < |fs| && WellKeyed(fs)
    ensures 1 + Offset(fs, i) <= |Object(fs)|
    ensures IndexOf(Object(fs), Token(fs[i].key)) == Some(1 + Offset(fs, i))
    ensures Object(fs)[1 + Offset(fs, i)..] == Token(fs[i].key) + fs[i].text + After(fs, i)
  {
    ObjectSearch(fs, i);
    ObjectSuffix(fs, i);
  }

  lemma {:induction false} ObjectSearch(fs: seq<Field>, i: nat)
    requires i < |fs| && WellKeyed(fs)
    ensures IndexOf(Object(fs), Token(fs[i].key)) == Some(1 + Offset(fs, i))
  {
    var t := Token(fs[i].key);
    FindMember(fs, i);
    TokenOpensWithQuote(fs[i].key);
    ObjectBrace(fs);
    SearchPastBrace(Members(fs), t, Offset(fs, i), Object(fs));
  }

  lemma ObjectBrace(fs: seq<Field>)
    requires |fs| >= 1
    ensures Object(fs) == "{" + Members(fs)
  {
  }

  lemma TokenOpensWithQuote(key: string)
    ensures |Token(key)| >= 1 && Token(key)[0] == '"'
  {
  }

  /** A token that does not start with a brace is found one place later once
      a brace is put in front. */
  lemma SearchPastBrace(b: string, t: string, p: nat, obj: string)
    requires |t| >= 1 && t[0] != '{'
    requires IndexOf(b, t) == Some(p)
    requires obj == "{" + b
    ensures IndexOf(obj, t) == Some(1 + p)
  {
    Mismatch("{" + b, t, 0, 0);
    IndexOfAfter("{", b, t, p);
  }

  /** Dropping past a prefix and then `k` more chars. */
  lemma SuffixPast(a: string, b: string, k: nat)
    requires k <= |b|
    ensures (a + b)[|a| + k..] == b[k..]
  {
  }

  lemma ObjectSuffix(fs: seq<Field>, i: nat)
    requires i < |fs|
    ensures 1 + Offset(fs, i) <= |Object(fs)|
    ensures Object(fs)[1 + Offset(fs, i)..] == Token(fs[i].key) + fs[i].text + After(fs, i)
  {
    MemberAt(fs, i);
    SuffixPast("{", Members(fs), Offset(fs, i));
  }

  // ---------------------------------------------------------------------------
  // The readers
  // ---------------------------------------------------------------------------

  /** The end of the run of digits and minus signs from `i` on. */
  function NumberEnd(s: string, i: nat): (e: nat)
    requires i <= |s|
    ensures i <= e <= |s|
    ensures forall k :: i <= k < e ==> IsDigit(s[k]) || s[k] == '-'
    ensures e == |s| || !(IsDigit(s[e]) || s[e] == '-')
    decreases |s| - i
  {
    if i < |s| && (IsDigit(s[i]) || s[i] == '-') then NumberEnd(s, i + 1) else i
  }

  /** `parseInt(json, key, default)`: after the first `"key":`, the run of
      digits and '-' read by `Integer.parseInt`; the default when the key is
      missing or the run does not parse. */
  function ReadInt(json: string, key: string, default: int): (v: int)
    ensures IndexOf(json, Token(key)).None? ==> v == default
    ensures v == default || IsInt32(v)
  {
    match IndexOf(json, Token(key))
    case None => default
    case Some(idx) =>
      var start := idx + |Token(key)|;
      var end := NumberEnd(json, start);
      match ParseInt(json[start..end])
      case Some(v) => v
      case None => default
  }

  /** `parseBoolean(json, key, default)`: the whole text after the first
      `"key":`, trimmed and lower-cased, checked for a `true` or `false`
      prefix. */
  function ReadBool(json: string, key: string, default: bool): (b: bool)
    ensures IndexOf(json, Token(key)).None? ==> b == default
  {
    match IndexOf(json, Token(key))
    case None => default
    case Some(idx) => WordValue(LowerAsciiString(Trim(json[idx + |Token(key)|..])), default)
  }

  /** A `true` prefix, else a `false` prefix, else the default. */
  function WordValue(tail: string, default: bool): bool {
    if StartsWith(tail, "true") then true
    else if StartsWith(tail, "false") then false
    else default
  }

  /** `extractArray(json, key)`: the text between the first `[` after the
      token and the first `]` after that, trimmed and split on commas; no
      pieces when the key or either bracket is missing or the text is blank. */
  function ExtractArray(json: string, key: string): (parts: seq<string>)
    ensures IndexOf(json, Token(key)).None? ==> parts == []
    ensures forall k :: 0 <= k < |parts| ==> ',' !in parts[k]
  {
    match IndexOf(json, Token(key))
    case None => []
    case Some(idx) =>
      match IndexOfFrom(json, "[", idx)
      case None => []
      case Some(start) =>
        match IndexOfFrom(json, "]", start)
        case None => []
        case Some(end) =>
          OccursChar(json, '[', start);
          OccursChar(json, ']', end);
          ListPieces(json[start + 1..end])
  }

  /** The text between the brackets, trimmed and split on commas; no pieces
      when it is blank. */
  function ListPieces(text: string): (parts: seq<string>)
    ensures forall k :: 0 <= k < |parts| ==> ',' !in parts[k]
  {
    var body := Trim(text);
    if body == "" then [] else SplitPieces(body)
  }

  /** `body.split(",")`, with what the readers rely on: no piece holds a
      comma. */
  function SplitPieces(body: string): (parts: seq<string>)
    ensures forall k :: 0 <= k < |parts| ==> ',' !in parts[k]
  {
    Split(body, ',')
  }

  /** `parseIntArray`: each trimmed piece by `Integer.parseInt`, 0 when it
      does not parse. */
  function ReadIntArray(json: string, key: string): (vs: seq<int>)
    ensures |vs| == |ExtractArray(json, key)|
    ensures forall k :: 0 <= k < |vs| ==> vs[k] == ParseInt(Trim(ExtractArray(json, key)[k])).GetOr(0)
  {
    var parts := ExtractArray(json, key);
    seq(|parts|, k requires 0 <= k < |parts| => ParseInt(Trim(parts[k])).GetOr(0))
  }

  /** `parseBooleanArray`: a trimmed piece is true when it is `1` or, ignoring
      case, `true`. */
  function ReadBoolArray(json: string, key: string): (bs: seq<bool>)
    ensures |bs| == |ExtractArray(json, key)|
    ensures forall k :: 0 <= k < |bs| ==>
      bs[k] == (Trim(ExtractArray(json, key)[k]) == "1" || EqualsIgnoreCase("true", Trim(ExtractArray(json, key)[k])))
  {
    var parts := ExtractArray(json, key);
    seq(|parts|, k requires 0 <= k < |parts| => Trim(parts[k]) == "1" || EqualsIgnoreCase("true", Trim(parts[k])))
  }

  // ---------------------------------------------------------------------------
  // Writing values
  // ---------------------------------------------------------------------------

  /** `%b`. */
  function BoolText(b: bool): string {
    if b then "true" else "false"
  }

  function IntTexts(vs: seq<int>): (r: seq<string>)
    ensures |r| == |vs|
    ensures forall k :: 0 <= k < |vs| ==> r[k] == IntToString(vs[k])
  {
    seq(|vs|, k requires 0 <= k < |vs| => IntToString(vs[k]))
  }

  /** Flags as `1`/`0`. */
  function BitTexts(bs: seq<bool>): (r: seq<string>)
    ensures |r| == |bs|
    ensures forall k :: 0 <= k < |bs| ==> r[k] == (if bs[k] then "1" else "0")
  {
    seq(|bs|, k requires 0 <= k < |bs| => if bs[k] then "1" else "0")
  }

  /** A bracketed, comma-separated list. */
  function ArrayText(items: seq<string>): string {
    "[" + Join(items, ',') + "]"
  }

  // ---------------------------------------------------------------------------
  // Reading back what was written
  // ---------------------------------------------------------------------------

  /** What follows a member starts with a comma or the closing brace and ends
      with the closing brace. */
  lemma AfterShape(fs: seq<Field>, i: nat)
    requires i < |fs|
    ensures |After(fs, i)| >= 1
    ensures After(fs, i)[0] == ',' || After(fs, i)[0] == '}'
    ensures After(fs, i)[|After(fs, i)| - 1] == '}'
  {
    if i < |fs| - 1 {
      MembersEnd(fs[i + 1..]);
    }
  }

  /** Member `i` of a well-keyed object is found where it was written. */
  lemma Locate(fs: seq<Field>, i: nat)
    requires i < |fs| && WellKeyed(fs)
    ensures IndexOf(Object(fs), Token(fs[i].key)).Some?
    ensures var idx := IndexOf(Object(fs), Token(fs[i].key)).value;
      idx <= |Object(fs)| && Object(fs)[idx..] == Token(fs[i].key) + fs[i].text + After(fs, i)
  {
    FindInObject(fs, i);
  }

  /** `parseInt` reads an `int` written right after its token and ended by a
      char that is neither a digit nor a minus sign. */
  lemma ReadIntAt(json: string, key: string, idx: nat, v: int, after: string, default: int)
    requires IndexOf(json, Token(key)) == Some(idx)
    requires idx <= |json| && json[idx..] == Token(key) + IntToString(v) + after
    requires |after| >= 1 && !(IsDigit(after[0]) || after[0] == '-')
    requires IsInt32(v)
    ensures ReadInt(json, key, default) == v
  {
    var start := idx + |Token(key)|;
    var num := IntToString(v);
    var end := start + |num|;
    TextAfterToken(json, idx, Token(key), num + after, start);
    IntTextChars(v);
    NumberRun(json, start, num, after, end);
    ReadIntUnfold(json, key, idx, start, end, default);
    IntRoundTrip(v);
  }

  /** What follows a token that starts at `idx`. */
  lemma TextAfterToken(json: string, idx: nat, tok: string, rest: string, start: nat)
    requires idx <= |json| && json[idx..] == tok + rest
    requires start == idx + |tok|
    ensures start <= |json| && json[start..] == rest
  {
    assert json[start..] == json[idx..][|tok|..];
  }

  /** The run read by `parseInt` covers a written number exactly. */
  lemma NumberRun(json: string, start: nat, num: string, after: string, end: nat)
    requires start <= |json| && json[start..] == num + after
    requires forall k :: 0 <= k < |num| ==> IsDigit(num[k]) || num[k] == '-'
    requires |after| >= 1 && !(IsDigit(after[0]) || after[0] == '-')
    requires end == start + |num|
    ensures NumberEnd(json, start) == end
    ensures json[start..end] == num
  {
    forall k | start <= k < end
      ensures IsDigit(json[k]) || json[k] == '-'
    {
      assert json[k] == json[start..][k - start];
    }
    assert json[end] == json[start..][|num|];
    NumberEndAt(json, start, end);
    assert json[start..end] == json[start..][..|num|];
  }

  /** A written `int` is all digits and minus signs. */
  lemma IntTextChars(v: int)
    ensures forall k :: 0 <= k < |IntToString(v)| ==> IsDigit(IntToString(v)[k]) || IntToString(v)[k] == '-'
  {
    var r := IntToString(v);
    forall k | 0 <= k < |r|
      ensures IsDigit(r[k]) || r[k] == '-'
    {
      if v < 0 && k > 0 {
        assert r[k] == r[1..][k - 1];
      }
    }
  }

  /** `NumberEnd` stops at the first char that is neither digit nor minus. */
  lemma {:induction false} NumberEndAt(s: string, i: nat, e: nat)
    requires i <= e < |s|
    requires forall k :: i <= k < e ==> IsDigit(s[k]) || s[k] == '-'
    requires !(IsDigit(s[e]) || s[e] == '-')
    ensures NumberEnd(s, i) == e
    decreases e - i
  {
    if i < e {
      NumberEndAt(s, i + 1, e);
    }
  }

  /** `parseInt` once its token is found. */
  lemma ReadIntUnfold(json: string, key: string, idx: nat, start: nat, end: nat, default: int)
    requires IndexOf(json, Token(key)) == Some(idx)
    requires start == idx + |Token(key)| && start <= |json| && NumberEnd(json, start) == end
    ensures ReadInt(json, key, default) == ParseInt(json[start..end]).GetOr(default)
  {
  }

  /** An `int` written as member `i` is read back by `parseInt`. */
  lemma ReadIntBack(fs: seq<Field>, i: nat, v: int, default: int)
    requires i < |fs| && WellKeyed(fs) && IsInt32(v) && fs[i].text == IntToString(v)
    ensures ReadInt(Object(fs), fs[i].key, default) == v
  {
    Locate(fs, i);
    AfterShape(fs, i);
    ReadIntAt(Object(fs), fs[i].key, IndexOf(Object(fs), Token(fs[i].key)).value, v, After(fs, i), default);
  }

  /** The lower-cased text of `x` keeps a lower-case prefix of `x`. */
  lemma LowerKeepsPrefix(x: string, p: string)
    requires StartsWith(x, p)
    requires forall i :: 0 <= i < |p| ==> 'a' <= p[i] <= 'z'
    ensures StartsWith(LowerAsciiString(x), p)
  {
    var l := LowerAsciiString(x);
    forall i | 0 <= i < |p|
      ensures l[i] == p[i]
    {
      assert x[i] == x[..|p|][i];
    }
  }

  /** The text after a `true`/`false` token: trimming and lower-casing keep
      the word in front when the text ends with a non-blank char. */
  lemma BoolTail(x: string, b: bool, after: string)
    requires x == BoolText(b) + after
    requires |after| >= 1 && !IsTrimmable(after[|after| - 1])
    ensures forall d :: WordValue(LowerAsciiString(Trim(x)), d) == b
  {
    var word := BoolText(b);
    assert x[0] == word[0] && x[|x| - 1] == after[|after| - 1];
    TrimNoop(x);
    assert x[..|word|] == word;
    LowerKeepsPrefix(x, word);
    var l := LowerAsciiString(x);
    assert l[0] == LowerAscii(x[0]) == word[0];
  }

  /** `parseBoolean` reads a `true`/`false` written right after its token
      when the text ends with a non-blank char. */
  lemma ReadBoolAt(json: string, key: string, idx: nat, b: bool, after: string, default: bool)
    requires IndexOf(json, Token(key)) == Some(idx)
    requires idx <= |json| && json[idx..] == Token(key) + BoolText(b) + after
    requires |after| >= 1 && !IsTrimmable(after[|after| - 1])
    ensures ReadBool(json, key, default) == b
  {
    ReadBoolUnfold(json, key, idx, default);
    var x := json[idx + |Token(key)|..];
    assert x == BoolText(b) + after;
    BoolTail(x, b, after);
  }

  lemma ReadBoolUnfold(json: string, key: string, idx: nat, default: bool)
    requires IndexOf(json, Token(key)) == Some(idx)
    ensures idx + |Token(key)| <= |json|
    ensures ReadBool(json, key, default) == WordValue(LowerAsciiString(Trim(json[idx + |Token(key)|..])), default)
  {
  }

  /** A flag written as member `i` is read back by `parseBoolean`. */
  lemma ReadBoolBack(fs: seq<Field>, i: nat, b: bool, default: bool)
    requires i < |fs| && WellKeyed(fs) && fs[i].text == BoolText(b)
    ensures ReadBool(Object(fs), fs[i].key, default) == b
  {
    Locate(fs, i);
    AfterShape(fs, i);
    ReadBoolAt(Object(fs), fs[i].key, IndexOf(Object(fs), Token(fs[i].key)).value, b, After(fs, i), default);
  }

  /** Pieces that a list can carry through `extractArray`: non-empty, free of
      commas and closing brackets, with no blank at either end. */
  predicate Listable(items: seq<string>) {
    forall k :: 0 <= k < |items| ==>
      && |items[k]| >= 1 && ',' !in items[k] && ']' !in items[k]
      && !IsTrimmable(items[k][0]) && !IsTrimmable(items[k][|items[k]| - 1])
  }

  /** The first `[` after the start of a token is the one right after it. */
  lemma OpenBracket(json: string, key: string, idx: nat, rest: string)
    requires IsKey(key)
    requires idx <= |json| && json[idx..] == Token(key) + "[" + rest
    ensures IndexOfFrom(json, "[", idx) == Some(idx + |Token(key)|)
  {
    var tok := Token(key);
    var start := idx + |tok|;
    assert json[start] == json[idx..][|tok|] == '[';
    forall j | idx <= j < start
      ensures json[j] != '['
    {
      assert json[j] == json[idx..][j - idx] == tok[j - idx];
      assert 0 < j - idx <= |key| ==> tok[j - idx] == key[j - idx - 1];
    }
    IndexOfCharAt(json, '[', idx, start);
  }

  /** The first `]` after an opening bracket closes a list of pieces free of
      `]`. */
  lemma CloseBracket(json: string, start: nat, items: seq<string>, after: string)
    requires Listable(items)
    requires start <= |json| && json[start..] == "[" + Join(items, ',') + "]" + after
    ensures IndexOfFrom(json, "]", start) == Some(start + 1 + |Join(items, ',')|)
    ensures json[start + 1..start + 1 + |Join(items, ',')|] == Join(items, ',')
  {
    JoinAvoids(items, ',', ']');
    BracketBody(json, start, Join(items, ','), after);
  }

  /** The same for any body free of `]`. */
  lemma BracketBody(json: string, start: nat, body: string, after: string)
    requires ']' !in body
    requires start <= |json| && json[start..] == "[" + body + "]" + after
    ensures IndexOfFrom(json, "]", start) == Some(start + 1 + |body|)
    ensures json[start + 1..start + 1 + |body|] == body
  {
    var end := start + 1 + |body|;
    BracketChars(json, start, body, after, end);
    IndexOfCharAt(json, ']', start, end);
  }

  /** The chars of a bracketed body, char by char. */
  lemma BracketChars(json: string, start: nat, body: string, after: string, end: nat)
    requires ']' !in body
    requires start <= |json| && json[start..] == "[" + body + "]" + after
    requires end == start + 1 + |body|
    ensures end < |json| && json[end] == ']'
    ensures forall j :: start <= j < end ==> json[j] != ']'
    ensures json[start + 1..end] == body
  {
    assert json[end] == json[start..][1 + |body|];
    forall j | start <= j < end
      ensures json[j] != ']'
    {
      assert j > start ==> json[j] == json[start..][j - start] == body[j - start - 1];
    }
    forall k | 0 <= k < |body|
      ensures json[start + 1 + k] == body[k]
    {
      assert json[start + 1 + k] == json[start..][1 + k];
    }
    assert json[start + 1..end] == body;
  }

  /** `extractArray` once both brackets are found. */
  lemma ExtractUnfold(json: string, key: string, idx: nat, start: nat, end: nat)
    requires IndexOf(json, Token(key)) == Some(idx)
    requires IndexOfFrom(json, "[", idx) == Some(start)
    requires IndexOfFrom(json, "]", start) == Some(end)
    ensures start + 1 <= end <= |json|
    ensures ExtractArray(json, key) == ListPieces(json[start + 1..end])
  {
    assert "[" == ['['] && "]" == [']'];
    OccursChar(json, '[', start);
    OccursChar(json, ']', end);
    assert start != end;
  }

  /** The trimmed, split list body gives back its pieces. */
  lemma SplitBody(items: seq<string>)
    requires Listable(items)
    ensures Trim(Join(items, ',')) == Join(items, ',')
    ensures Join(items, ',') == "" <==> items == []
    ensures items != [] ==> SplitPieces(Join(items, ',')) == items
  {
    var body := Join(items, ',');
    if |items| == 0 {
      TrimNoop(body);
    } else {
      JoinEnds(items, ',');
      TrimNoop(body);
      assert items[|items| - 1] != "";
      SplitJoin(items, ',');
    }
  }

  /** `extractArray` gives back the pieces of a list written right after its
      token. */
  lemma ExtractAt(json: string, key: string, idx: nat, items: seq<string>, after: string)
    requires IsKey(key) && Listable(items)
    requires IndexOf(json, Token(key)) == Some(idx)
    requires idx <= |json| && json[idx..] == Token(key) + ArrayText(items) + after
    ensures ExtractArray(json, key) == items
  {
    JoinAvoids(items, ',', ']');
    ExtractBody(json, key, idx, Join(items, ','), after);
    SplitBody(items);
  }

  /** `extractArray` finds the body of a list written right after its token,
      for any body free of `]`. */
  lemma ExtractBody(json: string, key: string, idx: nat, body: string, after: string)
    requires IsKey(key) && ']' !in body
    requires IndexOf(json, Token(key)) == Some(idx)
    requires idx <= |json| && json[idx..] == Token(key) + ("[" + body + "]") + after
    ensures ExtractArray(json, key) == ListPieces(body)
  {
    var start := idx + |Token(key)|;
    var end := start + 1 + |body|;
    Brackets(json, key, idx, start, body, after);
    ExtractUnfold(json, key, idx, start, end);
    SamePieces(ExtractArray(json, key), json[start + 1..end], body);
  }

  lemma SamePieces(parts: seq<string>, text: string, body: string)
    requires parts == ListPieces(text) && text == body
    ensures parts == ListPieces(body)
  {
  }

  /** Where the two brackets of a list written right after its token are
      found, and what lies between them. */
  lemma Brackets(json: string, key: string, idx: nat, start: nat, body: string, after: string)
    requires IsKey(key) && ']' !in body
    requires idx <= |json| && json[idx..] == Token(key) + ("[" + body + "]") + after
    requires start == idx + |Token(key)|
    ensures IndexOfFrom(json, "[", idx) == Some(start)
    ensures IndexOfFrom(json, "]", start) == Some(start + 1 + |body|)
    ensures start + 1 + |body| <= |json| && json[start + 1..start + 1 + |body|] == body
  {
    ListShape(json, idx, Token(key), body, after);
    OpenBracket(json, key, idx, body + "]" + after);
    BracketBody(json, start, body, after);
  }

  /** Regrouping a token followed by a bracketed list. */
  lemma ListShape(json: string, idx: nat, tok: string, body: string, after: string)
    requires idx <= |json| && json[idx..] == tok + ("[" + body + "]") + after
    ensures json[idx..] == tok + "[" + (body + "]" + after)
    ensures idx + |tok| <= |json| && json[idx + |tok|..] == "[" + body + "]" + after
  {
    assert tok + ("[" + body + "]") + after == tok + ("[" + body + "]" + after);
    SuffixPast(tok, "[" + body + "]" + after, 0);
    assert json[idx + |tok|..] == json[idx..][|tok|..];
  }

  /** An `int` list written as member `i` is read back by `parseIntArray`. */
  lemma ReadIntArrayBack(fs: seq<Field>, i: nat, vs: seq<int>)
    requires i < |fs| && WellKeyed(fs) && fs[i].text == ArrayText(IntTexts(vs))
    requires forall k :: 0 <= k < |vs| ==> IsInt32(vs[k])
    ensures ReadIntArray(Object(fs), fs[i].key) == vs
  {
    IntItems(vs);
    Locate(fs, i);
    ExtractAt(Object(fs), fs[i].key, IndexOf(Object(fs), Token(fs[i].key)).value, IntTexts(vs), After(fs, i));
  }

  /** The written `int` texts are listable and each parses back. */
  lemma IntItems(vs: seq<int>)
    requires forall k :: 0 <= k < |vs| ==> IsInt32(vs[k])
    ensures Listable(IntTexts(vs))
    ensures forall k :: 0 <= k < |vs| ==> ParseInt(Trim(IntTexts(vs)[k])).GetOr(0) == vs[k]
  {
    var items := IntTexts(vs);
    forall k | 0 <= k < |items|
      ensures !IsTrimmable(items[k][0]) && !IsTrimmable(items[k][|items[k]| - 1])
      ensures Trim(items[k]) == items[k] && ParseInt(items[k]) == Some(vs[k])
    {
      var r := items[k];
      assert vs[k] < 0 ==> r[|r| - 1] == r[1..][|r| - 2];
      TrimNoop(r);
      IntRoundTrip(vs[k]);
    }
  }

  /** A flag list written as member `i` is read back by `parseBooleanArray`. */
  lemma ReadBoolArrayBack(fs: seq<Field>, i: nat, bs: seq<bool>)
    requires i < |fs| && WellKeyed(fs) && fs[i].text == ArrayText(BitTexts(bs))
    ensures ReadBoolArray(Object(fs), fs[i].key) == bs
  {
    BitItems(bs);
    Locate(fs, i);
    ExtractAt(Object(fs), fs[i].key, IndexOf(Object(fs), Token(fs[i].key)).value, BitTexts(bs), After(fs, i));
  }

  /** The written flag texts are listable and each reads back. */
  lemma BitItems(bs: seq<bool>)
    ensures Listable(BitTexts(bs))
    ensures forall k :: 0 <= k < |bs| ==>
      (Trim(BitTexts(bs)[k]) == "1" || EqualsIgnoreCase("true", Trim(BitTexts(bs)[k]))) == bs[k]
  {
    var items := BitTexts(bs);
    forall k | 0 <= k < |items|
      ensures Trim(items[k]) == items[k]
      ensures (items[k] == "1" || EqualsIgnoreCase("true", items[k])) == bs[k]
    {
      var it := items[k];
      assert it[0] == (if bs[k] then '1' else '0');
      TrimNoop(it);
      assert |LowerAsciiString(it)| == 1;
    }
  }

  // ---------------------------------------------------------------------------
  // Spelling an object out member by member
  // ---------------------------------------------------------------------------

  /** The members `fs` written after `prefix` the way a format string spells
      them: each as a comma, the quoted key, a colon and the value, then the
      closing brace. */
  function Spelled(prefix: string, fs: seq<Field>): string
    decreases |fs|
  {
    if |fs| == 0 then prefix + "}"
    else Spelled(prefix + ("," + Token(fs[0].key)) + fs[0].text, fs[1..])
  }

  lemma {:induction false} SpelledMembers(prefix: string, fs: seq<Field>)
    requires |fs| >= 1
    ensures prefix + ("," + Members(fs)) == Spelled(prefix, fs)
    decreases |fs|
  {
    var next := prefix + ("," + Token(fs[0].key)) + fs[0].text;
    if |fs| == 1 {
      RegroupLast(prefix, Token(fs[0].key), fs[0].text);
      assert Spelled(next, fs[1..]) == next + "}";
    } else {
      RegroupMid(prefix, Token(fs[0].key), fs[0].text, Members(fs[1..]));
      SpelledMembers(next, fs[1..]);
    }
  }

  lemma RegroupLast(prefix: string, a: string, b: string)
    ensures prefix + ("," + (a + b + "}")) == prefix + ("," + a) + b + "}"
  {
  }

  lemma RegroupMid(prefix: string, a: string, b: string, c: string)
    ensures prefix + ("," + (a + b + "," + c)) == prefix + ("," + a) + b + ("," + c)
  {
  }

  lemma SpelledStep(prefix: string, fs: seq<Field>, i: nat)
    requires i < |fs|
    ensures Spelled(prefix, fs[i..])
         == Spelled(prefix + ("," + Token(fs[i].key)) + fs[i].text, fs[i + 1..])
  {
    assert fs[i..][1..] == fs[i + 1..];
  }
}

=== FILE: minigame_base.dfy ===
// The shared minigame vocabulary of `minigame/base`: the three game kinds and
// the result a finished minigame hands to its callback.

module MinigameBase {
  /** `MinigameType`. */
  datatype Kind = Reaction | Memory | Dodge

  /** `MinigameResult`: success flag, score, elapsed whole seconds, kind. */
  datatype Result = Result(success: bool, score: int, elapsed: int, kind: Kind)
}

=== FILE: minigame_protocol.dfy ===
// The minigame line formats of `minigame/network/MinigameProtocol.java`: four
// keywords, the message builders and the keyword classifier, together with a
// reader for result lines that states what the six-token format carries.

module MinigameProtocol {
  import opened Wrappers
  import opened JavaText

  const StartKeyword: string := "MINIGAME_START"
  const UpdateKeyword: string := "MINIGAME_UPDATE"
  const ResultKeyword: string := "MINIGAME_RESULT"
  const CloseKeyword: string := "MINIGAME_CLOSE"

  /** `isMinigameMessage`: the line starts with one of the four keywords. */
  predicate IsMinigameMessage(m: string) {
    StartsWith(m, StartKeyword) || StartsWith(m, UpdateKeyword)
    || StartsWith(m, ResultKeyword) || StartsWith(m, CloseKeyword)
  }

  /** `createStartMessage(gameType)`: the keyword, one space, the game type. */
  function CreateStartMessage(gameType: string): (r: string)
    ensures IsMinigameMessage(r)
    ensures StartsWith(r, StartKeyword + " ") && r[|StartKeyword| + 1..] == gameType
  {
    var r := StartKeyword + " " + gameType;
    assert r[..|StartKeyword|] == StartKeyword;
    r
  }

  /** `createUpdateMessage(stateJson)`: the keyword, one space, and the JSON
      carried verbatim. */
  function CreateUpdateMessage(stateJson: string): (r: string)
    ensures IsMinigameMessage(r)
    ensures StartsWith(r, UpdateKeyword + " ") && r[|UpdateKeyword| + 1..] == stateJson
  {
    var r := UpdateKeyword + " " + stateJson;
    assert r[..|UpdateKeyword|] == UpdateKeyword;
    r
  }

  function Status(success: bool): string {
    if success then "SUCCESS" else "FAIL"
  }

  /** The five-argument `createResultMessage`: six space-separated tokens, the
      keyword, SUCCESS or FAIL, score, elapsed time, forced x, forced y. */
  function CreateResultMessage(success: bool, score: int, time: int, forcedX: int, forcedY: int): (r: string)
    ensures IsMinigameMessage(r)
    ensures Split(r, ' ') == [ResultKeyword, Status(success), IntToString(score),
                              IntToString(time), IntToString(forcedX), IntToString(forcedY)]
  {
    var parts := [ResultKeyword, Status(success), IntToString(score),
                  IntToString(time), IntToString(forcedX), IntToString(forcedY)];
    var r := ResultKeyword + " " + Status(success) + " " + IntToString(score) + " "
             + IntToString(time) + " " + IntToString(forcedX) + " " + IntToString(forcedY);
    JoinSix(parts);
    SplitJoin(parts, ' ');
    assert r[..|ResultKeyword|] == ResultKeyword;
    r
  }

  /** Joining six tokens with spaces spells out the message text. */
  lemma JoinSix(parts: seq<string>)
    requires |parts| == 6
    ensures Join(parts, ' ') ==
      parts[0] + " " + parts[1] + " " + parts[2] + " " + parts[3] + " " + parts[4] + " " + parts[5]
  {
    assert Join(parts[5..], ' ') == parts[5];
    assert Join(parts[4..], ' ') == parts[4] + " " + Join(parts[5..], ' ');
    assert Join(parts[3..], ' ') == parts[3] + " " + Join(parts[4..], ' ');
    assert Join(parts[2..], ' ') == parts[2] + " " + Join(parts[3..], ' ');
    assert Join(parts[1..], ' ') == parts[1] + " " + Join(parts[2..], ' ');
  }

  /** The three-argument `createResultMessage`: no forced move, written as
      coordinates -1 -1. */
  function CreateResultMessageNoMove(success: bool, score: int, time: int): (r: string)
    ensures IsMinigameMessage(r)
    ensures |Split(r, ' ')| == 6 && Split(r, ' ')[4..] == ["-1", "-1"]
    ensures IsInt32(score) && IsInt64(time) ==>
      ParseResult(r) == Some(MinigameResult(success, score, time, -1, -1))
  {
    var r := CreateResultMessage(success, score, time, -1, -1);
    assert NatToString(1) == "1";
    assert IntToString(-1) == "-1";
    assert IsInt32(score) && IsInt64(time) ==>
      ParseResult(r) == Some(MinigameResult(success, score, time, -1, -1))
    by {
      if IsInt32(score) && IsInt64(time) {
        ResultRoundTrip(success, score, time, -1, -1);
      }
    }
    r
  }

  /** `createCloseMessage()`: the bare keyword, one token with no argument. */
  function CreateCloseMessage(): (r: string)
    ensures IsMinigameMessage(r)
    ensures Split(r, ' ') == [r]
  {
    var r := CloseKeyword;
    assert r[..|CloseKeyword|] == CloseKeyword;
    assert ' ' !in r;
    r
  }

  /** What a result line carries. */
  datatype MinigameResult = MinigameResult(success: bool, score: int, time: int, forcedX: int, forcedY: int)

  /** A reader for result lines, stating what the format carries: exactly six
      tokens, the keyword, a status, an `int` score, a `long` time and two `int`
      coordinates. */
  function ParseResult(line: string): (r: Option<MinigameResult>)
    ensures r.Some? ==> IsInt32(r.value.score) && IsInt64(r.value.time)
  {
    var parts := Split(line, ' ');
    if |parts| != 6 || parts[0] != ResultKeyword then None
    else if parts[1] != "SUCCESS" && parts[1] != "FAIL" then None
    else
      match (ParseInt(parts[2]), ParseLong(parts[3]), ParseInt(parts[4]), ParseInt(parts[5]))
      case (Some(score), Some(time), Some(fx), Some(fy)) =>
        Some(MinigameResult(parts[1] == "SUCCESS", score, time, fx, fy))
      case _ => None
  }

  /** Every result message reads back as the values it was built from. */
  lemma ResultRoundTrip(success: bool, score: int, time: int, forcedX: int, forcedY: int)
    requires IsInt32(score) && IsInt64(time) && IsInt32(forcedX) && IsInt32(forcedY)
    ensures ParseResult(CreateResultMessage(success, score, time, forcedX, forcedY))
      == Some(MinigameResult(success, score, time, forcedX, forcedY))
  {
    var parts := Split(CreateResultMessage(success, score, time, forcedX, forcedY), ' ');
    StatusRead(success);
    IntRoundTrip(score);
    LongRoundTrip(time);
    IntRoundTrip(forcedX);
    IntRoundTrip(forcedY);
    assert parts[1] == Status(success) && parts[2] == IntToString(score) && parts[3] == IntToString(time);
    assert parts[4] == IntToString(forcedX) && parts[5] == IntToString(forcedY);
  }

  /** The status token is one of the two words and names the outcome. */
  lemma StatusRead(success: bool)
    ensures Status(success) == "SUCCESS" || Status(success) == "FAIL"
    ensures Status(success) == "SUCCESS" <==> success
  {
  }

  /** The classifier separates minigame lines from the game's own lines: no
      `MOVE`, `START_` or `USER_ID` line is a minigame message. */
  lemma OtherLinesAreNotMinigame(m: string)
    requires StartsWith(m, "MOVE") || StartsWith(m, "START_") || StartsWith(m, "USER_ID")
    ensures !IsMinigameMessage(m)
  {
    assert m[0] == if StartsWith(m, "MOVE") then 'M' else if StartsWith(m, "START_") then 'S' else 'U';
    if StartsWith(m, "MOVE") {
      assert m[1] == 'O';
    }
  }
}

=== FILE: relay_server.dfy ===
// The relay of `NetworkServer.java`: a wait list, a registry of two-player
// rooms with increasing ids, colour assignment on match, verbatim forwarding of
// every line to the partner, and clean-up of the wait list on disconnect.
// Connections are handler ids; socket threads become sequential events.

module RelayServer {
  /** `PORT`: the relay listens on 8080. */
  const Port: int := 8080

  datatype Room = Room(id: nat, player1: nat, player2: nat)

  /** One line written to one handler's socket. */
  datatype Send = Send(to: nat, line: string)

  datatype Server = Server(
    valid: set<nat>,            // handlers whose streams opened (`connected`)
    waiting: seq<nat>,          // `waitingClients`
    rooms: seq<Room>,           // `activeRooms`
    nextRoomId: nat,            // `GameRoom.nextRoomId`
    roomOf: map<nat, Room>,     // each handler's `room` field
    outbox: seq<Send>)

  /** The state when the server starts. */
  function Init(): (s: Server)
    ensures Inv(s) && s.waiting == [] && s.rooms == []
  {
    Server({}, [], [], 1, map[], [])
  }

  /** What the relay keeps true: at most one waiting client, room ids 1, 2, 3,
      ... in creation order, each room with two different players. */
  ghost predicate Inv(s: Server) {
    && |s.waiting| <= 1
    && s.nextRoomId == |s.rooms| + 1
    && (forall i :: 0 <= i < |s.rooms| ==> s.rooms[i].id == i + 1)
    && (forall i :: 0 <= i < |s.rooms| ==> s.rooms[i].player1 != s.rooms[i].player2)
    && (forall h :: h in s.roomOf ==> s.roomOf[h] in s.rooms)
  }

  /** `sendMessage`: a handler whose streams failed to open writes nothing. */
  function SendTo(s: Server, to: nat, line: string): (r: Server)
    ensures r.outbox == s.outbox + (if to in s.valid then [Send(to, line)] else [])
    ensures r.(outbox := s.outbox) == s
  {
    if to in s.valid then s.(outbox := s.outbox + [Send(to, line)]) else s
  }

  /** `matchPlayers(newClient)`: a valid client that is not already waiting is
      paired with the oldest waiting client, or waits when nobody does. The
      earlier client is player1 (Black), the newcomer player2 (White); both
      learn their room and get their start line. */
  function MatchPlayers(s: Server, c: nat): (r: Server)
    ensures r.valid == s.valid
    ensures c !in s.valid || c in s.waiting ==> r == s
    ensures c in s.valid && c !in s.waiting && s.waiting == [] ==>
      r.waiting == s.waiting + [c] && r.rooms == s.rooms && r.outbox == s.outbox
    ensures c in s.valid && c !in s.waiting && s.waiting != [] ==>
      && r.waiting == s.waiting[1..]
      && r.rooms == s.rooms + [Room(s.nextRoomId, s.waiting[0], c)]
      && s.waiting[0] in r.roomOf && c in r.roomOf
      && r.roomOf[s.waiting[0]] == r.roomOf[c] == Room(s.nextRoomId, s.waiting[0], c)
  {
    if c !in s.valid || c in s.waiting then s
    else if |s.waiting| > 0 then
      var p1 := s.waiting[0];
      var room := Room(s.nextRoomId, p1, c);
      var s1 := s.(waiting := s.waiting[1..],
                   rooms := s.rooms + [room],
                   nextRoomId := s.nextRoomId + 1,
                   roomOf := s.roomOf[p1 := room][c := room]);
      SendTo(SendTo(s1, p1, "START_BLACK"), c, "START_WHITE")
    else s.(waiting := s.waiting + [c])
  }

  /** A new connection: the handler is created (its streams open or not) and
      matched. */
  function Accept(s: Server, c: nat, streamsOpen: bool): (r: Server)
    ensures c in r.valid <==> streamsOpen
    ensures streamsOpen && c !in s.waiting ==> c in r.waiting || c in r.roomOf
    ensures !streamsOpen ==> r.waiting == s.waiting && r.rooms == s.rooms && r.outbox == s.outbox
  {
    MatchPlayers(s.(valid := if streamsOpen then s.valid + {c} else s.valid - {c}), c)
  }

  /** `ClientHandler.run`, one line read: forwarded unchanged to the partner
      in the sender's room (`broadcastMove`); dropped when the sender has no
      room or failed to open its streams. */
  function LineReceived(s: Server, c: nat, line: string): (r: Server)
    ensures r.(outbox := s.outbox) == s
  {
    if c !in s.valid || c !in s.roomOf then s
    else
      var room := s.roomOf[c];
      if c == room.player1 then SendTo(s, room.player2, line)
      else if c == room.player2 then SendTo(s, room.player1, line)
      else s
  }

  /** The `finally` of `ClientHandler.run`: leaves the wait list; its room
      stays registered. */
  function Disconnect(s: Server, c: nat): (r: Server)
    ensures Unique(s.waiting) ==> c !in r.waiting
    ensures forall w :: w in r.waiting ==> w in s.waiting
    ensures r.rooms == s.rooms && r.roomOf == s.roomOf && r.outbox == s.outbox
  {
    s.(waiting := Remove(s.waiting, c))
  }

  /** `List.remove(Object)`: drops the first occurrence. */
  function Remove(q: seq<nat>, c: nat): (r: seq<nat>)
    ensures |r| <= |q|
    ensures c !in q ==> r == q
    ensures forall w :: w in r ==> w in q
    ensures Unique(q) ==> c !in r && Unique(r)
  {
    if |q| == 0 then []
    else if q[0] == c then q[1..]
    else
      var rest := Remove(q[1..], c);
      assert q[0] !in q[1..] ==> q[0] !in rest;
      [q[0]] + rest
  }

  predicate Unique(q: seq<nat>) {
    forall i, j :: 0 <= i < j < |q| ==> q[i] != q[j]
  }

  // ---------------------------------------------------------------------------
  // Properties
  // ---------------------------------------------------------------------------

  /** Matching keeps the invariant: a client is queued only when the queue is
      empty, and rooms get the next id. */
  lemma MatchPreservesInv(s: Server, c: nat)
    requires Inv(s)
    ensures Inv(MatchPlayers(s, c))
  {
  }

  lemma AcceptPreservesInv(s: Server, c: nat, streamsOpen: bool)
    requires Inv(s)
    ensures Inv(Accept(s, c, streamsOpen))
  {
    MatchPreservesInv(s.(valid := if streamsOpen then s.valid + {c} else s.valid - {c}), c);
  }

  lemma LinePreservesInv(s: Server, c: nat, line: string)
    requires Inv(s)
    ensures Inv(LineReceived(s, c, line))
  {
  }

  lemma DisconnectPreservesInv(s: Server, c: nat)
    requires Inv(s)
    ensures Inv(Disconnect(s, c))
  {
  }

  /** The outcome of one `matchPlayers` call, case by case: an invalid or
      already-waiting client changes nothing; otherwise the oldest waiting
      client and the newcomer form the next room with Black and White start
      lines, or the newcomer waits. */
  lemma MatchOutcome(s: Server, c: nat)
    requires Inv(s)
    ensures var r := MatchPlayers(s, c);
      && (c !in s.valid || c in s.waiting ==> r == s)
      && (c in s.valid && c !in s.waiting && s.waiting == [] ==>
            r.waiting == [c] && r.rooms == s.rooms && r.outbox == s.outbox)
      && (c in s.valid && c !in s.waiting && |s.waiting| == 1 ==>
            var room := Room(|s.rooms| + 1, s.waiting[0], c);
            && r.waiting == []
            && r.rooms == s.rooms + [room]
            && r.roomOf[s.waiting[0]] == room && r.roomOf[c] == room
            && r.outbox == s.outbox
                 + (if s.waiting[0] in s.valid then [Send(s.waiting[0], "START_BLACK")] else [])
                 + [Send(c, "START_WHITE")])
  {
  }

  /** Three clients A, B, C arriving in that order: A and B share room 1 with A
      as Black, and C waits. */
  lemma ThreeArrivals(a: nat, b: nat, c: nat)
    requires a != b && b != c && a != c
    ensures var s := Accept(Accept(Accept(Init(), a, true), b, true), c, true);
      && s.rooms == [Room(1, a, b)]
      && s.waiting == [c]
      && s.outbox == [Send(a, "START_BLACK"), Send(b, "START_WHITE")]
  {
    var s1 := Accept(Init(), a, true);
    assert s1.waiting == [a];
    var s2 := Accept(s1, b, true);
    assert s2.waiting == [] && s2.rooms == [Room(1, a, b)];
  }

  /** A received line goes, unchanged, only to the sender's partner, and only
      when the sender has a room; nobody else gets anything. */
  lemma ForwardOnlyToPartner(s: Server, c: nat, line: string)
    requires Inv(s)
    ensures var r := LineReceived(s, c, line);
      && (c !in s.roomOf || c !in s.valid ==> r == s)
      && |r.outbox| <= |s.outbox| + 1
      && r.outbox[..|s.outbox|] == s.outbox
      && (|r.outbox| == |s.outbox| + 1 ==>
            var sent := r.outbox[|s.outbox|];
            && sent.line == line && sent.to != c
            && c in s.roomOf
            && (sent.to == s.roomOf[c].player1 || sent.to == s.roomOf[c].player2))
  {
  }

  /** A player of a room reaches its partner with every line once both
      handlers are valid. */
  lemma PartnerReceives(s: Server, c: nat, line: string)
    requires c in s.valid && c in s.roomOf
    requires c == s.roomOf[c].player1 && s.roomOf[c].player2 in s.valid
    ensures LineReceived(s, c, line).outbox == s.outbox + [Send(s.roomOf[c].player2, line)]
  {
  }

  /** A queue of at most one client holds no duplicates, so a disconnect
      removes the client from it entirely. */
  lemma DisconnectLeavesQueue(s: Server, c: nat)
    requires Inv(s)
    ensures c !in Disconnect(s, c).waiting
    ensures Disconnect(s, c).rooms == s.rooms
  {
  }

  /** Room ids strictly increase along the registry. */
  lemma RoomIdsIncrease(s: Server, i: int, j: int)
    requires Inv(s)
    requires 0 <= i < j < |s.rooms|
    ensures 1 <= s.rooms[i].id < s.rooms[j].id
  {
  }
}

=== FILE: rooster_game.dfy ===
// The reaction minigame of `minigame/games/rooster/RoosterGame.java`: a result
// latch that only the first `finishGame` call sets, the one-line state JSON, and
// the game kind. The view's physics and frame timing decide the arguments of
// `finishGame` and are not part of this model.

module RoosterGame {
  import opened Wrappers
  import opened JavaText
  import MemoryJson
  import MinigameBase

  /** The result fields; `elapsed` is a Java `long`, `score` an `int`. */
  datatype Rooster = Rooster(finished: bool, success: bool, score: int, elapsed: int)

  /** The field initialisers of a new game. */
  const Fresh: Rooster := Rooster(false, false, 0, 0)

  /** `finishGame(success, score, elapsedSeconds)`: the first call stores its
      arguments and hands a REACTION result to the callback, if there is one;
      once finished, a call changes nothing and reports nothing. */
  function Finish(g: Rooster, success: bool, score: int, elapsed: int, hasCallback: bool)
    : (r: (Rooster, Option<MinigameBase.Result>))
    ensures g.finished ==> r == (g, None)
    ensures !g.finished ==> r.0 == Rooster(true, success, score, elapsed)
    ensures r.1.Some? <==> !g.finished && hasCallback
    ensures r.1.Some? ==> r.1.value == MinigameBase.Result(success, score, elapsed, MinigameBase.Reaction)
  {
    if g.finished then (g, None)
    else
      var done := Rooster(true, success, score, elapsed);
      (done, if hasCallback then Some(MinigameBase.Result(success, score, elapsed, MinigameBase.Reaction)) else None)
  }

  /** The arguments of one `finishGame` call. */
  datatype Call = Call(success: bool, score: int, elapsed: int)

  /** A series of `finishGame` calls on one game, with the results the
      callback receives, in order. */
  function FinishAll(g: Rooster, calls: seq<Call>, hasCallback: bool): (Rooster, seq<MinigameBase.Result>)
    decreases |calls|
  {
    if |calls| == 0 then (g, [])
    else
      var (g1, out) := Finish(g, calls[0].success, calls[0].score, calls[0].elapsed, hasCallback);
      var (g2, rest) := FinishAll(g1, calls[1..], hasCallback);
      (g2, (if out.Some? then [out.value] else []) + rest)
  }

  /** A finished game ignores every later call: nothing changes and the
      callback hears nothing more. */
  lemma {:induction false} FinishedIgnoresCalls(g: Rooster, calls: seq<Call>, hasCallback: bool)
    requires g.finished
    ensures FinishAll(g, calls, hasCallback) == (g, [])
    decreases |calls|
  {
    if |calls| > 0 {
      FinishedIgnoresCalls(g, calls[1..], hasCallback);
      assert Finish(g, calls[0].success, calls[0].score, calls[0].elapsed, hasCallback) == (g, None);
      var none: seq<MinigameBase.Result> := [];
      assert none + none == none;
    }
  }

  /** Whatever calls follow, the game keeps the first call's arguments, reads
      as finished, and the callback hears exactly one REACTION result, the
      first. */
  lemma FirstCallWins(g: Rooster, calls: seq<Call>, hasCallback: bool)
    requires !g.finished && |calls| >= 1
    ensures var (r, out) := FinishAll(g, calls, hasCallback);
      && IsFinished(r)
      && r == Rooster(true, calls[0].success, calls[0].score, calls[0].elapsed)
      && IsSuccess(r) == calls[0].success
      && out == (if hasCallback
                 then [MinigameBase.Result(calls[0].success, calls[0].score, calls[0].elapsed, MinigameBase.Reaction)]
                 else [])
  {
    var (g1, _) := Finish(g, calls[0].success, calls[0].score, calls[0].elapsed, hasCallback);
    FinishedIgnoresCalls(g1, calls[1..], hasCallback);
  }

  /** `isFinished`. */
  predicate IsFinished(g: Rooster) {
    g.finished
  }

  /** `isSuccess`. */
  predicate IsSuccess(g: Rooster) {
    g.success
  }

  /** `getStateJson`: the four fields in a one-line JSON object, booleans as
      `true`/`false` and numbers in decimal. */
  function StateJson(g: Rooster): (r: string)
    ensures |r| >= 2 && r[0] == '{' && r[|r| - 1] == '}'
  {
    "{\"finished\":" + MemoryJson.BoolText(g.finished)
    + ",\"success\":" + MemoryJson.BoolText(g.success)
    + ",\"score\":" + IntToString(g.score)
    + ",\"elapsed\":" + IntToString(g.elapsed) + "}"
  }

  /** `updateFromJson`: spectators are not synchronised, so any text leaves
      the game as it was. */
  function UpdateFromJson(g: Rooster, json: string): (r: Rooster)
    ensures r == g
  {
    g
  }

  /** `getType`. */
  function Kind(): (k: MinigameBase.Kind)
    ensures k == MinigameBase.Reaction
  {
    MinigameBase.Reaction
  }

  // ---------------------------------------------------------------------------
  // The state JSON read back
  // ---------------------------------------------------------------------------

  function Fields(g: Rooster): seq<MemoryJson.Field> {
    [ MemoryJson.Field("finished", MemoryJson.BoolText(g.finished)),
      MemoryJson.Field("success", MemoryJson.BoolText(g.success)),
      MemoryJson.Field("score", IntToString(g.score)),
      MemoryJson.Field("elapsed", IntToString(g.elapsed)) ]
  }

  lemma FourMembers(k0: string, t0: string, k1: string, t1: string,
                    k2: string, t2: string, k3: string, t3: string)
    ensures MemoryJson.Object(
      [ MemoryJson.Field(k0, t0), MemoryJson.Field(k1, t1),
        MemoryJson.Field(k2, t2), MemoryJson.Field(k3, t3) ]) ==
      "{" + MemoryJson.Token(k0) + t0
      + ("," + MemoryJson.Token(k1)) + t1 + ("," + MemoryJson.Token(k2)) + t2
      + ("," + MemoryJson.Token(k3)) + t3 + "}"
  {
    var fs := [ MemoryJson.Field(k0, t0), MemoryJson.Field(k1, t1),
                MemoryJson.Field(k2, t2), MemoryJson.Field(k3, t3) ];
    var p0 := "{" + MemoryJson.Token(k0) + t0;
    assert MemoryJson.Object(fs) == p0 + ("," + MemoryJson.Members(fs[1..]));
    MemoryJson.SpelledMembers(p0, fs[1..]);
    MemoryJson.SpelledStep(p0, fs, 1);
    var p1 := p0 + ("," + MemoryJson.Token(k1)) + t1;
    MemoryJson.SpelledStep(p1, fs, 2);
    var p2 := p1 + ("," + MemoryJson.Token(k2)) + t2;
    MemoryJson.SpelledStep(p2, fs, 3);
    var p3 := p2 + ("," + MemoryJson.Token(k3)) + t3;
    assert MemoryJson.Spelled(p3, fs[4..]) == p3 + "}";
  }

  lemma OpeningKeys()
    ensures "{\"finished\":" == "{" + MemoryJson.Token("finished")
    ensures ",\"success\":" == "," + MemoryJson.Token("success")
  {
  }

  lemma ClosingKeys()
    ensures ",\"score\":" == "," + MemoryJson.Token("score")
    ensures ",\"elapsed\":" == "," + MemoryJson.Token("elapsed")
  {
  }

  /** The state line is the object of the four fields in source order. */
  lemma StateJsonIsObject(g: Rooster)
    ensures StateJson(g) == MemoryJson.Object(Fields(g))
  {
    var fs := Fields(g);
    FourMembers(fs[0].key, fs[0].text, fs[1].key, fs[1].text,
                fs[2].key, fs[2].text, fs[3].key, fs[3].text);
    OpeningKeys();
    ClosingKeys();
  }

  lemma FieldsWellKeyed(g: Rooster)
    ensures MemoryJson.WellKeyed(Fields(g))
  {
    var fs := Fields(g);
    KeysAreWords();
    assert fs[0].text == "true" || fs[0].text == "false";
    assert fs[1].text == "true" || fs[1].text == "false";
  }

  lemma KeysAreWords()
    ensures MemoryJson.IsKey("finished") && MemoryJson.IsKey("success")
    ensures MemoryJson.IsKey("score") && MemoryJson.IsKey("elapsed")
  {
    assert MemoryJson.IsKey("finished");
    assert MemoryJson.IsKey("success");
    assert MemoryJson.IsKey("score");
  }

  /** The state line is readable by the memory game's field readers: every
      field comes back, whatever the defaults, when the numbers fit an `int`. */
  lemma StateReadBack(g: Rooster, d: Rooster)
    requires IsInt32(g.score) && IsInt32(g.elapsed)
    ensures MemoryJson.ReadBool(StateJson(g), "finished", d.finished) == g.finished
    ensures MemoryJson.ReadBool(StateJson(g), "success", d.success) == g.success
    ensures MemoryJson.ReadInt(StateJson(g), "score", d.score) == g.score
    ensures MemoryJson.ReadInt(StateJson(g), "elapsed", d.elapsed) == g.elapsed
  {
    var fs := Fields(g);
    StateJsonIsObject(g);
    FieldsWellKeyed(g);
    MemoryJson.ReadBoolBack(fs, 0, g.finished, d.finished);
    MemoryJson.ReadBoolBack(fs, 1, g.success, d.success);
    MemoryJson.ReadIntBack(fs, 2, g.score, d.score);
    MemoryJson.ReadIntBack(fs, 3, g.elapsed, d.elapsed);
  }
}

=== FILE: wrappers.dfy ===
/** Failure-compatible optional value, used wherever the Java code returns `null`
    or falls back to a default. */
module Wrappers {

  datatype Option<+T> = None | Some(value: T) {

    /** The wrapped value, or `default` when there is none. */
    function GetOr(default: T): T {
      match this
      case Some(v) => v
      case None => default
    }
  }
}
